=== FILE: README.md ===
# Quick-model signal engines

A Dafny model of the four rule-based stock-signal engines of the stock-market
prediction backend: `QuickModelV6` (the primary engine), `QuickModelV5`,
`QuickModelV4` and `QuickModelV2`. Each takes a flat record of market
features and returns a directional call: a probability, scores, a projected
move, and the reasons for the call.

- **Version 6.**
  - Six component scorers, each clamped to [-1, 1]: technical, sentiment,
    global, volume, fundamentals and intraday.
  - Damping of sentiment that contradicts the day's move.
  - Three regional attributions (Asian, European, local US), each a score
    plus an impact percentage.
  - A weighted composite and a tanh calibrator clamped to [0.55, 0.98].
  - A hard override, then a "no neutral" step.
  - A tiered target-price projector, signal rules and top-reason rules.
  - A keyword matcher over news strings.
- **Version 5.** The same shape with five components. Its calibrator clamps
  to [0.55, 0.95].
- **Version 4.** Reads a string-keyed dictionary that is first filled with
  0.0 for every listed key.
  - A rule-based local score, or a supplied one.
  - A rebound boost and a 50/30/20 local/European/Asian ensemble.
  - A correction-warning accumulator with severity bands, and the adjustment
    it makes to the score.
  - A banded expected move and a list of reasons.
- **Version 2.** The same dictionary shape.
  - A rule-based base score with a rebound boost.
  - An Asian-influence blend, a sigmoid probability and an interpolated
    expected move.
  - A correction warning with configurable thresholds, and a list of reasons.

`tanh` and `exp` are function-valued parameters constrained by the
predicates `Maths.IsTanh` and `Maths.IsExp`. These state that tanh is odd,
strictly increasing, bounded by (-1, 1) and zero at zero, and that exp is
positive, strictly increasing and one at zero. Only those properties are assumed;
`Maths.TanhBounds` adds a few numeric bounds, and the lemmas that need them
say so in their `requires`. All arithmetic is over `real`.

Versions 5 and 6 read a `Features.MarketFeatures` record:
- a key read with a bare `.get(key)` and checked with `is not None` is an
  `Option`;
- every other key holds the default the engines use;
- category strings are enumerations with a catch-all case.

Versions 2 and 4 read a `FeatureMaps.FeatureMap` (`map<string, real>`), so
the effect of their validation step is modelled exactly. Validation keeps
only the listed keys and fills each missing one with 0.0. As a result, a
later `.get(key, 50)` default never applies: a missing RSI reads as 0, not 50.

Facts the proofs bring out:
- Version 6 clamps its calibrated probability to at least 0.55 before the
  override. So a bearish call always has bullish probability exactly 0.44
  (confidence 0.56), and it happens exactly when the composite is below -0.1.
  The "no neutral" step and the consensus SELL signals never fire.
- Version 5 clamps the bullish probability itself to [0.55, 0.95]. So every
  successful version 5 prediction is "up", and it never emits SELL.
- In version 6, the "weak" tier of the local impact percentage reaches 5.0
  at a score of 0.3, above the 4.1 the "moderate" tier gives at 0.31.
  `RegionsV6.LocalImpactTierOverlap` shows this jump.
- The count-averaged scorers are not monotone in an input that has an
  evaluation gate. A value that clears the gate adds a counted sub-signal,
  and a small sub-signal dilutes the others. In version 6, a 0.3%
  open/close gap lowers the intraday score of a 5% rise
  (`ScorersV6.IntradayGapGateCanLower`). In version 5, 1% revenue growth
  lowers the fundamentals score of an upgrade
  (`ScorersV5.FundamentalGateCanLower`). Within one side of the gate, both
  scores are monotone.
- The version 2 test `test_top_reasons_provided`
  (backend/python/tests/test_quick_model_v2.py:264-284) expects at most five
  reasons. The code caps the list at six, and the test's own input produces
  six. `PredictV2.StrongSignalsGiveSixReasons` proves this. The model follows
  the code.

## Model

| member | source | states |
|---|---|---|
| CalibrationV6.WeightsSumToOne | backend/python/models/quick_model_v6.py:42-49 | the six component weights sum to 1 |
| CalibrationV6.Strongest | backend/python/models/quick_model_v6.py:140-143 | the strongest signal is the largest of the four absolute scores and equals one of them |
| CalibrationV6.DampSentiment | backend/python/models/quick_model_v6.py:96-106 | sentiment changes exactly when it contradicts a day move beyond 2%; it is then halved, so its sign is kept and its size never grows |
| CalibrationV6.Composite | backend/python/models/quick_model_v6.py:117-124 | with every component in [-1, 1] the weighted composite is in [-1, 1]; all-zero components give 0 |
| CalibrationV6.AlignmentBoost | backend/python/models/quick_model_v6.py:877-882 | the technical/sentiment alignment boost lies in [0, 0.12] |
| CalibrationV6.PullBack | backend/python/models/quick_model_v6.py:885-891 | a probability of at most one half stays at most one half under the high-volatility pull towards the centre |
| CalibrationV6.PullBackMonotone | backend/python/models/quick_model_v6.py:885-891 | the high-volatility pull keeps the order of probabilities |
| CalibrationV6.Calibrate | backend/python/models/quick_model_v6.py:860-894 | the calibrated probability lies in [0.55, 0.98], and is exactly 0.55 for a non-positive composite |
| CalibrationV6.CalibrateMonotone | backend/python/models/quick_model_v6.py:860-894 | the calibrated probability is non-decreasing in the composite |
| CalibrationV6.CalibrateAboveSixty | backend/python/models/quick_model_v6.py:860-894 | a composite of at least 0.18 at volatility up to 2.5 calibrates above 0.60 |
| CalibrationV6.Override | backend/python/models/quick_model_v6.py:130-135 | a composite below -0.1 caps the probability at 0.44, one above 0.1 lifts it to at least 0.56, and anything in between is untouched |
| CalibrationV6.NoNeutral | backend/python/models/quick_model_v6.py:137-148 | the result is never in (0.45, 0.55); outside that band the input is kept, and inside it the side follows the composite (ties go up only when the strongest signal exceeds 0.3) |
| CalibrationV6.BullishProbability | backend/python/models/quick_model_v6.py:127-148 | the final bullish probability is 0.44 exactly when the composite is below -0.1; otherwise it lies in [0.55, 0.98]; never in (0.45, 0.55) |
| CalibrationV6.NoNeutralNeverFires | backend/python/models/quick_model_v6.py:137-148 | after calibration and override the probability is already outside (0.45, 0.55), so the no-neutral branch is dead |
| CalibrationV6.ConfidenceLevels | backend/python/models/quick_model_v6.py:150-155 | a bearish call always has confidence 0.56; a bullish one at least 0.55 |
| ScorersV6.RsiSignal | backend/python/models/quick_model_v6.py:263-279 | the RSI contribution lies in [-0.9, 0.9]; at least 0.8 when oversold below 30, at most -0.8 when overbought above 70 |
| ScorersV6.RsiSignalNonIncreasing | backend/python/models/quick_model_v6.py:263-279 | the RSI contribution is non-increasing in RSI |
| ScorersV6.MacdStep | backend/python/models/quick_model_v6.py:282-297 | the MACD step lies in [-0.85, 0.85] and is positive exactly for a positive histogram |
| ScorersV6.MacdStepNonDecreasing | backend/python/models/quick_model_v6.py:282-297 | the MACD step, before the divergence term, is non-decreasing in the histogram |
| ScorersV6.MacdDivergence | backend/python/models/quick_model_v6.py:299-303 | a non-zero divergence term always opposes the histogram's sign |
| ScorersV6.DayMomentum | backend/python/models/quick_model_v6.py:351-361 | the 1-day momentum term has the sign of the day's change |
| ScorersV6.TechnicalScore | backend/python/models/quick_model_v6.py:255-386 | the technical score lies in [-1, 1] and is 0 when no technical evidence is present |
| ScorersV6.SentimentScore | backend/python/models/quick_model_v6.py:388-484 | the sentiment score lies in [-1, 1] and is 0 when no sentiment evidence is present |
| ScorersV6.TechnicalNonIncreasingInRsi | backend/python/models/quick_model_v6.py:255-386 | with an RSI reading present and everything else fixed, a higher RSI never raises the technical score |
| ScorersV6.SentimentNonDecreasingInNews | backend/python/models/quick_model_v6.py:388-484 | with a positive article count and everything else fixed, a higher news sentiment never lowers the sentiment score |
| ScorersV6.MoodTerm | backend/python/models/quick_model_v6.py:526-556 | a market's term is the full label weight for 'positive', its negation for 'negative', and never larger in size otherwise |
| ScorersV6.GlobalScore | backend/python/models/quick_model_v6.py:515-558 | the global score lies in [-1, 1]; all markets positive give 1, all negative with weak Asian strength give -1 |
| ScorersV6.MoodTermNonDecreasing | backend/python/models/quick_model_v6.py:526-556 | with the label fixed, a market's term never decreases as its change grows, across the 0.5% gate too |
| ScorersV6.GlobalNonDecreasingInChanges | backend/python/models/quick_model_v6.py:515-558 | with every label and the Asian strength fixed, larger Asian, European and futures changes never lower the global score |
| ScorersV6.VolumeTier | backend/python/models/quick_model_v6.py:724-748 | the volume tier value lies in [-0.8, 0.8] |
| ScorersV6.SelloffFloor | backend/python/models/quick_model_v6.py:750-754 | the drop floor only lowers the score: at most -0.5 below a 2% drop, at most -0.3 below 1.5%, untouched otherwise |
| ScorersV6.VolumeScore | backend/python/models/quick_model_v6.py:711-762 | the volume score lies in [-1, 1]; below a 2% drop it is at most -0.5 (-0.4 with rising volume), below 1.5% at most -0.3 (-0.2) |
| ScorersV6.FundamentalScore | backend/python/models/quick_model_v6.py:764-817 | the fundamentals score lies in [-1, 1] and is 0 with no growth, analyst or insider evidence and a median P/E |
| ScorersV6.WithPe | backend/python/models/quick_model_v6.py:808-817 | adding the P/E term to a tally and averaging stays in [-1, 1] |
| ScorersV6.WithPeNonDecreasing | backend/python/models/quick_model_v6.py:808-817 | the averaged score is non-decreasing in the P/E percentile |
| ScorersV6.FundamentalNonDecreasingInPe | backend/python/models/quick_model_v6.py:764-817 | raising the P/E percentile never lowers the fundamentals score |
| ScorersV6.IntradayScore | backend/python/models/quick_model_v6.py:819-858 | the intraday score lies in [-1, 1] and is 0 for a quiet session |
| ScorersV6.IntradayNonDecreasingInGap | backend/python/models/quick_model_v6.py:819-858 | on either side of the 0.1% gate, a larger open/close gap never lowers the intraday score |
| ScorersV6.IntradayGapGateCanLower | backend/python/models/quick_model_v6.py:848-858 | a gap that just clears the gate is counted as a new sub-signal and can lower the score: a 5% intraday rise scores less with a 0.3% gap than with none |
| RegionsV6.AsianImpact | backend/python/models/quick_model_v6.py:560-586 | the Asian score lies in [-1, 1] and its impact in [0, 10]; 'positive' gives score at least 0.4 and impact in [2.5, 5]; 'negative' gives score at most -0.4 and impact in [1.5, 4] |
| RegionsV6.EuropeanImpact | backend/python/models/quick_model_v6.py:588-614 | the European score lies in [-1, 1] and its impact in [0, 15]; 'positive' gives impact in [3.5, 8]; 'negative' gives impact in [2.5, 7] |
| RegionsV6.UsMarketsFactor | backend/python/models/quick_model_v6.py:673-688 | the US-markets factor has the sign of the influence score and stays within 1.08 in size for influence within 0.9 |
| RegionsV6.LocalUsFactors | backend/python/models/quick_model_v6.py:616-709 | the local score lies in [-1, 1] and every reported factor is clipped to [-1, 1] |
| RegionsV6.LocalImpactPercent | backend/python/models/quick_model_v6.py:1159-1179 | the local impact lies in [0, 10]; it is 1.0 exactly for a zero score, at least 2 otherwise, and at most 8 for a score in [-1, 1] |
| RegionsV6.LocalImpactSymmetric | backend/python/models/quick_model_v6.py:1164-1177 | negating the local score leaves its impact unchanged |
| RegionsV6.LocalImpactTierOverlap | backend/python/models/quick_model_v6.py:1166-1169 | the weak tier gives 5.0 at 0.3, more than the moderate tier gives at 0.31 |
| KeywordsV6.Lower | backend/python/models/quick_model_v6.py:497 | lower-casing keeps the length and maps each character |
| KeywordsV6.ContainsIffOccurs | backend/python/models/quick_model_v6.py:501 | the substring test holds exactly when the needle occurs at some position |
| KeywordsV6.FirstMatch | backend/python/models/quick_model_v6.py:500-511 | the scan returns the weight of the first table phrase contained in the text, and nothing exactly when no phrase is contained |
| KeywordsV6.FirstMatchBounded | backend/python/models/quick_model_v6.py:52-66 | every matched weight lies in [-2, 2] |
| KeywordsV6.KeywordStepBalanced | backend/python/models/quick_model_v6.py:496-511 | one keyword adds at most two matches, each contributing at most 0.2 in size |
| KeywordsV6.AnalyzeNewsKeywords | backend/python/models/quick_model_v6.py:486-513 | the keyword score lies in [-0.2, 0.2], is 0 for an empty list or no match, and equals the average matched contribution |
| TargetV6.DayBoost | backend/python/models/quick_model_v6.py:939-944 | the 1-day boost factor lies in [1, 1.25] |
| TargetV6.WeekBoost | backend/python/models/quick_model_v6.py:947-950 | the 5-day boost factor lies in [1, 1.2] |
| TargetV6.RawMove | backend/python/models/quick_model_v6.py:909-956 | before the cap, the move is at least 80% of a same-direction 1-day move beyond 1% |
| TargetV6.TargetPrice | backend/python/models/quick_model_v6.py:896-967 | the change lies in [0.5, 10] in size, is positive exactly for a bullish call, and the target is above a positive price exactly when bullish, within 10% of it |
| TargetV6.ScaleBounds | backend/python/models/quick_model_v6.py:965 | a factor in [0.9, 1.1] keeps the target within 10% of the price, and above it exactly when the factor exceeds 1 |
| TargetV6.FollowsStrongMomentum | backend/python/models/quick_model_v6.py:953-959 | a bullish call after a 1-day rise in (1, 12.5] projects at least 80% of that rise |
| SignalsV6.ConsensusSignals | backend/python/models/quick_model_v6.py:985-1027 | one consensus signal, BUY when bullish and SELL when bearish, exactly when confidence exceeds 0.60 |
| SignalsV6.RsiSignals | backend/python/models/quick_model_v6.py:1030-1059 | a WARNING exactly when RSI is truthy and above 75; an OPPORTUNITY exactly when truthy and below 25 |
| SignalsV6.VolumeSignals | backend/python/models/quick_model_v6.py:1062-1076 | an ALERT exactly when the volume ratio exceeds 1.8 |
| SignalsV6.NewsSignals | backend/python/models/quick_model_v6.py:1079-1094 | a news BUY for sentiment above 0.7 and a news SELL below -0.7, both only with more than five articles |
| SignalsV6.ConsensusOnlyInHead | backend/python/models/quick_model_v6.py:981-1094 | consensus signals occur only in the leading part of the list |
| SignalsV6.AlertSignals | backend/python/models/quick_model_v6.py:1030-1094 | the non-consensus signals are at most three: RSI, then volume, then news |
| SignalsV6.AllSignals | backend/python/models/quick_model_v6.py:981-1094 | at most four signals in rule order; any consensus signal agrees with the call; none when confidence is at most 0.60 |
| SignalsV6.GenerateSignals | backend/python/models/quick_model_v6.py:969-1096 | at most five signals; a consensus BUY only when bullish and a SELL only when bearish; WARNING, OPPORTUNITY and ALERT exactly under their conditions |
| SignalsV6.SignalCapNeverBites | backend/python/models/quick_model_v6.py:1096 | the five-signal cap never removes anything |
| SignalsV6.TechnicalReason | backend/python/models/quick_model_v6.py:1111-1118 | a technical reason exactly when the technical score exceeds 0.4 in size |
| SignalsV6.SentimentReason | backend/python/models/quick_model_v6.py:1121-1129 | a sentiment reason exactly when the sentiment score exceeds 0.3 in size |
| SignalsV6.MarketReasons | backend/python/models/quick_model_v6.py:1131-1155 | at most four market reasons: Asian strength or weakness exactly for a positive or negative Asian label, the same for the European label, volume support exactly above 1.5 times average, oversold exactly for a truthy RSI below 30 and overbought exactly for one above 70 |
| SignalsV6.MoodReasons | backend/python/models/quick_model_v6.py:1131-1143 | the Asian and European reasons appear exactly for a positive or negative label, and no volume or RSI reason appears |
| SignalsV6.TapeReasons | backend/python/models/quick_model_v6.py:1145-1155 | volume support exactly above 1.5 times average, oversold exactly for a truthy RSI below 30, overbought exactly for one above 70, and no regional reason |
| SignalsV6.TopReasons | backend/python/models/quick_model_v6.py:1098-1157 | three reasons, or all of them when fewer fire, each one a technical, sentiment or market reason; the technical reason comes first when present and the sentiment reason next (first when no technical reason fires); with neither, the reasons are the leading market reasons; a market reason kept is one whose rule fired |
| SignalsV6.FirstThree | backend/python/models/quick_model_v6.py:1157 | cutting at most one technical, at most one sentiment and any market reasons to three keeps three, or all when fewer; every kept reason is one of the inputs; the technical reason leads and the sentiment reason follows it; with neither, the result is the leading market reasons; a kept market reason comes from the market list |
| PredictV6.ComponentScores | backend/python/models/quick_model_v6.py:88-106 | every component lies in [-1, 1] and sentiment is the damped sentiment score |
| PredictV6.Contribution | backend/python/models/quick_model_v6.py:188-190 | a region's contribution is at most its impact cap divided by 100 in size |
| PredictV6.Call | backend/python/models/quick_model_v6.py:150-155 | the call is bullish exactly above one half, with confidence the probability of the side chosen |
| PredictV6.Attribute | backend/python/models/quick_model_v6.py:109-114 | Asian and local contributions are at most 0.1 in size and the European one at most 0.15 |
| PredictV6.Assemble | backend/python/models/quick_model_v6.py:87-247 | every successful prediction is well formed (see `PredictV6.Predict`) |
| PredictV6.Predict | backend/python/models/quick_model_v6.py:68-253 | a missing or non-positive price is the only error; otherwise down exactly when the composite is below -0.1 with probability 0.44, up with probability in [0.55, 0.98], target above price exactly when up, no consensus SELL, at most 5 signals and 3 reasons |
| PredictV6.PriceOnlyIsMildlyBullish | backend/python/models/quick_model_v6.py:82-155 | a record holding only a positive price scores 0 overall and is called up at 0.55 |
| PredictV6.OversoldRallyTechnical | backend/python/models/quick_model_v6.py:255-386 | an oversold record with bullish MACD, alignment and a 1-day rally scores between 0.6 and 0.7 technically |
| PredictV6.OversoldRallyTally | backend/python/models/quick_model_v6.py:255-386 | the same record's technical tally, indicator by indicator |
| PredictV6.OversoldRallyScores | backend/python/models/quick_model_v6.py:88-92 | the same record's six component scores |
| PredictV6.OversoldRallyIsBuy | backend/python/models/quick_model_v6.py:68-247 | that record is called up and emits a BUY |
| ScorersV5.RsiSignal | backend/python/models/quick_model_v5.py:157-169 | the RSI contribution lies in [-0.8, 0.8]; exactly 0.8 below 30 and -0.8 above 70 |
| ScorersV5.RsiSignalNonIncreasing | backend/python/models/quick_model_v5.py:157-169 | the RSI contribution is non-increasing in RSI |
| ScorersV5.MacdStep | backend/python/models/quick_model_v5.py:172-182 | the MACD step is one of ±0.4, ±0.7 and positive exactly for a positive histogram |
| ScorersV5.TechnicalScore | backend/python/models/quick_model_v5.py:148-225 | the technical score lies in [-1, 1]; with no indicator it is the support/resistance proximity term alone |
| ScorersV5.TechnicalNonIncreasingInRsi | backend/python/models/quick_model_v5.py:148-225 | with an RSI reading present and everything else fixed, a higher RSI never raises the technical score |
| ScorersV5.SentimentScore | backend/python/models/quick_model_v5.py:227-270 | the sentiment score lies in [-1, 1]; with no news, social or earnings input it is ±0.7 for one keyword flag and 0 otherwise |
| ScorersV5.SentimentNonDecreasingInNews | backend/python/models/quick_model_v5.py:227-270 | with a positive article count and everything else fixed, a higher news sentiment never lowers the sentiment score |
| ScorersV5.MarketTerm | backend/python/models/quick_model_v5.py:283-299 | a market's term is positive exactly for 'positive' sentiment or an otherwise rising market |
| ScorersV5.GlobalScore | backend/python/models/quick_model_v5.py:272-308 | the global score lies in [-0.95, 0.95] and is 0.95 when every market is positive |
| ScorersV5.MarketTermNonDecreasing | backend/python/models/quick_model_v5.py:283-299 | with the label fixed, a market's term never decreases as its change grows |
| ScorersV5.GlobalNonDecreasingInChanges | backend/python/models/quick_model_v5.py:272-308 | with every label fixed, larger Asian and European changes never lower the global score |
| ScorersV5.VolumeScore | backend/python/models/quick_model_v5.py:310-339 | the volume score lies in [-0.8, 0.8] and has the sign of the day's change, so it is 0 for a flat day |
| ScorersV5.FundamentalTallyBounded | backend/python/models/quick_model_v5.py:341-377 | every fundamentals contribution is at most 0.7 in size, and none is counted without evidence |
| ScorersV5.ClampedAverage | backend/python/models/quick_model_v5.py:379 | the average of a bounded tally lies in [-0.7, 0.7], 0 when empty |
| ScorersV5.FundamentalScore | backend/python/models/quick_model_v5.py:341-379 | the fundamentals score lies in [-0.7, 0.7] and is 0 with no evidence |
| ScorersV5.FundamentalNonDecreasingInGrowth | backend/python/models/quick_model_v5.py:341-379 | as long as neither growth figure moves to or from zero, higher revenue and earnings growth never lower the fundamentals score |
| ScorersV5.FundamentalGateCanLower | backend/python/models/quick_model_v5.py:349-360 | a non-zero growth figure is counted as a new sub-signal and can lower the score: an upgrade alone scores 0.5, and less with 1% revenue growth |
| PredictV5.WeightsSumToOne | backend/python/models/quick_model_v5.py:38-44 | the five component weights sum to 1 |
| PredictV5.ComponentScores | backend/python/models/quick_model_v5.py:63-67 | every component lies in [-1, 1] |
| PredictV5.Composite | backend/python/models/quick_model_v5.py:70-76 | with every component in [-1, 1] the composite is in [-1, 1] |
| PredictV5.LinearProbability | backend/python/models/quick_model_v5.py:80 | the linear probability lies in [0, 1] and exceeds one half exactly for a positive composite |
| PredictV5.AdjustConfidence | backend/python/models/quick_model_v5.py:381-412 | the adjusted probability lies in [0.55, 0.95], and is 0.55 whenever the input is at most one half |
| PredictV5.AdjustConfidenceMonotone | backend/python/models/quick_model_v5.py:381-412 | the adjustment keeps the order of probabilities |
| PredictV5.NoNeutral | backend/python/models/quick_model_v5.py:86-92 | the result is never in (0.45, 0.55), and outside that band the input is kept |
| PredictV5.TargetPrice | backend/python/models/quick_model_v5.py:414-456 | the change lies in [0.3, 6] in size, is positive exactly when bullish, and the target is above a positive price exactly when bullish |
| PredictV5.PositiveScale | backend/python/models/quick_model_v5.py:454 | scaling a positive price raises it exactly for a factor above 1 |
| PredictV5.DirectionSignals | backend/python/models/quick_model_v5.py:472-497 | one BUY (bullish) or SELL (bearish) signal exactly when confidence exceeds 0.60 |
| PredictV5.ConditionSignals | backend/python/models/quick_model_v5.py:500-523 | WARNING exactly for a truthy RSI above 75, OPPORTUNITY for a truthy RSI below 25, ALERT for a volume ratio above 2 |
| PredictV5.GenerateSignals | backend/python/models/quick_model_v5.py:458-525 | at most three signals; BUY only when bullish, SELL only when bearish; WARNING, OPPORTUNITY and ALERT exactly under their conditions |
| PredictV5.Predict | backend/python/models/quick_model_v5.py:46-146 | a missing or non-positive price is the only error; every success is "up" with confidence in [0.55, 0.95] (0.55 for a non-positive composite), a target 0.3% to 6% above the price, and no SELL |
| RulesV4.Rebound | backend/python/models/quick_model_v4.py:452-494 | the rebound score lies in [0, 1] and is positive exactly when one of the five patterns holds |
| RulesV4.FallbackRsiTerm | backend/python/models/quick_model_v4.py:422-431 | the RSI term is positive when oversold below 30 and negative when overbought above 70 |
| RulesV4.Fallback | backend/python/models/quick_model_v4.py:340-450 | the fallback local score lies in [-1, 1] |
| RulesV4.TodayNewsIsolated | backend/python/models/quick_model_v4.py:405-415 | today's news sentiment affects no other fallback term and not the rebound score |
| RulesV4.FallbackNonDecreasingInTodayNews | backend/python/models/quick_model_v4.py:340-450 | raising today's news sentiment never lowers the fallback score |
| RulesV4.FirstSixFirings | backend/python/models/quick_model_v4.py:514-556 | every fired pattern adds positive points; an UP pattern needs RSI-14 below 40 and a DOWN one above 65 |
| RulesV4.TotalPointsNonNegative | backend/python/models/quick_model_v4.py:514-563 | the accumulated correction points are non-negative and positive once any pattern fires |
| RulesV4.PatternsOf | backend/python/models/quick_model_v4.py:520-563 | the pattern list names the fired patterns in order |
| RulesV4.Summarise | backend/python/models/quick_model_v4.py:565-573 | the score lies in [0, 100]; a warning exactly when a pattern fired; with none: NEUTRAL, no patterns, LOW; otherwise the last pattern's direction; HIGH above 60, MODERATE in (30, 60] |
| RulesV4.CorrectionWarningAsWritten | backend/python/models/quick_model_v4.py:558-563 | as written, every input with a volume spike and RSI-14 above 70 fails with the undefined-name error |
| RulesV4.VolumeExhaustionFiring | backend/python/models/quick_model_v4.py:558-563 | the corrected seventh pattern fires exactly with a spike, RSI-14 above 70 and a 1-day change above 3, adding 25 DOWN points |
| RulesV4.TotalPointsAppend | backend/python/models/quick_model_v4.py:514-563 | the points of two runs of fired patterns add up, as `correction_score +=` accumulates them |
| RulesV4.UpPointsBound | backend/python/models/quick_model_v4.py:522-556 | below RSI-14 40 only the oversold (at most 40), extended-decline (25) and lower-band (20) patterns can fire, so the points stay at most 85 |
| RulesV4.CorrectionWarningOf | backend/python/models/quick_model_v4.py:496-573 | the corrected warning: score in [0, 100], the empty warning when nothing fires, severity bands, DOWN needs RSI-14 above 65 and UP below 40, an UP warning scores at most 85, volume exhaustion exactly under its conditions |
| RulesV4.ExtremeRsiScoresForty | backend/python/models/quick_model_v4.py:514-528 | an RSI-14 beyond 75 or below 25 scores the full 40 points |
| RulesV4.MissingRsiLooksOversold | backend/python/models/quick_model_v4.py:305-330 | after filling, a record without RSI-14 or band position raises a MODERATE upward warning scoring 60 |
| RulesV4.AdjustForCorrection | backend/python/models/quick_model_v4.py:233-256 | the adjustment never enlarges the score; a DOWN warning keeps at least half of a positive score; a strong UP warning maps a negative s to 0.7·abs(s); otherwise the sign is kept; with no warning nothing changes |
| RulesV4.BaseMove | backend/python/models/quick_model_v4.py:587-608 | the banded base move is at least 1.2 |
| RulesV4.BaseMoveMonotone | backend/python/models/quick_model_v4.py:587-608 | the base move is non-decreasing in the signal magnitude |
| RulesV4.Magnitude | backend/python/models/quick_model_v4.py:610-618 | a positive multiplier gives a magnitude of at least 1.2 times it; a multiplier of 1.5 or more gives at least 2 |
| RulesV4.MagnitudeMonotone | backend/python/models/quick_model_v4.py:610-618 | the magnitude is non-decreasing in the base move |
| RulesV4.ExpectedMove | backend/python/models/quick_model_v4.py:575-622 | for a positive multiplier the move is non-zero and non-negative exactly for a non-negative score; a multiplier of 1.5 or more gives at least 2 in size |
| RulesV4.ExpectedMoveMonotone | backend/python/models/quick_model_v4.py:575-622 | the size of the move is non-decreasing in the size of the score |
| RulesV4.AllReasons | backend/python/models/quick_model_v4.py:624-672 | the uncapped reasons are one to seven and end with the ensemble signal |
| RulesV4.Reasons | backend/python/models/quick_model_v4.py:624-674 | one to six reasons; the European reason first when present; the ensemble signal last unless the cap cuts it |
| PredictV4.WeightsSumToOne | backend/python/models/quick_model_v4.py:72-74 | the local, European and Asian weights sum to 1 |
| PredictV4.Validate | backend/python/models/quick_model_v4.py:305-330 | as written: exactly the listed keys, each from the input or 0.0, plus the multiplier if given; a supplied local score is dropped |
| PredictV4.ValidateCorrected | backend/python/models/quick_model_v4.py:187-194 | the corrected validation also keeps a supplied local score and agrees with the as-written one elsewhere |
| PredictV4.BaseLocalScore | backend/python/models/quick_model_v4.py:190-197 | a supplied local score is used verbatim; otherwise the fallback score |
| PredictV4.LocalScore | backend/python/models/quick_model_v4.py:205-210 | a rebound of at most 0.3 leaves the local score alone; a stronger one raises it by at least 0.105 (up to 1) and keeps it in [-1, 1] |
| PredictV4.SignedMagnitude | backend/python/models/quick_model_v4.py:213-217 | sign times magnitude is the influence score itself |
| PredictV4.Assemble | backend/python/models/quick_model_v4.py:212-300 | from any three scores, warning and one to six reasons: contributions are weight times score, the final score is the corrected ensemble, the probability is the sigmoid of five times it, and the prediction is well formed |
| PredictV4.Evaluate | backend/python/models/quick_model_v4.py:181-303 | contributions are the weighted scores; BULLISH exactly for a positive final score; the probability is the sigmoid of five times the final score, in (0, 1) and above one half exactly when bullish; the adjustment never enlarges the ensemble; the move sign follows the score |
| PredictV4.PredictAsWritten | backend/python/models/quick_model_v4.py:168-303 | as written: the prediction fails exactly on a spike with RSI-14 above 70; otherwise it is well formed (probability the sigmoid of five times the final score), never reports volume exhaustion, and ignores a supplied local score |
| PredictV4.Predict | backend/python/models/quick_model_v4.py:168-303 | corrected: always well formed (probability the sigmoid of five times the final score); a supplied local score is used when no strong rebound applies; volume exhaustion is reported exactly under its conditions |
| PredictV4.ProbabilityOrder | backend/python/models/quick_model_v4.py:259 | of two well-formed predictions the larger final score has the probability at least as large, strictly larger while both scores lie in [-100, 100] |
| PredictV4.ProbabilityIncreasing | backend/python/models/quick_model_v4.py:259 | across two corrected predictions, a larger final score never has a smaller probability |
| PredictV4.SuppliedScoreIgnored | backend/python/models/quick_model_v4.py:190-194 | as written, changing the supplied local score never changes the prediction |
| PredictV4.CorrectedAgreesOtherwise | backend/python/models/quick_model_v4.py:168-303 | without a supplied score or the failing input the corrected and as-written predictions agree |
| PredictV4.ValidateDropsSupplied | backend/python/models/quick_model_v4.py:305-330 | as written, validation yields the same dictionary whatever local score is supplied |
| PredictV4.UnlistedKeys | backend/python/models/quick_model_v4.py:77-100 | neither the volatility multiplier nor the supplied local score is a listed feature key |
| PredictV4.ZeroRecordFallback | backend/python/models/quick_model_v4.py:340-450 | with every reading 0.0 and no rebound, the fallback score is 0.015, the oversold RSI term alone |
| PredictV4.CorrectedZeroRebound | backend/python/models/quick_model_v4.py:187-194 | keeping the supplied score in the corrected validation adds no rebound to the all-zero record |
| PredictV4.AllZeroReadings | backend/python/models/quick_model_v4.py:305-330 | after filling an input holding only a supplied score, every read key is 0 and no rebound fires |
| PredictV4.ReadKeysListed | backend/python/models/quick_model_v4.py:77-100 | the keys the rules read are among the validated ones |
| PredictV4.SuppliedScoreExample | backend/python/models/quick_model_v4.py:190-194 | a supplied 0.9 becomes 0.015 as written and stays 0.9 corrected |
| PredictV4.ExhaustedRallyExample | backend/python/models/quick_model_v4.py:558-563 | a spike with RSI-14 80 and a 5% day fails as written and raises a DOWN volume-exhaustion warning corrected |
| RulesV2.Rebound | backend/python/models/quick_model_v2.py:296-344 | the rebound score lies in [0, 1] and is positive exactly when one of the five patterns holds |
| RulesV2.NewsTerm | backend/python/models/quick_model_v2.py:264-271 | the news term lies in [-0.3, 0.5] and has the sign of the news sentiment |
| RulesV2.RsiTerm | backend/python/models/quick_model_v2.py:273-292 | the RSI term is one of four values and negative exactly when RSI-14 exceeds 70 |
| RulesV2.Fallback | backend/python/models/quick_model_v2.py:252-294 | the fallback base score lies in [-1, 1] |
| RulesV2.MacdIsolated | backend/python/models/quick_model_v2.py:252-294 | the MACD histogram affects no other fallback term |
| RulesV2.FallbackNonDecreasingInMacd | backend/python/models/quick_model_v2.py:252-294 | raising the MACD histogram never lowers the fallback score |
| RulesV2.QuietFallback | backend/python/models/quick_model_v2.py:252-344 | with flat prices, neutral news and mid-range RSI no rebound fires and the score is the clipped MACD term alone |
| RulesV2.BoostedBase | backend/python/models/quick_model_v2.py:176-181 | the boost keeps the score in [-1, 1], never lowers it, and does nothing for a rebound of at most 0.3 |
| RulesV2.AsianImpact | backend/python/models/quick_model_v2.py:184-187 | the impact lies in [0, cap], reaching the cap for an influence of size 1 or more |
| RulesV2.Blend | backend/python/models/quick_model_v2.py:190-193 | for an impact in [0, 1] the final score lies between the base and the influence; a zero impact keeps the base |
| RulesV2.BlendPull | backend/python/models/quick_model_v2.py:190-193 | the blend moves the base towards the influence by the impact times their gap |
| RulesV2.HalfwayBlend | backend/python/models/quick_model_v2.py:184-193 | under the default cap an influence of size 1 or more lands halfway between base and influence |
| RulesV2.HalfCapImpact | backend/python/models/quick_model_v2.py:184-187 | under the default cap an influence within 1 has impact half its size |
| RulesV2.BlendBetween | backend/python/models/quick_model_v2.py:190-193 | a convex combination lies between its two ends |
| RulesV2.CalibrationShape | backend/python/models/quick_model_v2.py:358-369 | the interpolation table has five strictly increasing keys and non-decreasing moves |
| RulesV2.CalibratedMove | backend/python/models/quick_model_v2.py:358-369 | the interpolated base move lies in [0.5, 4] |
| RulesV2.VolatilityFactor | backend/python/models/quick_model_v2.py:372 | the ATR factor is at least 1 |
| RulesV2.VolatilityFactorMonotone | backend/python/models/quick_model_v2.py:372 | the ATR factor is non-decreasing in ATR |
| RulesV2.MoveMagnitude | backend/python/models/quick_model_v2.py:369-375 | the move magnitude is at least 0.5 |
| RulesV2.ExpectedMove | backend/python/models/quick_model_v2.py:346-378 | the move has the sign of the final score and is at least 0.5 in size for a non-zero score |
| RulesV2.CalibratedMoveMonotone | backend/python/models/quick_model_v2.py:358-369 | the interpolated move is non-decreasing in the score magnitude |
| RulesV2.MoveMagnitudeProduct | backend/python/models/quick_model_v2.py:369-375 | the magnitude is the interpolated move times the ATR factor |
| RulesV2.FactorsMonotone | backend/python/models/quick_model_v2.py:369-375 | larger factors give a larger product |
| RulesV2.MoveMagnitudeMonotone | backend/python/models/quick_model_v2.py:346-378 | the magnitude is non-decreasing in both score magnitude and ATR |
| RulesV2.ExpectedMoveMonotone | backend/python/models/quick_model_v2.py:346-378 | a larger score in size with no smaller ATR never gives a smaller move in size, including from a zero score |
| RulesV2.Checks | backend/python/models/quick_model_v2.py:396-432 | one check per condition that holds, in the order surge, band, volume, so the count is the number of conditions met; each at confidence at most 0.9; a HIGH check exactly when a HIGH condition holds |
| RulesV2.Largest | backend/python/models/quick_model_v2.py:445 | the largest confidence bounds every one and is one of them |
| RulesV2.ReasonsOf | backend/python/models/quick_model_v2.py:444 | the warning's reasons are the checks' reasons in order |
| RulesV2.ConfidencesOf | backend/python/models/quick_model_v2.py:445 | the confidences are the checks' confidences in order |
| RulesV2.CorrectionWarning | backend/python/models/quick_model_v2.py:380-451 | no warning exactly when no check fires; otherwise the reasons are exactly the fired checks' reasons in check order, HIGH exactly when some check is HIGH, and the confidence equals the largest fired check's confidence, at most 0.9 |
| RulesV2.ReboundReason | backend/python/models/quick_model_v2.py:466-479 | one rebound reason exactly when the stock is rebounding |
| RulesV2.ContextReasons | backend/python/models/quick_model_v2.py:481-532 | no context reason is a rebound reason |
| RulesV2.Reasons | backend/python/models/quick_model_v2.py:453-534 | one to six reasons; the rebound reason first when rebounding and absent otherwise; the trend-continuation default when nothing applies |
| PredictV2.Validate | backend/python/models/quick_model_v2.py:230-242 | exactly the listed keys, each from the input or 0.0 |
| PredictV2.ValidateIdempotent | backend/python/models/quick_model_v2.py:230-242 | validating twice is validating once |
| PredictV2.ReadKeysListed | backend/python/models/quick_model_v2.py:64-78 | the keys the rules read are among the validated ones |
| PredictV2.Evaluate | backend/python/models/quick_model_v2.py:162-214 | the prediction is well formed, so its probability is the sigmoid of five times the final score; the base is the boosted fallback, the impact and blend are as configured, and the warning and reasons are those of the validated record; the move is the expected-move rule applied to the final score and the record's ATR-14 |
| PredictV2.Assemble | backend/python/models/quick_model_v2.py:184-214 | any base in [-1, 1] gives a well formed prediction: BULLISH exactly for a positive final score, probability equal to the sigmoid of five times the final score, in (0, 1) and above one half exactly when bullish, move given by the expected-move rule for that final score and ATR, so of the score's sign, zero for a zero score and at least 0.5 in size for a non-zero score, impact within the cap, final score between base and influence |
| PredictV2.Predict | backend/python/models/quick_model_v2.py:148-228 | well formed, with the probability the sigmoid of five times the final score; the base never falls below the fallback and equals it without a strong rebound; no warning exactly when no check fires; a rebounding record leads with the rebound reason; the move is the expected-move rule applied to the final score and the ATR-14 reading |
| PredictV2.ProbabilityOrder | backend/python/models/quick_model_v2.py:194-195 | of two well formed predictions, the larger final score never has the smaller probability, and has the strictly larger one while both scores lie in [-100, 100] |
| PredictV2.ProbabilityIncreasing | backend/python/models/quick_model_v2.py:194-195 | the same ordering for any two records under the same settings: the probability is increasing in the final score |
| PredictV2.NoAsianInfluence | backend/python/models/quick_model_v2.py:184-193 | a zero Asian influence leaves the final score equal to the base |
| PredictV2.FullAsianInfluence | backend/python/tests/test_quick_model_v2.py:87-103 | under the default configuration an influence of size 1 or more has impact exactly 0.5 and lands halfway |
| PredictV2.Reads | backend/python/models/quick_model_v2.py:230-242 | after validation every listed key holds the input's value or 0.0 |
| PredictV2.MacdAgainstAsia | backend/python/models/quick_model_v2.py:184-193 | in a quiet record the base is the MACD term and the impact half the influence size |
| PredictV2.BearishAsiaExample | backend/python/tests/test_quick_model_v2.py:22-43 | a mildly bullish base against strongly bearish Asia ends BEARISH at -0.29 |
| PredictV2.BullishAsiaExample | backend/python/tests/test_quick_model_v2.py:45-66 | a mildly bearish base under strongly bullish Asia ends BULLISH at 0.344 |
| PredictV2.SurgeWarning | backend/python/models/quick_model_v2.py:398-407 | a 7-day rise above 10% with RSI-14 above 85 warns HIGH with the surge reason first |
| PredictV2.SurgeWithHighRsiExample | backend/python/tests/test_quick_model_v2.py:109-131 | the test's surge input warns HIGH |
| PredictV2.BandWarning | backend/python/models/quick_model_v2.py:409-425 | a band z-score of 4 warns HIGH with the band reason alone |
| PredictV2.BandBreakoutExample | backend/python/tests/test_quick_model_v2.py:133-154 | the test's band-breakout input warns HIGH |
| PredictV2.VolumeWarning | backend/python/models/quick_model_v2.py:427-451 | a 2.5 volume ratio with an 11% week warns MEDIUM at 0.65 with the volume reason alone |
| PredictV2.VolumeSurgeExample | backend/python/tests/test_quick_model_v2.py:156-177 | the test's volume-spike input gives that warning |
| PredictV2.QuietWeek | backend/python/models/quick_model_v2.py:434-435 | a week up at most 10% inside the band gives no warning |
| PredictV2.NormalConditionsExample | backend/python/tests/test_quick_model_v2.py:179-199 | the test's normal input gives no warning |
| PredictV2.StrongRallyReasons | backend/python/models/quick_model_v2.py:488-534 | a strong rally with strong Asia produces six reasons, market fear last |
| PredictV2.StrongSignalsGiveSixReasons | backend/python/tests/test_quick_model_v2.py:264-284 | the test's strong-signal input produces six reasons |
| Maths.Sigmoid | backend/python/models/quick_model_v2.py:248-250 | the sigmoid lies in (0, 1) and is one half at zero |
| Maths.SigmoidMonotone | backend/python/models/quick_model_v2.py:248-250 | the sigmoid is non-decreasing, strictly inside the unclipped range |
| Maths.GatedTanhMonotone | backend/python/models/quick_model_v6.py:526-556 | a scaled tanh that is zero inside a gate around 0 still never decreases in its argument |
| Maths.SigmoidAboveHalf | backend/python/models/quick_model_v4.py:336-338 | the sigmoid exceeds one half exactly for a positive argument |
| Maths.Interp | backend/python/models/quick_model_v2.py:369 | interpolation over a non-decreasing table stays between its first and last values |
| Maths.InterpMonotone | backend/python/models/quick_model_v2.py:369 | interpolation over a non-decreasing table is non-decreasing |
| Maths.MeanBounds | backend/python/models/quick_model_v6.py:695-701 | a mean of values within bounds stays within them |
| FeatureMaps.Filled | backend/python/models/quick_model_v2.py:230-242 | filling keeps exactly the listed keys, each from the input or 0.0 |
| FeatureMaps.FilledDefaultsShadow | backend/python/models/quick_model_v4.py:305-316 | after filling, a later lookup's default never applies to a listed key |

## Left out

- `main()` in every engine: argument parsing, JSON on stdin and stdout, and process exit are I/O.
- `train`, `save_model`, `load_model` and `_get_default_model_path`: LightGBM, scikit-learn, pickling and the filesystem.
- The `predict_proba` branches of versions 2 and 4, and version 2's `_dict_to_array`: the engines are modelled without a trained model, which is the fallback path.
- The environment settings `ASIAN_INFLUENCE_MAX` and the correction thresholds of version 2 are the `Config` parameter, with the defaults as constants. `ASIAN_INFLUENCE_SCALE` is read but never used.
- Timestamps, `print` to stderr, `_sanitize_numpy_types`, `round(...)` in the responses, and the `round(expected_move, 2)` of version 2: presentation only.
- The contributions dictionary, the `local_factors` echo, and the echoed market fields of the version 6 response: copies of modelled values.
- Floating-point behaviour: all arithmetic is over `real`. `tanh` and `exp` are parameters constrained by their mathematical properties, not computed.
- The blanket `except Exception` handlers of versions 5 and 6: ill-typed records cannot be written in the model. The only errors modelled are the non-positive price and the version 4 name error.
- Unicode case folding: `KeywordsV6.Lower` maps ASCII capitals only.
- Reason, pattern and signal texts are datatypes holding the numbers they format, not formatted strings.
- Version 5's `'technical' in str(features)` test is a boolean parameter of `PredictV5.AdjustConfidence`.
- `category` and `symbol` metadata that version 4 carries through validation without reading it.
- Version 4's `atr` and `bb_width` arguments to the expected move, and version 2's `bb_width` argument: neither engine reads them.
- Version 2's LOW severity: no check produces it, so the warning datatype has only MEDIUM and HIGH.
- PredictV4.LocalScore: states the rebound boost as a lower bound (at least 0.105 when it applies), not the exact `0.35 * rebound`.
- ScorersV6.TechnicalScore, ScorersV6.SentimentScore, ScorersV6.FundamentalScore, ScorersV6.IntradayScore, ScorersV5.TechnicalScore and ScorersV5.SentimentScore: the contracts give the range and the no-evidence case. How each score responds to one input is stated by the separate monotonicity lemmas in the model table. Per-indicator amounts are stated only for the worked examples.

## Findings

| source | as written | input that shows it | evidently intended | confidence | as-written member | corrected member |
|---|---|---|---|---|---|---|
| backend/python/models/quick_model_v4.py:305-330 | `_validate_features` keeps only the listed feature keys. `local_us_influence_score` is not listed, so the preferred branch at line 192 never runs and a supplied local score is replaced by the fallback score | `{"local_us_influence_score": 0.9}` gives local score 0.015 instead of 0.9 | the supplied score survives validation and is used verbatim | not executed | PredictV4.PredictAsWritten, PredictV4.SuppliedScoreIgnored, PredictV4.SuppliedScoreExample | PredictV4.ValidateCorrected, PredictV4.Predict |
| backend/python/models/quick_model_v4.py:558-563 | pattern 7 tests `price_change_1d`, a name `_detect_correction_warning` never defines, so it raises a name error whenever a volume spike meets RSI-14 above 70 | `{"volume_spike": 1, "rsi_14": 80, "price_change_1d": 5}` fails instead of warning | the 1-day change is read from the features like the other patterns, and the pattern adds 25 DOWN points | not executed | RulesV4.CorrectionWarningAsWritten, PredictV4.ExhaustedRallyExample | RulesV4.CorrectionWarningOf, PredictV4.Predict |

=== FILE: calibration_v6.dfy ===
/**
 * From component scores to a bullish probability in version 6: sentiment
 * damping, the weighted composite, the calibrator, the hard override and the
 * "no neutral" step.
 */
module CalibrationV6 {
  import opened Maths

  /** The six component weights; they sum to 1. */
  const TechnicalWeight := 0.25
  const SentimentWeight := 0.35
  const GlobalWeight := 0.15
  const VolumeWeight := 0.12
  const FundamentalsWeight := 0.08
  const IntradayWeight := 0.05

  lemma WeightsSumToOne()
    ensures TechnicalWeight + SentimentWeight + GlobalWeight + VolumeWeight
      + FundamentalsWeight + IntradayWeight == 1.0
  {
  }

  /** The calibrator's output range. */
  const MinConfidence := 0.55
  const MaxConfidence := 0.98

  /** The six component scores, with sentiment already damped. */
  datatype Components = Components(
    technical: real, sentiment: real, global: real, volume: real, fundamentals: real, intraday: real)
  {
    predicate InRange() {
      && -1.0 <= technical <= 1.0 && -1.0 <= sentiment <= 1.0 && -1.0 <= global <= 1.0
      && -1.0 <= volume <= 1.0 && -1.0 <= fundamentals <= 1.0 && -1.0 <= intraday <= 1.0
    }

    /** The largest magnitude among technical, sentiment, global and intraday. */
    function Strongest(): (r: real)
      ensures r >= Abs(technical) && r >= Abs(sentiment) && r >= Abs(global) && r >= Abs(intraday)
      ensures r == Abs(technical) || r == Abs(sentiment) || r == Abs(global) || r == Abs(intraday)
    {
      Max(Max(Abs(technical), Abs(sentiment)), Max(Abs(global), Abs(intraday)))
    }
  }

  /**
   * Sentiment contradicted by a move of more than 2% the other way is halved;
   * otherwise it is kept. Damping never changes the sign.
   */
  function DampSentiment(change1d: real, sentiment: real): (r: real)
    ensures r != sentiment <==> (change1d < -2.0 && sentiment > 0.2) || (change1d > 2.0 && sentiment < -0.2)
    ensures r != sentiment ==> r == sentiment * 0.5
    ensures Sign(r) == Sign(sentiment) && Abs(r) <= Abs(sentiment)
  {
    if change1d < -2.0 && sentiment > 0.2 then sentiment * 0.5
    else if change1d > 2.0 && sentiment < -0.2 then sentiment * 0.5
    else sentiment
  }

  /** The weighted composite; with in-range components it lies in [-1, 1]. */
  function Composite(c: Components): (r: real)
    ensures c.InRange() ==> -1.0 <= r <= 1.0
    ensures c == Components(0.0, 0.0, 0.0, 0.0, 0.0, 0.0) ==> r == 0.0
  {
    c.technical * TechnicalWeight + c.sentiment * SentimentWeight + c.global * GlobalWeight
      + c.volume * VolumeWeight + c.fundamentals * FundamentalsWeight + c.intraday * IntradayWeight
  }

  /** Technical and sentiment both strongly agree in one direction. */
  predicate Aligned(technical: real, sentiment: real) {
    (technical > 0.6 && sentiment > 0.5) || (technical < -0.6 && sentiment < -0.5)
  }

  /** The agreement boost, at most 0.12. */
  function AlignmentBoost(technical: real, sentiment: real): (r: real)
    ensures 0.0 <= r <= 0.12
  {
    if Aligned(technical, sentiment) then Min(Abs(technical * sentiment) * 0.1, 0.12) else 0.0
  }

  /** Above 2.5 volatility, values beyond 0.75 or below 0.25 are pulled 40% back towards them. */
  function PullBack(volatility: real, p: real): (r: real)
    ensures p <= 0.5 ==> r <= 0.5
  {
    if volatility > 2.5 then
      if p > 0.75 then 0.75 + (p - 0.75) * 0.6
      else if p < 0.25 then 0.25 - (0.25 - p) * 0.6
      else p
    else p
  }

  lemma PullBackMonotone(volatility: real, p: real, q: real)
    requires p <= q
    ensures PullBack(volatility, p) <= PullBack(volatility, q)
  {
  }

  /** tanh-shaped mapping plus the agreement boost away from one half, before the pull-back. */
  function Adjusted(tanh: real -> real, composite: real, technical: real, sentiment: real): real
    requires IsTanh(tanh)
  {
    var a := 0.5 + 0.45 * tanh(composite * 1.5);
    var boost := AlignmentBoost(technical, sentiment);
    if a > 0.5 then a + boost else a - boost
  }

  /**
   * The calibrated bullish probability: always in [0.55, 0.98]; a
   * non-positive composite can only reach the floor.
   */
  function Calibrate(tanh: real -> real, composite: real, volatility: real, technical: real, sentiment: real): (r: real)
    requires IsTanh(tanh)
    ensures MinConfidence <= r <= MaxConfidence
    ensures composite <= 0.0 ==> r == MinConfidence
  {
    TanhSign(tanh, composite * 1.5);
    Clip(PullBack(volatility, Adjusted(tanh, composite, technical, sentiment)), MinConfidence, MaxConfidence)
  }

  /** With everything else fixed, the calibrated probability never falls as the composite rises. */
  lemma CalibrateMonotone(tanh: real -> real, x: real, y: real, volatility: real, technical: real, sentiment: real)
    requires IsTanh(tanh)
    requires x <= y
    ensures Calibrate(tanh, x, volatility, technical, sentiment) <= Calibrate(tanh, y, volatility, technical, sentiment)
  {
    var ax := Adjusted(tanh, x, technical, sentiment);
    var ay := Adjusted(tanh, y, technical, sentiment);
    assert tanh(x * 1.5) <= tanh(y * 1.5) by {
      if x < y { assert x * 1.5 < y * 1.5; }
    }
    assert ax <= ay;
    PullBackMonotone(volatility, ax, ay);
  }

  /** Clearly bearish composites cap the probability at 0.44; clearly bullish ones raise it to 0.56. */
  function Override(composite: real, p: real): (r: real)
    ensures composite < -0.1 ==> r <= 0.44
    ensures composite > 0.1 ==> r >= 0.56
    ensures -0.1 <= composite <= 0.1 ==> r == p
  {
    if composite < -0.1 then Min(p, 0.44)
    else if composite > 0.1 then Max(p, 0.56)
    else p
  }

  /** A probability strictly between 0.45 and 0.55 is pushed out by the composite's sign. */
  function NoNeutral(p: real, composite: real, strongest: real): (r: real)
    ensures !(0.45 < r < 0.55)
    ensures !(0.45 < p < 0.55) ==> r == p
    ensures 0.45 < p < 0.55 ==> (r > 0.5 <==> (if strongest > 0.3 then composite >= 0.0 else composite > 0.0))
  {
    if 0.45 < p < 0.55 then
      if strongest > 0.3 then (if composite >= 0.0 then 0.58 else 0.42)
      else (if composite > 0.0 then 0.56 else 0.44)
    else p
  }

  /**
   * The final bullish probability: exactly 0.44 when the composite is below
   * -0.1, otherwise within [0.55, 0.98]; so never in (0.45, 0.55).
   */
  function BullishProbability(tanh: real -> real, c: Components, volatility: real): (r: real)
    requires IsTanh(tanh)
    ensures r == 0.44 <==> Composite(c) < -0.1
    ensures Composite(c) >= -0.1 ==> MinConfidence <= r <= MaxConfidence
    ensures !(0.45 < r < 0.55)
  {
    var composite := Composite(c);
    var p := Calibrate(tanh, composite, volatility, c.technical, c.sentiment);
    NoNeutral(Override(composite, p), composite, c.Strongest())
  }

  /** The no-neutral step never changes what the override produced. */
  lemma NoNeutralNeverFires(tanh: real -> real, c: Components, volatility: real)
    requires IsTanh(tanh)
    ensures var composite := Composite(c);
      var p := Override(composite, Calibrate(tanh, composite, volatility, c.technical, c.sentiment));
      !(0.45 < p < 0.55)
  {
  }

  /** A bearish call always has confidence 0.56, and a bullish one at least 0.55. */
  lemma ConfidenceLevels(tanh: real -> real, c: Components, volatility: real)
    requires IsTanh(tanh)
    ensures var p := BullishProbability(tanh, c, volatility);
      (p <= 0.5 ==> 1.0 - p == 0.56) && (p > 0.5 ==> p >= 0.55)
  {
  }

  /** A composite of at least 0.18 at ordinary volatility calibrates above 0.60. */
  lemma CalibrateAboveSixty(tanh: real -> real, composite: real, volatility: real, technical: real, sentiment: real)
    requires IsTanh(tanh) && TanhBounds(tanh)
    requires composite >= 0.18 && volatility <= 2.5
    ensures Calibrate(tanh, composite, volatility, technical, sentiment) > 0.60
  {
    assert tanh(0.27) <= tanh(composite * 1.5) by {
      if 0.27 < composite * 1.5 {}
    }
    assert 0.27 - 0.27 * 0.27 * 0.27 / 3.0 <= tanh(0.27);
  }
}

=== FILE: featuremaps.dfy ===
/**
 * The string-keyed feature dictionaries read by versions 2 and 4, and the
 * vocabulary both versions share. Every value is a number; a boolean flag
 * such as `volume_spike` is 1.0 or 0.0.
 */
module FeatureMaps {
  type FeatureMap = map<string, real>

  /** Python's `d.get(key, default)`. */
  function Get(m: FeatureMap, key: string, default: real): (r: real)
    ensures key in m ==> r == m[key]
    ensures key !in m ==> r == default
  {
    if key in m then m[key] else default
  }

  /** The dictionary holds `key` with value `x`, so every lookup of `key` reads `x`, whatever its default. */
  predicate Holds(m: FeatureMap, key: string, x: real) {
    key in m && m[key] == x
  }

  /** Python truthiness of a numeric value. */
  predicate Truthy(x: real) {
    x != 0.0
  }

  /**
   * A dictionary holding exactly `keys`, each taken from `features` or 0.0
   * when absent: the shared shape of both versions' feature validation.
   */
  function Filled(features: FeatureMap, keys: set<string>): (v: FeatureMap)
    ensures v.Keys == keys
    ensures forall k :: k in keys ==> v[k] == Get(features, k, 0.0)
  {
    map k | k in keys :: Get(features, k, 0.0)
  }

  /**
   * After filling, a default given at a later lookup never applies to a
   * listed key: a missing listed key reads as 0.0 whatever default the lookup names.
   */
  lemma FilledDefaultsShadow(features: FeatureMap, keys: set<string>, key: string, default: real)
    requires key in keys
    ensures Get(Filled(features, keys), key, default) == Get(features, key, 0.0)
  {
  }

  /** The binary verdict of versions 2 and 4; there is no neutral label. */
  datatype Label = Bullish | Bearish

  /** At least one of the five rebound patterns holds; both versions test the same five conditions. */
  predicate ReboundPatternFires(v: FeatureMap) {
    var pc1 := Get(v, "price_change_1d", 0.0);
    var pc3 := Get(v, "price_change_3d", 0.0);
    var pc7 := Get(v, "price_change_7d", 0.0);
    var news := Get(v, "news_sentiment_score", 0.0);
    var rsi := Get(v, "rsi_14", 50.0);
    || (news > 0.3 && pc7 < 0.0)
    || (pc7 < -3.0 && pc3 > 1.0 && pc1 > 0.0)
    || (rsi < 40.0 && news > 0.2 && pc1 > 0.5)
    || (pc1 > 2.0 && news > 0.2)
    || (rsi < 35.0 && Get(v, "volume_sma_ratio", 1.0) > 1.3 && pc1 > 0.0)
  }
}

=== FILE: features.dfy ===
/**
 * The flat feature record read by the version 5 and version 6 engines.
 *
 * Keys that the engines read with a bare `.get(key)` and test with
 * `is not None` are `Option<real>`; every other key is a plain value holding
 * the default the engines use when the key is absent. Category strings
 * become enumerations whose last case stands for every other string.
 */
module Features {
  import opened Wrappers

  /** `'positive'`, `'negative'`, or anything else (the default is `'neutral'`). */
  datatype Mood = Positive | Negative | OtherMood

  /** `volume_trend`: `'up'`, `'down'`, or anything else (default `'stable'`). */
  datatype Trend = Rising | Falling | OtherTrend

  /** `analyst_action`: `'upgrade'`, `'downgrade'`, or anything else (default `'none'`). */
  datatype AnalystAction = Upgrade | Downgrade | OtherAction

  /** `insider_activity`: `'buying'`, `'selling'`, or anything else (default `'neutral'`). */
  datatype InsiderActivity = Buying | Selling | OtherActivity

  datatype MarketFeatures = MarketFeatures(
    // price and technical indicators
    currentPrice: Option<real>,
    rsi: Option<real>,
    macdHistogram: Option<real>,
    macdSignalDiff: real,              // default 0
    macd: real,                        // default 0
    sma20: Option<real>,
    sma50: Option<real>,
    sma200: Option<real>,
    bollingerPosition: Option<real>,
    bollingerWidth: real,              // default 0
    priceChange1d: real,               // default 0
    priceChange3d: real,               // default 0
    priceChange5d: real,               // default 0
    nearSupport: bool,
    nearResistance: bool,
    bounceFromSupport: bool,
    failedResistance: bool,
    // news and social sentiment
    newsSentimentScore: real,          // default 0
    newsCount: real,                   // default 0
    bullishKeywordCount: real,         // default 0
    bearishKeywordCount: real,         // default 0
    bullishKeywordScoreTotal: real,    // default 0
    bearishKeywordScoreTotal: real,    // default 0
    hasHighImpactKeywords: bool,
    earningsSurprisePercent: real,     // default 0
    guidanceChangePercent: real,       // default 0
    hasSurgeKeywords: bool,
    surgeKeywordCount: real,           // default 0
    hasBearishKeywords: bool,
    socialSentiment: real,             // default 0
    socialVolume: real,                // default 0
    sectorSentiment: real,             // default 0
    analystUpgrades: real,             // default 0
    analystDowngrades: real,           // default 0
    // foreign and US markets
    asianMarketChange: real,           // default 0
    asianMarketSentiment: Mood,
    asianMarketStrength: real,         // default 0
    europeanMarketChange: real,        // default 0
    europeanMarketSentiment: Mood,
    europeanMarketStrength: real,      // default 0
    futuresSentiment: Mood,
    futuresChange: real,               // default 0
    globalMarketChange: real,          // default 0
    usMarketInfluenceScore: real,      // default 0
    usMarketSentiment: Mood,
    // volume and intraday action
    volumeRatio: real,                 // default 1.0
    volumeTrend: Trend,
    intradayChangePercent: real,       // default 0
    intradayVolumeRatio: real,         // default 1.0
    openCloseGapPercent: real,         // default 0
    volatility: Option<real>,          // version 6 defaults it to 1.0, version 5 to 0 or 1.0
    // fundamentals
    revenueGrowth: real,               // default 0
    earningsGrowth: real,              // default 0
    marginChangePercent: real,         // default 0
    analystAction: AnalystAction,
    insiderActivity: InsiderActivity,
    peRatioPercentile: real            // default 50
  )

  /** The record of a request that supplies nothing but `current_price`. */
  function PriceOnly(price: real): (f: MarketFeatures)
    ensures f.currentPrice == Some(price)
  {
    MarketFeatures(
      Some(price), None, None, 0.0, 0.0, None, None, None, None, 0.0,
      0.0, 0.0, 0.0, false, false, false, false,
      0.0, 0.0, 0.0, 0.0, 0.0, 0.0, false, 0.0, 0.0, false, 0.0, false,
      0.0, 0.0, 0.0, 0.0, 0.0,
      0.0, OtherMood, 0.0, 0.0, OtherMood, 0.0, OtherMood, 0.0, 0.0, 0.0, OtherMood,
      1.0, OtherTrend, 0.0, 1.0, 0.0, None,
      0.0, 0.0, 0.0, OtherAction, OtherActivity, 50.0)
  }

  /** Python truthiness of an optional number: present and non-zero. */
  predicate Truthy(v: Option<real>) {
    v.Some? && v.value != 0.0
  }
}

=== FILE: keywords_v6.dfy ===
/**
 * The keyword matcher of version 6: each keyword string is lower-cased and
 * checked against the bullish table and then the bearish table; in each table
 * the first entry that occurs as a substring contributes a tenth of its weight.
 * The result is the average contribution over all matches.
 */
module KeywordsV6 {
  import opened Wrappers
  import opened Maths

  /** A keyword table entry: the phrase looked for and its weight. */
  datatype Entry = Entry(phrase: string, weight: real)

  /** The bullish table, in declaration order; every weight lies in (0, 2]. */
  const BullishTable: seq<Entry> := [
    Entry("earnings_beat", 2.0), Entry("beat_estimates", 2.0), Entry("strong_earnings", 1.8),
    Entry("revenue_growth", 1.6), Entry("guidance_raise", 1.8), Entry("product_launch", 1.5),
    Entry("merger", 1.4), Entry("acquisition", 1.4), Entry("partnership", 1.3), Entry("expansion", 1.4),
    Entry("record_revenue", 1.8), Entry("record_profit", 1.9), Entry("upgrade", 1.7),
    Entry("outperform", 1.6), Entry("breakthrough", 1.5), Entry("rally", 1.2)]

  /** The bearish table, in declaration order; every weight lies in [-2, 0). */
  const BearishTable: seq<Entry> := [
    Entry("earnings_miss", -2.0), Entry("miss_estimates", -2.0), Entry("weak_earnings", -1.8),
    Entry("revenue_decline", -1.6), Entry("guidance_cut", -1.8), Entry("layoffs", -1.7),
    Entry("recall", -1.5), Entry("lawsuit", -1.4), Entry("scandal", -1.6), Entry("downgrade", -1.7),
    Entry("underperform", -1.6), Entry("bankruptcy", -2.0), Entry("investigation", -1.5),
    Entry("loss", -1.4), Entry("decline", -1.2), Entry("warning", -1.3)]

  /** Every weight of `table` has magnitude at most 2. */
  predicate WeightsBounded(table: seq<Entry>) {
    forall i :: 0 <= i < |table| ==> -2.0 <= table[i].weight <= 2.0
  }

  /** ASCII lower-casing of one character. */
  function LowerChar(c: char): char {
    if 'A' <= c <= 'Z' then (c as int - 'A' as int + 'a' as int) as char else c
  }

  /** ASCII lower-casing of a string, character by character. */
  function Lower(s: string): (r: string)
    ensures |r| == |s|
    ensures forall i :: 0 <= i < |s| ==> r[i] == LowerChar(s[i])
  {
    if |s| == 0 then "" else [LowerChar(s[0])] + Lower(s[1..])
  }

  /** `needle` occurs in `hay` at position `i`. */
  ghost predicate OccursAt(needle: string, hay: string, i: int) {
    0 <= i && i + |needle| <= |hay| && hay[i..i + |needle|] == needle
  }

  /** Substring test, scanning `hay` from the left. */
  function Contains(needle: string, hay: string): (b: bool)
    decreases |hay|
  {
    if |hay| < |needle| then false
    else if hay[..|needle|] == needle then true
    else Contains(needle, hay[1..])
  }

  /** The scan finds `needle` exactly when it occurs at some position. */
  lemma {:induction false} ContainsIffOccurs(needle: string, hay: string)
    ensures Contains(needle, hay) <==> exists i :: OccursAt(needle, hay, i)
    decreases |hay|
  {
    if |hay| >= |needle| && hay[..|needle|] == needle {
      assert OccursAt(needle, hay, 0);
    } else if |hay| >= |needle| {
      ContainsIffOccurs(needle, hay[1..]);
      forall j | OccursAt(needle, hay[1..], j) ensures OccursAt(needle, hay, j + 1) {
        assert hay[1..][j..j + |needle|] == hay[j + 1..j + 1 + |needle|];
      }
      forall i | OccursAt(needle, hay, i) ensures OccursAt(needle, hay[1..], i - 1) {
        assert i != 0;
        assert hay[1..][i - 1..i - 1 + |needle|] == hay[i..i + |needle|];
      }
    }
  }

  /** The weight of the first entry of `table` whose phrase occurs in `text`. */
  function FirstMatch(table: seq<Entry>, text: string): (r: Option<real>)
    ensures r.None? <==> forall i :: 0 <= i < |table| ==> !Contains(table[i].phrase, text)
    ensures r.Some? ==> exists i :: (0 <= i < |table| && Contains(table[i].phrase, text)
      && r.value == table[i].weight
      && forall j :: 0 <= j < i ==> !Contains(table[j].phrase, text))
  {
    if |table| == 0 then None
    else if Contains(table[0].phrase, text) then Some(table[0].weight)
    else
      var rest := FirstMatch(table[1..], text);
      assert forall i :: 1 <= i < |table| ==> table[1..][i - 1] == table[i];
      if rest.Some? then
        var k :| 0 <= k < |table[1..]| && Contains(table[1..][k].phrase, text)
          && rest.value == table[1..][k].weight
          && forall j :: 0 <= j < k ==> !Contains(table[1..][j].phrase, text);
        assert forall j :: 0 <= j < k + 1 ==> !Contains(table[j].phrase, text) by {
          forall j | 0 <= j < k + 1 ensures !Contains(table[j].phrase, text) {
            if j > 0 { assert table[j] == table[1..][j - 1]; }
          }
        }
        rest
      else
        rest
  }

  /** A matched weight comes from a table whose weights are bounded, so it is bounded too. */
  lemma FirstMatchBounded(table: seq<Entry>, text: string)
    requires WeightsBounded(table)
    ensures FirstMatch(table, text).Some? ==> -2.0 <= FirstMatch(table, text).value <= 2.0
  {
  }

  /** Adds a tenth of the matched weight, if any, as one counted match. */
  function AddMatch(t: Tally, m: Option<real>): Tally {
    if m.Some? then t.Count(m.value * 0.1) else t
  }

  /** One keyword: at most one bullish and at most one bearish match. */
  function KeywordStep(t: Tally, keyword: string): Tally {
    var text := Lower(keyword);
    AddMatch(AddMatch(t, FirstMatch(BullishTable, text)), FirstMatch(BearishTable, text))
  }

  /** The running sum and match count after the given keywords, in order. */
  function KeywordTally(keywords: seq<string>): Tally
    decreases |keywords|
  {
    if |keywords| == 0 then NoEvidence
    else KeywordStep(KeywordTally(keywords[..|keywords| - 1]), keywords[|keywords| - 1])
  }

  /** Each match contributes at most 0.2 in magnitude. */
  predicate Balanced(t: Tally) {
    -0.2 * t.count as real <= t.sum <= 0.2 * t.count as real
  }

  lemma KeywordStepBalanced(t: Tally, keyword: string)
    requires Balanced(t)
    ensures Balanced(KeywordStep(t, keyword))
    ensures KeywordStep(t, keyword).count <= t.count + 2
  {
    var text := Lower(keyword);
    FirstMatchBounded(BullishTable, text);
    FirstMatchBounded(BearishTable, text);
  }

  /** The keyword score: the average matched contribution, clamped to [-1, 1]. */
  function KeywordScore(keywords: seq<string>): real {
    Clip(KeywordTally(keywords).Average(), -1.0, 1.0)
  }

  /**
   * Scans the keywords, accumulating matches; the result lies in [-0.2, 0.2]
   * and is zero when nothing matches, in particular for an empty list.
   */
  method AnalyzeNewsKeywords(keywords: seq<string>) returns (score: real)
    ensures -0.2 <= score <= 0.2
    ensures KeywordTally(keywords).count == 0 ==> score == 0.0
    ensures |keywords| == 0 ==> score == 0.0
    ensures score == KeywordScore(keywords)
  {
    if |keywords| == 0 {
      return 0.0;
    }
    var t := NoEvidence;
    var i := 0;
    while i < |keywords|
      invariant 0 <= i <= |keywords|
      invariant t == KeywordTally(keywords[..i])
      invariant Balanced(t)
    {
      assert keywords[..i + 1][..i] == keywords[..i];
      KeywordStepBalanced(t, keywords[i]);
      t := KeywordStep(t, keywords[i]);
      i := i + 1;
    }
    assert keywords[..i] == keywords;
    AverageWithin(t, 0.2);
    score := Clip(t.Average(), -1.0, 1.0);
  }
}

=== FILE: maths.dfy ===
/**
 * Numeric helpers the scorers are built from: numpy's `clip`, `sign`, `mean`
 * and `interp` written out over `real`, plus the characteristic properties of
 * the transcendental functions `tanh` and `exp`, which are passed to the
 * scorers as parameters.
 */
module Maths {

  function Abs(x: real): (r: real)
    ensures r >= 0.0 && (r == x || r == -x)
  {
    if x < 0.0 then -x else x
  }

  function Min(a: real, b: real): (r: real)
    ensures r <= a && r <= b && (r == a || r == b)
  {
    if a <= b then a else b
  }

  function Max(a: real, b: real): (r: real)
    ensures r >= a && r >= b && (r == a || r == b)
  {
    if a >= b then a else b
  }

  /** `np.clip(x, lo, hi)` for a well-ordered interval. */
  function Clip(x: real, lo: real, hi: real): (r: real)
    requires lo <= hi
    ensures lo <= r <= hi
    ensures lo <= x <= hi ==> r == x
    ensures x <= lo ==> r == lo
    ensures hi <= x ==> r == hi
  {
    if x < lo then lo else if x > hi then hi else x
  }

  /** `np.sign(x)`: -1, 0 or 1. */
  function Sign(x: real): (r: real)
    ensures r * Abs(x) == x
    ensures r == -1.0 || r == 0.0 || r == 1.0
  {
    if x > 0.0 then 1.0 else if x < 0.0 then -1.0 else 0.0
  }

  /** `max(count, 1)` for the averaging steps of the count-based scorers. */
  function AtLeastOne(n: nat): (r: real)
    ensures r >= 1.0 && (n >= 1 ==> r == n as real)
  {
    if n == 0 then 1.0 else n as real
  }

  /**
   * The accumulator and counter of the count-averaged scorers: `sum` collects
   * the contributions, `count` the sub-signals actually evaluated.
   */
  datatype Tally = Tally(sum: real, count: nat) {

    /** A sub-signal that is evaluated: its contribution counts towards the average. */
    function Count(x: real): (t: Tally)
      ensures t.count == count + 1
    {
      Tally(sum + x, count + 1)
    }

    /** An adjustment that is added without being counted. */
    function Nudge(x: real): (t: Tally)
      ensures t.count == count
    {
      Tally(sum + x, count)
    }

    /** The same tally with `d` more in its sum. */
    function Shift(d: real): (t: Tally)
      ensures t.count == count && t.sum == sum + d
    {
      Tally(sum + d, count)
    }

    /** `score / max(count, 1) if count > 0 else 0`: uncounted nudges alone average to zero. */
    function Average(): (r: real)
      ensures count == 0 ==> r == 0.0
    {
      if count > 0 then sum / count as real else 0.0
    }

    /** `score / max(count, 1)`: uncounted nudges alone pass through unchanged. */
    function PerCount(): (r: real)
      ensures count <= 1 ==> r == sum
    {
      sum / AtLeastOne(count)
    }
  }

  /** The empty accumulator every count-averaged scorer starts from. */
  const NoEvidence := Tally(0.0, 0)

  /** Scaling by a positive factor keeps the sign. */
  lemma ScaleSign(x: real, k: real)
    requires k > 0.0
    ensures x * k > 0.0 <==> x > 0.0
    ensures x * k < 0.0 <==> x < 0.0
  {
    if x > 0.0 { assert x * k > 0.0; }
    if x < 0.0 { assert (-x) * k > 0.0; }
  }

  /** Scaling by a positive factor preserves a lower bound. */
  lemma ScaledAtLeast(x: real, lo: real, k: real)
    ensures k > 0.0 && x >= lo ==> x * k >= lo * k
  {
    if k > 0.0 && x >= lo {
      MulNonNegative(x - lo, k);
    }
  }

  /** Scaling by a factor in [lo, 1] with lo > 0 keeps the sign and keeps at least `lo` of the magnitude. */
  lemma Shrink(x: real, k: real, lo: real)
    requires 0.0 < lo <= k <= 1.0
    ensures x * k > 0.0 <==> x > 0.0
    ensures x * k < 0.0 <==> x < 0.0
    ensures Abs(x) * lo <= Abs(x * k) <= Abs(x)
  {
    ScaleSign(x, k);
    if x >= 0.0 {
      MulNonNegative(x, 1.0 - k);
      MulNonNegative(x, k - lo);
    } else {
      MulNonNegative(-x, 1.0 - k);
      MulNonNegative(-x, k - lo);
    }
  }

  /** The slice `s[:n]`: the first `n` elements, or all of `s` when it is shorter. */
  function Take<T>(s: seq<T>, n: nat): (r: seq<T>)
    ensures |r| <= n && |r| <= |s|
    ensures |s| <= n ==> r == s
    ensures |s| > n ==> |r| == n
    ensures forall i :: 0 <= i < |r| ==> r[i] == s[i]
  {
    if |s| <= n then s else s[..n]
  }

  /** Contributions each within `bound` in magnitude average to within `bound`. */
  lemma AverageWithin(t: Tally, bound: real)
    requires -bound * t.count as real <= t.sum <= bound * t.count as real
    ensures 0 < t.count ==> -bound <= t.Average() <= bound
  {
    if 0 < t.count {
      var n := t.count as real;
      assert t.sum / n <= bound by { assert t.sum / n * n == t.sum; }
      assert -bound <= t.sum / n by { assert t.sum / n * n == t.sum; }
    }
  }

  /** With the count fixed, a larger sum never gives a smaller average. */
  lemma AverageMonotone(a: Tally, b: Tally)
    requires a.count == b.count && a.sum <= b.sum
    ensures a.Average() <= b.Average()
    ensures a.PerCount() <= b.PerCount()
  {
    RatioMonotone(a.sum, b.sum, AtLeastOne(a.count));
    if a.count > 0 {
      RatioMonotone(a.sum, b.sum, a.count as real);
    }
  }

  lemma ClipMonotone(x: real, y: real, lo: real, hi: real)
    requires lo <= hi && x <= y
    ensures Clip(x, lo, hi) <= Clip(y, lo, hi)
  {
  }

  /** A non-negative multiple of tanh never decreases as its argument grows. */
  lemma TanhScaledMonotone(tanh: real -> real, x: real, y: real, k: real)
    requires IsTanh(tanh)
    requires x <= y && 0.0 <= k
    ensures tanh(x) * k <= tanh(y) * k
  {
    if x < y {
      MulNonNegative(tanh(y) - tanh(x), k);
    }
  }

  /**
   * A scaled tanh switched off inside `[-gate, gate]` still never decreases:
   * below the gate it is at most zero, above it at least zero.
   */
  lemma GatedTanhMonotone(tanh: real -> real, x: real, y: real, k: real, gate: real)
    requires IsTanh(tanh)
    requires x <= y && 0.0 <= k && 0.0 <= gate
    ensures (if Abs(x) > gate then tanh(x) * k else 0.0) <= (if Abs(y) > gate then tanh(y) * k else 0.0)
  {
    assert tanh(0.0) == 0.0;
    assert tanh(0.0) * k == 0.0;
    if Abs(x) > gate && Abs(y) > gate {
      TanhScaledMonotone(tanh, x, y, k);
    } else if Abs(x) > gate {
      assert x < 0.0;
      TanhScaledMonotone(tanh, x, 0.0, k);
    } else if Abs(y) > gate {
      assert 0.0 < y;
      TanhScaledMonotone(tanh, 0.0, y, k);
    }
  }

  /** The properties of the hyperbolic tangent the model relies on. */
  ghost predicate IsTanh(tanh: real -> real) {
    && tanh(0.0) == 0.0
    && (forall x :: -1.0 < tanh(x) < 1.0)
    && (forall x, y :: x < y ==> tanh(x) < tanh(y))
    && (forall x :: tanh(-x) == -tanh(x))
  }

  /**
   * Two classical bounds on tanh for non-negative arguments,
   * x - x^3/3 <= tanh(x) <= x, used only to evaluate concrete scenarios.
   */
  ghost predicate TanhBounds(tanh: real -> real) {
    forall x :: 0.0 <= x ==> x - x * x * x / 3.0 <= tanh(x) <= x
  }

  /** The properties of the exponential function the model relies on. */
  ghost predicate IsExp(exp: real -> real) {
    && exp(0.0) == 1.0
    && (forall x :: exp(x) > 0.0)
    && (forall x, y :: x < y ==> exp(x) < exp(y))
  }

  lemma TanhSign(tanh: real -> real, x: real)
    requires IsTanh(tanh)
    ensures x > 0.0 <==> tanh(x) > 0.0
    ensures x < 0.0 <==> tanh(x) < 0.0
    ensures x == 0.0 <==> tanh(x) == 0.0
  {
    if x > 0.0 {
      assert tanh(0.0) < tanh(x);
    } else if x < 0.0 {
      assert tanh(x) < tanh(0.0);
    }
  }

  /** The logistic function `1 / (1 + exp(-clip(x, -500, 500)))` of versions 2 and 4. */
  function Sigmoid(exp: real -> real, x: real): (r: real)
    requires IsExp(exp)
    ensures 0.0 < r < 1.0
    ensures x == 0.0 ==> r == 0.5
  {
    1.0 / (1.0 + exp(-Clip(x, -500.0, 500.0)))
  }

  /** The sigmoid never decreases, and strictly increases where the clip is inactive. */
  lemma SigmoidMonotone(exp: real -> real, x: real, y: real)
    requires IsExp(exp)
    requires x <= y
    ensures Sigmoid(exp, x) <= Sigmoid(exp, y)
    ensures -500.0 <= x < y <= 500.0 ==> Sigmoid(exp, x) < Sigmoid(exp, y)
  {
    var a := Clip(x, -500.0, 500.0);
    var b := Clip(y, -500.0, 500.0);
    assert a <= b;
    if a < b {
      assert exp(-b) < exp(-a);
    }
    DivideMonotone(1.0 + exp(-b), 1.0 + exp(-a));
  }

  /** The sigmoid lies above one half exactly for positive arguments. */
  lemma {:induction false} SigmoidAboveHalf(exp: real -> real, x: real)
    requires IsExp(exp)
    ensures Sigmoid(exp, x) > 0.5 <==> x > 0.0
  {
    if x > 0.0 {
      var y := Min(x, 500.0);
      SigmoidMonotone(exp, 0.0, y);
      SigmoidMonotone(exp, y, x);
    } else {
      SigmoidMonotone(exp, x, 0.0);
    }
  }

  lemma DivideMonotone(small: real, large: real)
    requires 0.0 < small <= large
    ensures 1.0 / large <= 1.0 / small
    ensures small < large ==> 1.0 / large < 1.0 / small
  {
    calc {
      1.0 / large;
    ==
      (1.0 / large) * (small / small);
    ==
      (small / large) * (1.0 / small);
    <=  { assert small / large <= 1.0; }
      1.0 / small;
    }
    if small < large {
      assert small / large < 1.0;
      assert (small / large) * (1.0 / small) < 1.0 / small;
    }
  }

  function Sum(xs: seq<real>): real {
    if |xs| == 0 then 0.0 else Sum(xs[..|xs| - 1]) + xs[|xs| - 1]
  }

  lemma {:induction false} SumBounds(xs: seq<real>, lo: real, hi: real)
    requires forall i :: 0 <= i < |xs| ==> lo <= xs[i] <= hi
    ensures |xs| as real * lo <= Sum(xs) <= |xs| as real * hi
  {
    if |xs| > 0 {
      SumBounds(xs[..|xs| - 1], lo, hi);
    }
  }

  /** `np.mean` of a non-empty sequence. */
  function Mean(xs: seq<real>): (r: real)
    requires |xs| > 0
  {
    Sum(xs) / |xs| as real
  }

  /** The mean of values inside an interval stays inside it. */
  lemma MeanBounds(xs: seq<real>, lo: real, hi: real)
    requires |xs| > 0
    requires forall i :: 0 <= i < |xs| ==> lo <= xs[i] <= hi
    ensures lo <= Mean(xs) <= hi
  {
    SumBounds(xs, lo, hi);
    var n := |xs| as real;
    assert Mean(xs) * n == Sum(xs);
  }

  ghost predicate StrictlyIncreasing(xs: seq<real>) {
    forall i, j :: 0 <= i < j < |xs| ==> xs[i] < xs[j]
  }

  ghost predicate NonDecreasing(xs: seq<real>) {
    forall i, j :: 0 <= i < j < |xs| ==> xs[i] <= xs[j]
  }

  /**
   * `np.interp(x, xp, fp)`: piecewise-linear interpolation through the points
   * (xp[i], fp[i]), holding fp[0] left of xp[0] and the last fp right of the
   * last xp.
   */
  function Interp(x: real, xp: seq<real>, fp: seq<real>): (r: real)
    requires 1 <= |xp| == |fp|
    requires StrictlyIncreasing(xp)
    ensures NonDecreasing(fp) ==> fp[0] <= r <= fp[|fp| - 1]
    decreases |xp|
  {
    if |xp| == 1 || x <= xp[0] then fp[0]
    else if x <= xp[1] then
      assert xp[0] < xp[1];
      var t := (x - xp[0]) / (xp[1] - xp[0]);
      UnitRatio(x - xp[0], xp[1] - xp[0]);
      SegmentInRange(fp, t);
      Lerp(fp[0], fp[1], t)
    else
      assert NonDecreasing(fp) ==> fp[0] <= fp[1];
      Interp(x, xp[1..], fp[1..])
  }

  lemma UnitRatio(a: real, b: real)
    requires 0.0 <= a <= b && 0.0 < b
    ensures 0.0 <= a / b <= 1.0
  {
    assert a / b * b == a;
  }

  /** The point a fraction `t` of the way from `a` to `b`. */
  function Lerp(a: real, b: real, t: real): real {
    a + (b - a) * t
  }

  lemma SegmentInRange(fp: seq<real>, t: real)
    requires |fp| >= 2 && 0.0 <= t <= 1.0
    ensures NonDecreasing(fp) ==> fp[0] <= Lerp(fp[0], fp[1], t) <= fp[|fp| - 1]
  {
    if NonDecreasing(fp) {
      assert fp[1] <= fp[|fp| - 1];
      LerpBetween(fp[0], fp[1], t);
    }
  }

  lemma LerpBetween(a: real, b: real, t: real)
    requires a <= b && 0.0 <= t <= 1.0
    ensures a <= Lerp(a, b, t) <= b
  {
    MulNonNegative(b - a, t);
    MulNonNegative(b - a, 1.0 - t);
    assert b - Lerp(a, b, t) == (b - a) * (1.0 - t);
  }

  lemma LerpMonotone(a: real, b: real, s: real, t: real)
    requires a <= b && s <= t
    ensures Lerp(a, b, s) <= Lerp(a, b, t)
  {
    var u := b - a;
    var v := t - s;
    MulNonNegative(u, v);
    assert u * t == u * s + u * v;
  }

  lemma MulNonNegative(u: real, v: real)
    requires 0.0 <= u && 0.0 <= v
    ensures 0.0 <= u * v
  {
  }

  /** A product of non-negative factors grows with each factor. */
  lemma ProductMonotone(u: real, v: real, x: real, y: real)
    requires 0.0 <= u <= v && 0.0 <= x <= y
    ensures u * x <= v * y
  {
    MulNonNegative(v - u, y);
    MulNonNegative(u, y - x);
    assert v * y - u * x == (v - u) * y + u * (y - x);
  }

  lemma RatioMonotone(p: real, q: real, d: real)
    requires p <= q && 0.0 < d
    ensures p / d <= q / d
  {
    assert (q - p) / d >= 0.0;
    assert q / d - p / d == (q - p) / d;
  }

  lemma {:induction false} InterpMonotone(x: real, y: real, xp: seq<real>, fp: seq<real>)
    requires 1 <= |xp| == |fp|
    requires StrictlyIncreasing(xp) && NonDecreasing(fp)
    requires x <= y
    ensures Interp(x, xp, fp) <= Interp(y, xp, fp)
    decreases |xp|
  {
    if |xp| == 1 || y <= xp[0] {
    } else if x <= xp[0] {
      // Interp(y) is at least fp[0] by the range ensures
    } else if y <= xp[1] {
      assert xp[0] < xp[1];
      var d := xp[1] - xp[0];
      var tx := (x - xp[0]) / d;
      var ty := (y - xp[0]) / d;
      RatioMonotone(x - xp[0], y - xp[0], d);
      assert fp[0] <= fp[1];
      LerpMonotone(fp[0], fp[1], tx, ty);
    } else if x <= xp[1] {
      assert xp[0] < xp[1];
      var d := xp[1] - xp[0];
      var tx := (x - xp[0]) / d;
      UnitRatio(x - xp[0], d);
      assert fp[0] <= fp[1];
      LerpMonotone(fp[0], fp[1], tx, 1.0);
      assert Interp(x, xp, fp) <= fp[1];
      assert NonDecreasing(fp[1..]);
      assert Interp(y, xp, fp) == Interp(y, xp[1..], fp[1..]);
    } else {
      assert NonDecreasing(fp[1..]);
      assert StrictlyIncreasing(xp[1..]);
      InterpMonotone(x, y, xp[1..], fp[1..]);
    }
  }
}

=== FILE: predict_v2.dfy ===
/**
 * Version 2's `predict`: feature validation, the rebound-boosted fallback
 * base score, the Asian-impact blend, probability, label, expected move,
 * correction warning and reasons. The environment-driven settings are a
 * configuration parameter.
 */
module PredictV2 {
  import opened Maths
  import opened FeatureMaps
  import opened RulesV2

  const BaseFeatures: seq<string> := [
    "close", "volume", "price_change_1d", "price_change_3d", "price_change_7d",
    "ema_12", "ema_26", "macd", "macd_signal", "macd_hist",
    "rsi_14", "rsi_7", "atr_14", "obv",
    "bb_upper", "bb_middle", "bb_lower", "bb_width", "bb_pct",
    "distance_to_support", "distance_to_resistance",
    "volume_sma_ratio", "volume_spike",
    "news_sentiment_score", "fear_greed_index"]

  const AsianFeatures: seq<string> := [
    "nikkei_change_pct", "hang_seng_change_pct",
    "shanghai_change_pct", "nifty_change_pct",
    "asian_avg_change", "asian_influence_score"]

  /** Every key validation fills; nothing else survives it. */
  const FeatureKeys: set<string> := set k | k in BaseFeatures + AsianFeatures

  /** The listed keys, each taken from the input or 0.0 when absent. */
  function Validate(features: FeatureMap): (v: FeatureMap)
    ensures v.Keys == FeatureKeys
    ensures forall k :: k in FeatureKeys ==> v[k] == Get(features, k, 0.0)
  {
    Filled(features, FeatureKeys)
  }

  /** Validating a validated dictionary changes nothing. */
  lemma ValidateIdempotent(features: FeatureMap)
    ensures Validate(Validate(features)) == Validate(features)
  {
    var v := Validate(features);
    assert forall k :: k in FeatureKeys ==> Get(v, k, 0.0) == v[k];
  }

  /** Every key the rules read is filled by validation. */
  lemma ReadKeysListed()
    ensures "close" in FeatureKeys && "price_change_1d" in FeatureKeys
    ensures "price_change_3d" in FeatureKeys && "price_change_7d" in FeatureKeys
    ensures "macd_hist" in FeatureKeys && "rsi_14" in FeatureKeys && "atr_14" in FeatureKeys
    ensures "bb_middle" in FeatureKeys && "bb_width" in FeatureKeys && "bb_pct" in FeatureKeys
    ensures "volume_sma_ratio" in FeatureKeys && "volume_spike" in FeatureKeys
    ensures "news_sentiment_score" in FeatureKeys && "fear_greed_index" in FeatureKeys
    ensures "asian_influence_score" in FeatureKeys
  {
    var all := BaseFeatures + AsianFeatures;
    assert all[0] == "close" && all[2] == "price_change_1d";
    assert all[3] == "price_change_3d" && all[4] == "price_change_7d";
    assert all[9] == "macd_hist" && all[10] == "rsi_14" && all[12] == "atr_14";
    assert all[15] == "bb_middle" && all[17] == "bb_width" && all[18] == "bb_pct";
    assert all[21] == "volume_sma_ratio" && all[22] == "volume_spike";
    assert all[23] == "news_sentiment_score" && all[24] == "fear_greed_index";
    assert all[30] == "asian_influence_score";
  }

  /**
   * The environment-driven settings: the Asian impact cap (0.5 by default)
   * and the three correction thresholds. The Asian influence scale is read
   * but never used, so it has no field.
   */
  datatype Config = Config(asianInfluenceMax: real, thresholds: Thresholds)

  const DefaultConfig := Config(0.5, DefaultThresholds)

  datatype PredictionV2 = PredictionV2(
    verdict: Label,
    probability: real,
    expectedMove: real,
    asianInfluence: real,
    asianImpact: real,
    baseScore: real,
    finalScore: real,
    warning: WarningV2,
    reasons: seq<ReasonV2>)

  /**
   * What every prediction satisfies: the probability is the logistic function
   * of five times the final score, and the impact and blend bounds hold when
   * the Asian impact cap lies in [0, 1].
   */
  predicate WellFormed(exp: real -> real, p: PredictionV2, cap: real)
    requires IsExp(exp)
  {
    && (p.verdict == Bullish <==> p.finalScore > 0.0)
    && p.probability == Sigmoid(exp, p.finalScore * 5.0)
    && 0.0 < p.probability < 1.0
    && (p.probability > 0.5 <==> p.verdict == Bullish)
    && (p.expectedMove > 0.0 <==> p.finalScore > 0.0)
    && (p.expectedMove < 0.0 <==> p.finalScore < 0.0)
    && (p.finalScore != 0.0 ==> Abs(p.expectedMove) >= 0.5)
    && -1.0 <= p.baseScore <= 1.0
    && (0.0 <= cap <= 1.0 ==>
          && 0.0 <= p.asianImpact <= cap
          && Min(p.baseScore, p.asianInfluence) <= p.finalScore <= Max(p.baseScore, p.asianInfluence))
    && (p.asianImpact == 0.0 ==> p.finalScore == p.baseScore)
    && 1 <= |p.reasons| <= 6
  }

  /** The prediction for a validated dictionary, assembled from the rules' results. */
  function Evaluate(exp: real -> real, config: Config, v: FeatureMap): (p: PredictionV2)
    requires IsExp(exp)
    ensures WellFormed(exp, p, config.asianInfluenceMax)
    ensures p.asianInfluence == Get(v, "asian_influence_score", 0.0)
    ensures p.baseScore == BoostedBase(Fallback(v), Rebound(v))
    ensures p.asianImpact == AsianImpact(p.asianInfluence, config.asianInfluenceMax)
    ensures p.finalScore == Blend(p.baseScore, p.asianInfluence, p.asianImpact)
    ensures p.warning == CorrectionWarning(v, config.thresholds)
    ensures p.reasons == Reasons(v, p.asianInfluence)
    ensures p.expectedMove == ExpectedMove(p.finalScore, Get(v, "atr_14", 0.0))
  {
    var asian := Get(v, "asian_influence_score", 0.0);
    Assemble(exp, config.asianInfluenceMax, asian, BoostedBase(Fallback(v), Rebound(v)), Get(v, "atr_14", 0.0),
             CorrectionWarning(v, config.thresholds), Reasons(v, asian))
  }

  /**
   * The prediction from its parts: the final score blends the base score
   * with the Asian influence, and the label, probability and move follow its
   * sign.
   */
  function Assemble(exp: real -> real, cap: real, asian: real, base: real, atr: real,
                    warning: WarningV2, reasons: seq<ReasonV2>): (p: PredictionV2)
    requires IsExp(exp)
    requires -1.0 <= base <= 1.0 && 1 <= |reasons| <= 6
    ensures WellFormed(exp, p, cap)
    ensures p.asianImpact == AsianImpact(asian, cap)
    ensures p.finalScore == Blend(base, asian, p.asianImpact)
    ensures p.asianInfluence == asian && p.baseScore == base
    ensures p.warning == warning && p.reasons == reasons
    ensures p.expectedMove == ExpectedMove(p.finalScore, atr)
  {
    var impact := AsianImpact(asian, cap);
    var final := Blend(base, asian, impact);
    SigmoidAboveHalf(exp, final * 5.0);
    PredictionV2(
      if final > 0.0 then Bullish else Bearish,
      Sigmoid(exp, final * 5.0),
      ExpectedMove(final, atr),
      asian, impact, base, final, warning, reasons)
  }

  /**
   * `predict`. The base score is the fallback of the validated dictionary,
   * raised (never lowered) by a strong rebound; the final score pulls it
   * toward the Asian influence by the Asian impact; the label, probability
   * and move follow the final score's sign; the warning is absent exactly
   * when no check fires, and a rebound story leads the reasons.
   */
  function Predict(exp: real -> real, config: Config, features: FeatureMap): (p: PredictionV2)
    requires IsExp(exp)
    ensures WellFormed(exp, p, config.asianInfluenceMax)
    ensures p.asianInfluence == Get(features, "asian_influence_score", 0.0)
    ensures p.baseScore >= Fallback(Validate(features))
    ensures Rebound(Validate(features)) <= 0.3 ==> p.baseScore == Fallback(Validate(features))
    ensures p.warning.NoWarning? <==>
      var v := Validate(features);
      var t := config.thresholds;
      !SurgeFires(v, t) && !BandFires(v, t) && !VolumeFires(v, t)
    ensures IsRebounding(Validate(features)) ==> IsReboundReason(p.reasons[0])
    ensures p.expectedMove == ExpectedMove(p.finalScore, Get(features, "atr_14", 0.0))
  {
    ReadKeysListed();
    Reads(features, "asian_influence_score");
    Reads(features, "atr_14");
    Evaluate(exp, config, Validate(features))
  }

  /**
   * The probability is increasing in the final score: of two well-formed
   * predictions, the one with the larger final score is at least as likely
   * bullish, and strictly more so while five times both scores stays inside
   * the sigmoid's clip range of ±500.
   */
  lemma {:induction false} ProbabilityOrder(exp: real -> real, p: PredictionV2, q: PredictionV2, cap: real)
    requires IsExp(exp)
    requires WellFormed(exp, p, cap) && WellFormed(exp, q, cap)
    requires p.finalScore <= q.finalScore
    ensures p.probability <= q.probability
    ensures -100.0 <= p.finalScore < q.finalScore <= 100.0 ==> p.probability < q.probability
  {
    SigmoidMonotone(exp, p.finalScore * 5.0, q.finalScore * 5.0);
  }

  /** Of two predictions under the same settings, the larger final score never has the smaller probability. */
  lemma {:induction false} ProbabilityIncreasing(exp: real -> real, config: Config, f: FeatureMap, g: FeatureMap)
    requires IsExp(exp)
    requires Predict(exp, config, f).finalScore <= Predict(exp, config, g).finalScore
    ensures Predict(exp, config, f).probability <= Predict(exp, config, g).probability
    ensures -100.0 <= Predict(exp, config, f).finalScore < Predict(exp, config, g).finalScore <= 100.0 ==>
              Predict(exp, config, f).probability < Predict(exp, config, g).probability
  {
    ProbabilityOrder(exp, Predict(exp, config, f), Predict(exp, config, g), config.asianInfluenceMax);
  }

  /** With no Asian influence and a non-negative cap, the final score is the base score. */
  lemma {:induction false} NoAsianInfluence(exp: real -> real, config: Config, features: FeatureMap)
    requires IsExp(exp)
    requires Get(features, "asian_influence_score", 0.0) == 0.0 && config.asianInfluenceMax >= 0.0
    ensures Predict(exp, config, features).finalScore == Predict(exp, config, features).baseScore
  {
    var p := Evaluate(exp, config, Validate(features));
    assert Predict(exp, config, features) == p;
    assert p.asianImpact == 0.0;
  }

  /** A full-strength Asian influence under the default cap moves the final score halfway to it. */
  lemma {:induction false} FullAsianInfluence(exp: real -> real, features: FeatureMap)
    requires IsExp(exp)
    requires Abs(Get(features, "asian_influence_score", 0.0)) >= 1.0
    ensures Predict(exp, DefaultConfig, features).asianImpact == 0.5
    ensures var p := Predict(exp, DefaultConfig, features);
      p.finalScore == (p.baseScore + p.asianInfluence) / 2.0
  {
    var p := Evaluate(exp, DefaultConfig, Validate(features));
    assert Predict(exp, DefaultConfig, features) == p;
    HalfwayBlend(p.baseScore, p.asianInfluence);
  }

  /** Validation makes every listed key hold the input's value, or 0.0 when absent. */
  lemma Reads(features: FeatureMap, key: string)
    requires key in FeatureKeys
    ensures Holds(Validate(features), key, Get(features, key, 0.0))
  {
  }

  // ---------------------------------------------------------------- scenarios

  /** A quiet record with only a MACD histogram and an Asian influence: the scores the two produce. */
  lemma {:induction false} MacdAgainstAsia(exp: real -> real, v: FeatureMap, rsi: real, macd: real, asian: real)
    requires IsExp(exp)
    requires Holds(v, "price_change_1d", 0.0) && Holds(v, "price_change_3d", 0.0)
    requires Holds(v, "price_change_7d", 0.0) && Holds(v, "news_sentiment_score", 0.0)
    requires Holds(v, "rsi_14", rsi) && 30.0 <= rsi <= 70.0
    requires Holds(v, "macd_hist", macd) && -2.0 <= macd <= 2.0
    requires Holds(v, "asian_influence_score", asian) && -1.0 <= asian <= 1.0
    ensures Evaluate(exp, DefaultConfig, v).baseScore == macd / 10.0
    ensures Evaluate(exp, DefaultConfig, v).asianImpact == Abs(asian) * 0.5
    ensures Evaluate(exp, DefaultConfig, v).finalScore == Blend(macd / 10.0, asian, Abs(asian) * 0.5)
  {
    QuietFallback(v, rsi);
    HalfCapImpact(asian);
  }

  /** A slightly bullish MACD under strongly bearish Asian markets. */
  function BearishAsia(): FeatureMap {
    map["close" := 150.0, "rsi_14" := 55.0, "macd_hist" := 0.5, "asian_influence_score" := -0.8,
        "asian_avg_change" := -2.5, "atr_14" := 2.0, "bb_width" := 5.0]
  }

  lemma BearishAsiaAbsentReadings()
    ensures var v := Validate(BearishAsia()); Holds(v, "price_change_1d", 0.0) && Holds(v, "price_change_3d", 0.0) && Holds(v, "price_change_7d", 0.0) && Holds(v, "news_sentiment_score", 0.0)
  {
    var f := BearishAsia();
    ReadKeysListed();
    assert "price_change_1d" !in f;
    assert "price_change_3d" !in f;
    assert "price_change_7d" !in f;
    assert "news_sentiment_score" !in f;
    Reads(f, "price_change_1d");
    Reads(f, "price_change_3d");
    Reads(f, "price_change_7d");
    Reads(f, "news_sentiment_score");
  }

  lemma BearishAsiaPresentReadings()
    ensures var v := Validate(BearishAsia()); Holds(v, "rsi_14", 55.0) && Holds(v, "macd_hist", 0.5) && Holds(v, "asian_influence_score", -0.8)
  {
    var f := BearishAsia();
    ReadKeysListed();
    Reads(f, "rsi_14");
    Reads(f, "macd_hist");
    Reads(f, "asian_influence_score");
  }


  /** The base score 0.05 gives way to the Asian impact 0.4: the final score is -0.29, bearish. */
  lemma BearishAsiaExample(exp: real -> real)
    requires IsExp(exp)
    ensures Predict(exp, DefaultConfig, BearishAsia()).baseScore == 0.05
    ensures Predict(exp, DefaultConfig, BearishAsia()).asianImpact == 0.4
    ensures Predict(exp, DefaultConfig, BearishAsia()).finalScore == -0.29
    ensures Predict(exp, DefaultConfig, BearishAsia()).verdict == Bearish
  {
    BearishAsiaAbsentReadings();
    BearishAsiaPresentReadings();
    MacdAgainstAsia(exp, Validate(BearishAsia()), 55.0, 0.5, -0.8);
    BlendPull(0.05, -0.8, 0.4);
  }

  /** A slightly bearish MACD under strongly bullish Asian markets. */
  function BullishAsia(): FeatureMap {
    map["close" := 150.0, "rsi_14" := 45.0, "macd_hist" := -0.3, "asian_influence_score" := 0.85,
        "asian_avg_change" := 2.8, "atr_14" := 2.0, "bb_width" := 5.0]
  }

  lemma BullishAsiaAbsentReadings()
    ensures var v := Validate(BullishAsia()); Holds(v, "price_change_1d", 0.0) && Holds(v, "price_change_3d", 0.0) && Holds(v, "price_change_7d", 0.0) && Holds(v, "news_sentiment_score", 0.0)
  {
    var f := BullishAsia();
    ReadKeysListed();
    assert "price_change_1d" !in f;
    assert "price_change_3d" !in f;
    assert "price_change_7d" !in f;
    assert "news_sentiment_score" !in f;
    Reads(f, "price_change_1d");
    Reads(f, "price_change_3d");
    Reads(f, "price_change_7d");
    Reads(f, "news_sentiment_score");
  }

  lemma BullishAsiaPresentReadings()
    ensures var v := Validate(BullishAsia()); Holds(v, "rsi_14", 45.0) && Holds(v, "macd_hist", -0.3) && Holds(v, "asian_influence_score", 0.85)
  {
    var f := BullishAsia();
    ReadKeysListed();
    Reads(f, "rsi_14");
    Reads(f, "macd_hist");
    Reads(f, "asian_influence_score");
  }


  /** The base score -0.03 gives way to the Asian impact 0.425: the final score is 0.344, bullish. */
  lemma BullishAsiaExample(exp: real -> real)
    requires IsExp(exp)
    ensures Predict(exp, DefaultConfig, BullishAsia()).baseScore == -0.03
    ensures Predict(exp, DefaultConfig, BullishAsia()).asianImpact == 0.425
    ensures Predict(exp, DefaultConfig, BullishAsia()).finalScore == 0.344
    ensures Predict(exp, DefaultConfig, BullishAsia()).verdict == Bullish
  {
    BullishAsiaAbsentReadings();
    BullishAsiaPresentReadings();
    MacdAgainstAsia(exp, Validate(BullishAsia()), 45.0, -0.3, 0.85);
    BlendPull(-0.03, 0.85, 0.425);
  }

  /** A 12.5% week with RSI-14 at 87 and the close three half-widths above the band middle. */
  function SurgeWithHighRsi(): FeatureMap {
    map["close" := 165.0, "price_change_7d" := 12.5, "rsi_14" := 87.0, "bb_pct" := 1.1,
        "bb_middle" := 150.0, "bb_width" := 10.0, "volume_sma_ratio" := 1.2, "atr_14" := 2.0]
  }

  /** A surge above the thresholds with RSI-14 above 85: a HIGH warning led by the price surge. */
  lemma SurgeWarning(v: FeatureMap, change7d: real, rsi: real)
    requires Holds(v, "price_change_7d", change7d) && change7d > 10.0
    requires Holds(v, "rsi_14", rsi) && rsi > 85.0
    ensures CorrectionWarning(v, DefaultThresholds).Warning?
    ensures CorrectionWarning(v, DefaultThresholds).severity == High
    ensures CorrectionWarning(v, DefaultThresholds).reasons[0] == PriceSurge(change7d, rsi)
  {
    assert SurgeFires(v, DefaultThresholds) && HighCheckFires(v, DefaultThresholds);
    assert Checks(v, DefaultThresholds)[0].reason == PriceSurge(change7d, rsi);
  }

  /** The warning is HIGH and its first reason is the price surge with the RSI. */
  lemma SurgeWithHighRsiExample()
    ensures CorrectionWarning(Validate(SurgeWithHighRsi()), DefaultThresholds).Warning?
    ensures CorrectionWarning(Validate(SurgeWithHighRsi()), DefaultThresholds).severity == High
    ensures CorrectionWarning(Validate(SurgeWithHighRsi()), DefaultThresholds).reasons[0] == PriceSurge(12.5, 87.0)
  {
    var f := SurgeWithHighRsi();
    ReadKeysListed();
    Reads(f, "price_change_7d");
    Reads(f, "rsi_14");
    SurgeWarning(Validate(f), 12.5, 87.0);
  }

  /** An 8% week with the close four half-widths above the band middle. */
  function BandBreakout(): FeatureMap {
    map["close" := 170.0, "price_change_7d" := 8.0, "rsi_14" := 75.0, "bb_pct" := 1.3,
        "bb_middle" := 150.0, "bb_width" := 10.0, "volume_sma_ratio" := 1.0, "atr_14" := 2.0]
  }

  /** Above the band with z-score 4, a quiet week and average volume: the Bollinger check alone, HIGH. */
  lemma BandWarning(v: FeatureMap)
    requires Holds(v, "price_change_7d", 8.0) && Holds(v, "bb_pct", 1.3)
    requires Holds(v, "bb_width", 10.0) && Holds(v, "bb_middle", 150.0) && Holds(v, "close", 170.0)
    requires Holds(v, "volume_sma_ratio", 1.0)
    ensures CorrectionWarning(v, DefaultThresholds).Warning?
    ensures CorrectionWarning(v, DefaultThresholds).reasons == [BollingerZ(4.0)]
    ensures CorrectionWarning(v, DefaultThresholds).severity == High
  {
    assert ZScore(v) == 4.0;
    assert Checks(v, DefaultThresholds) == [Check(BollingerZ(4.0), High, 0.85)];
  }

  lemma BandBreakoutReadings()
    ensures var v := Validate(BandBreakout());
      && Holds(v, "price_change_7d", 8.0) && Holds(v, "bb_pct", 1.3)
      && Holds(v, "bb_width", 10.0) && Holds(v, "bb_middle", 150.0) && Holds(v, "close", 170.0)
      && Holds(v, "volume_sma_ratio", 1.0)
  {
    BandBreakoutBandReadings();
    BandBreakoutOtherReadings();
  }

  lemma BandBreakoutBandReadings()
    ensures var v := Validate(BandBreakout());
      Holds(v, "bb_pct", 1.3) && Holds(v, "bb_width", 10.0) && Holds(v, "bb_middle", 150.0)
  {
    var f := BandBreakout();
    ReadKeysListed();
    Reads(f, "bb_pct");
    Reads(f, "bb_width");
    Reads(f, "bb_middle");
  }

  lemma BandBreakoutOtherReadings()
    ensures var v := Validate(BandBreakout());
      Holds(v, "price_change_7d", 8.0) && Holds(v, "close", 170.0) && Holds(v, "volume_sma_ratio", 1.0)
  {
    var f := BandBreakout();
    ReadKeysListed();
    Reads(f, "price_change_7d");
    Reads(f, "close");
    Reads(f, "volume_sma_ratio");
  }

  /** Only the Bollinger check fires, with z-score 4: the warning's only reason says so, and it is HIGH. */
  lemma BandBreakoutExample()
    ensures CorrectionWarning(Validate(BandBreakout()), DefaultThresholds).Warning?
    ensures CorrectionWarning(Validate(BandBreakout()), DefaultThresholds).reasons == [BollingerZ(4.0)]
    ensures CorrectionWarning(Validate(BandBreakout()), DefaultThresholds).severity == High
  {
    BandBreakoutReadings();
    BandWarning(Validate(BandBreakout()));
  }

  /** An 11% week on two and a half times the average volume, with the RSI at 70 and the close inside the band. */
  function VolumeSurge(): FeatureMap {
    map["close" := 160.0, "price_change_7d" := 11.0, "rsi_14" := 70.0, "bb_pct" := 0.9,
        "bb_middle" := 150.0, "bb_width" := 10.0, "volume_sma_ratio" := 2.5, "atr_14" := 2.0]
  }

  /** A surge on heavy volume, with the RSI at 70 and the close inside the band: the volume check alone. */
  lemma VolumeWarning(v: FeatureMap)
    requires Holds(v, "price_change_7d", 11.0) && Holds(v, "rsi_14", 70.0)
    requires Holds(v, "bb_pct", 0.9) && Holds(v, "volume_sma_ratio", 2.5)
    ensures CorrectionWarning(v, DefaultThresholds) == Warning(Medium, [UnusualVolume(2.5)], 0.65, 11.0, 70.0, 2.5)
  {
    assert !SurgeFires(v, DefaultThresholds) && !BandFires(v, DefaultThresholds);
    assert VolumeFires(v, DefaultThresholds);
    assert Checks(v, DefaultThresholds) == [Check(UnusualVolume(2.5), Medium, 0.65)];
    assert ConfidencesOf(Checks(v, DefaultThresholds)) == [0.65];
  }

  /** Only the volume check fires: a MEDIUM warning with confidence 0.65. */
  lemma VolumeSurgeExample()
    ensures CorrectionWarning(Validate(VolumeSurge()), DefaultThresholds)
      == Warning(Medium, [UnusualVolume(2.5)], 0.65, 11.0, 70.0, 2.5)
  {
    var f := VolumeSurge();
    ReadKeysListed();
    Reads(f, "price_change_7d");
    Reads(f, "rsi_14");
    Reads(f, "bb_pct");
    Reads(f, "volume_sma_ratio");
    VolumeWarning(Validate(f));
  }

  /** A 3% week, a neutral RSI, the close inside the band and average volume. */
  function NormalConditions(): FeatureMap {
    map["close" := 152.0, "price_change_7d" := 3.0, "rsi_14" := 55.0, "bb_pct" := 0.5,
        "bb_middle" := 150.0, "bb_width" := 10.0, "volume_sma_ratio" := 1.0, "atr_14" := 2.0]
  }

  /** A week below the threshold with the close inside the band: no check fires. */
  lemma QuietWeek(v: FeatureMap, change7d: real, bbPct: real)
    requires Holds(v, "price_change_7d", change7d) && change7d <= 10.0
    requires Holds(v, "bb_pct", bbPct) && bbPct <= 1.0
    ensures CorrectionWarning(v, DefaultThresholds) == NoWarning
  {
  }

  lemma NormalConditionsExample()
    ensures CorrectionWarning(Validate(NormalConditions()), DefaultThresholds) == NoWarning
  {
    var f := NormalConditions();
    ReadKeysListed();
    Reads(f, "price_change_7d");
    Reads(f, "bb_pct");
    QuietWeek(Validate(f), 3.0, 0.5);
  }

  /** Five strong readings: RSI-14 85, MACD histogram 2, Asian influence 0.7, a 15% week, double volume. */
  function StrongSignals(): FeatureMap {
    map["close" := 150.0, "rsi_14" := 85.0, "macd_hist" := 2.0, "asian_influence_score" := 0.7,
        "price_change_7d" := 15.0, "volume_sma_ratio" := 2.0, "atr_14" := 2.0]
  }

  /** The reasons for a strong rally with no news, no recent days' change and no fear-and-greed reading. */
  lemma StrongRallyReasons(v: FeatureMap)
    requires Holds(v, "price_change_1d", 0.0) && Holds(v, "price_change_3d", 0.0)
    requires Holds(v, "price_change_7d", 15.0) && Holds(v, "news_sentiment_score", 0.0)
    requires Holds(v, "rsi_14", 85.0) && Holds(v, "macd_hist", 2.0)
    requires Holds(v, "volume_sma_ratio", 2.0) && Holds(v, "volume_spike", 0.0)
    requires Holds(v, "fear_greed_index", 0.0)
    ensures Reasons(v, 0.7) == [
      AsianInfluence(true, true, 0.7), RsiOverbought(85.0), SevenDayTrend(true, 15.0),
      MacdMomentum(true), VolumeElevated(2.0), MarketFear(0.0)]
  {
    assert !IsRebounding(v);
    assert ReboundReason(v) == [];
  }

  lemma StrongSignalsAbsentReadings()
    ensures var v := Validate(StrongSignals()); Holds(v, "price_change_1d", 0.0) && Holds(v, "price_change_3d", 0.0) && Holds(v, "news_sentiment_score", 0.0) && Holds(v, "volume_spike", 0.0) && Holds(v, "fear_greed_index", 0.0)
  {
    var f := StrongSignals();
    ReadKeysListed();
    assert "price_change_1d" !in f;
    assert "price_change_3d" !in f;
    assert "news_sentiment_score" !in f;
    assert "volume_spike" !in f;
    assert "fear_greed_index" !in f;
    Reads(f, "price_change_1d");
    Reads(f, "price_change_3d");
    Reads(f, "news_sentiment_score");
    Reads(f, "volume_spike");
    Reads(f, "fear_greed_index");
  }

  lemma StrongSignalsPresentReadings()
    ensures var v := Validate(StrongSignals()); Holds(v, "price_change_7d", 15.0) && Holds(v, "rsi_14", 85.0) && Holds(v, "macd_hist", 2.0) && Holds(v, "volume_sma_ratio", 2.0)
  {
    var f := StrongSignals();
    ReadKeysListed();
    Reads(f, "price_change_7d");
    Reads(f, "rsi_14");
    Reads(f, "macd_hist");
    Reads(f, "volume_sma_ratio");
  }


  /**
   * Six reasons, not at most five: the unsupplied fear-and-greed index is
   * filled with 0 and reads as market fear, adding a sixth.
   */
  lemma StrongSignalsGiveSixReasons()
    ensures Reasons(Validate(StrongSignals()), 0.7) == [
      AsianInfluence(true, true, 0.7), RsiOverbought(85.0), SevenDayTrend(true, 15.0),
      MacdMomentum(true), VolumeElevated(2.0), MarketFear(0.0)]
  {
    StrongSignalsAbsentReadings();
    StrongSignalsPresentReadings();
    StrongRallyReasons(Validate(StrongSignals()));
  }
}

=== FILE: predict_v4.dfy ===
/**
 * Version 4's `predict`: feature validation, the 50/30/20 ensemble of the
 * local, European and Asian scores, the correction adjustment, probability,
 * label, expected move and reasons. The method is modelled twice: as written,
 * where validation drops the supplied local score and the seventh correction
 * pattern fails, and corrected, where neither happens.
 */
module PredictV4 {
  import opened Wrappers
  import opened Maths
  import opened FeatureMaps
  import opened RulesV4

  const LocalWeight := 0.50
  const EuropeanWeight := 0.30
  const AsianWeight := 0.20

  lemma WeightsSumToOne()
    ensures LocalWeight + EuropeanWeight + AsianWeight == 1.0
  {
  }

  const BaseFeatures: seq<string> := [
    "close", "high", "low", "volume", "price_change_1d", "price_change_3d", "price_change_7d",
    "ema_12", "ema_26", "macd", "macd_signal", "macd_hist",
    "rsi_14", "rsi_7", "atr_14", "obv",
    "bb_upper", "bb_middle", "bb_lower", "bb_width", "bb_pct",
    "distance_to_support", "distance_to_resistance",
    "volume_sma_ratio", "volume_spike",
    "news_sentiment_score", "fear_greed_index",
    "today_news_sentiment", "today_news_count"]

  const AsianFeatures: seq<string> := [
    "nikkei_change_pct", "hang_seng_change_pct",
    "shanghai_change_pct", "nifty_change_pct",
    "asian_avg_change", "asian_influence_score"]

  const EuropeanFeatures: seq<string> := [
    "ftse_change_pct", "dax_change_pct", "cac_change_pct",
    "stoxx_change_pct", "ibex_change_pct",
    "european_avg_change", "european_influence_score"]

  /** Every key validation fills. */
  const FeatureKeys: set<string> := set k | k in BaseFeatures + AsianFeatures + EuropeanFeatures

  /** The sector volatility multiplier, kept by validation when present. */
  const MultiplierKey := "volatility_multiplier"

  /** The pre-computed local score a caller may supply. */
  const SuppliedLocalKey := "local_us_influence_score"

  /**
   * Feature validation as written: the listed keys, each defaulting to 0.0,
   * plus the volatility multiplier when present. The supplied local score is
   * in no list and is dropped.
   */
  function Validate(features: FeatureMap): (v: FeatureMap)
    ensures v.Keys == FeatureKeys + (if MultiplierKey in features then {MultiplierKey} else {})
    ensures forall k :: k in FeatureKeys ==> v[k] == Get(features, k, 0.0)
    ensures MultiplierKey in features ==> v[MultiplierKey] == features[MultiplierKey]
    ensures SuppliedLocalKey !in v
  {
    UnlistedKeys();
    var filled := Filled(features, FeatureKeys);
    if MultiplierKey in features then filled[MultiplierKey := features[MultiplierKey]] else filled
  }

  /** Validation that also keeps the supplied local score, as `predict` expects. */
  function ValidateCorrected(features: FeatureMap): (v: FeatureMap)
    ensures SuppliedLocalKey in v <==> SuppliedLocalKey in features
    ensures SuppliedLocalKey in features ==> v[SuppliedLocalKey] == features[SuppliedLocalKey]
    ensures SuppliedLocalKey !in features ==> v == Validate(features)
    ensures forall k :: k in Validate(features) ==> k in v && v[k] == Validate(features)[k]
  {
    var v := Validate(features);
    if SuppliedLocalKey in features then v[SuppliedLocalKey := features[SuppliedLocalKey]] else v
  }

  /** The local score before the rebound boost: the supplied one when present, else the fallback. */
  function BaseLocalScore(tanh: real -> real, v: FeatureMap): (r: real)
    requires IsTanh(tanh)
    ensures SuppliedLocalKey in v ==> r == v[SuppliedLocalKey]
    ensures SuppliedLocalKey !in v ==> r == Fallback(tanh, v)
  {
    if SuppliedLocalKey in v then v[SuppliedLocalKey] else Fallback(tanh, v)
  }

  /**
   * The local score: a rebound stronger than 0.3 adds 0.35 times its strength
   * and clamps the result, so it never lowers the score below the smaller of
   * 1 and the base plus 0.105; a weaker rebound leaves the base untouched.
   */
  function LocalScore(tanh: real -> real, v: FeatureMap): (r: real)
    requires IsTanh(tanh)
    ensures Rebound(v) <= 0.3 ==> r == BaseLocalScore(tanh, v)
    ensures Rebound(v) > 0.3 ==> -1.0 <= r <= 1.0 && r >= Min(BaseLocalScore(tanh, v) + 0.105, 1.0)
    ensures SuppliedLocalKey !in v ==> -1.0 <= r <= 1.0
  {
    var base := BaseLocalScore(tanh, v);
    var rebound := Rebound(v);
    if rebound > 0.3 then Clip(base + rebound * 0.35, -1.0, 1.0) else base
  }

  datatype PredictionV4 = PredictionV4(
    verdict: Label,
    probability: real,
    expectedMove: real,
    europeanInfluence: real,
    europeanContribution: real,
    asianInfluence: real,
    asianContribution: real,
    localScore: real,
    localContribution: real,
    finalScore: real,
    correction: CorrectionWarning,
    correctionAdjusted: bool,
    reasons: seq<ReasonV4>)

  /** The weighted sum of the three contributions, before the correction adjustment. */
  function Ensemble(p: PredictionV4): real {
    p.europeanContribution + p.asianContribution + p.localContribution
  }

  /** The sector volatility multiplier, 1.0 when absent. */
  function Multiplier(v: FeatureMap): real {
    Get(v, MultiplierKey, 1.0)
  }

  /**
   * What every prediction satisfies, whatever its inputs: among others, the
   * probability is the logistic function of five times the final score.
   */
  predicate WellFormed(exp: real -> real, p: PredictionV4, multiplier: real)
    requires IsExp(exp)
  {
    && p.europeanContribution == EuropeanWeight * p.europeanInfluence
    && p.asianContribution == AsianWeight * p.asianInfluence
    && p.localContribution == LocalWeight * p.localScore
    && (p.verdict == Bullish <==> p.finalScore > 0.0)
    && p.probability == Sigmoid(exp, p.finalScore * 5.0)
    && 0.0 < p.probability < 1.0
    && (p.probability > 0.5 <==> p.verdict == Bullish)
    && Abs(p.finalScore) <= Abs(Ensemble(p))
    && (p.correctionAdjusted <==> p.finalScore != Ensemble(p))
    && (p.correction.warning && p.correction.direction == Down && Ensemble(p) > 0.0 ==>
          p.verdict == Bullish && p.finalScore >= Ensemble(p) / 2.0)
    && (!p.correction.warning ==> p.finalScore == Ensemble(p))
    && (multiplier > 0.0 ==> (p.expectedMove >= 0.0 <==> p.finalScore >= 0.0))
    && (multiplier >= 1.5 ==> Abs(p.expectedMove) >= 2.0)
    && 1 <= |p.reasons| <= 6
  }

  /** `np.sign(x) * abs(x)`, which is `x` itself. */
  function SignedMagnitude(x: real): (r: real)
    ensures r == x
  {
    Sign(x) * Abs(x)
  }

  /** The weighted ensemble of the three scores after the correction adjustment. */
  function AdjustedScore(european: real, asian: real, local: real, w: CorrectionWarning): real
    requires 0.0 <= w.score <= 100.0
  {
    AdjustForCorrection(EuropeanWeight * SignedMagnitude(european) + AsianWeight * SignedMagnitude(asian) + LocalWeight * local, w)
  }

  /** The prediction from the three scores, the correction warning and the reasons. */
  function Assemble(exp: real -> real, european: real, asian: real, local: real, w: CorrectionWarning,
                    multiplier: real, reasons: seq<ReasonV4>): (p: PredictionV4)
    requires IsExp(exp)
    requires 0.0 <= w.score <= 100.0
    requires 1 <= |reasons| <= 6
    ensures WellFormed(exp, p, multiplier)
    ensures p.finalScore == AdjustedScore(european, asian, local, w)
    ensures p.europeanInfluence == european && p.asianInfluence == asian && p.localScore == local
    ensures p.correction == w && p.reasons == reasons
  {
    var europeanContribution := EuropeanWeight * SignedMagnitude(european);
    var asianContribution := AsianWeight * SignedMagnitude(asian);
    var localContribution := LocalWeight * local;
    var ensemble := europeanContribution + asianContribution + localContribution;
    var adjusted := AdjustForCorrection(ensemble, w);
    SigmoidAboveHalf(exp, adjusted * 5.0);
    PredictionV4(
      if adjusted > 0.0 then Bullish else Bearish,
      Sigmoid(exp, adjusted * 5.0),
      ExpectedMove(adjusted, multiplier),
      european, europeanContribution,
      asian, asianContribution,
      local, localContribution,
      adjusted,
      w,
      adjusted != ensemble,
      reasons)
  }

  /** The prediction for a validated dictionary and its correction warning. */
  function Evaluate(tanh: real -> real, exp: real -> real, v: FeatureMap, w: CorrectionWarning): (p: PredictionV4)
    requires IsTanh(tanh) && IsExp(exp)
    requires 0.0 <= w.score <= 100.0
    ensures WellFormed(exp, p, Multiplier(v))
    ensures p.localScore == LocalScore(tanh, v)
    ensures p.correction == w
  {
    var european := Get(v, "european_influence_score", 0.0);
    var asian := Get(v, "asian_influence_score", 0.0);
    var local := LocalScore(tanh, v);
    var reasons := Reasons(v, AdjustedScore(european, asian, local, w), european, asian, w);
    Assemble(exp, european, asian, local, w, Multiplier(v), reasons)
  }

  /**
   * `predict` as written: the supplied local score never survives validation,
   * and an input that reaches the seventh correction pattern fails with a
   * name error.
   */
  function PredictAsWritten(tanh: real -> real, exp: real -> real, features: FeatureMap): (r: Result<PredictionV4>)
    requires IsTanh(tanh) && IsExp(exp)
    ensures r.Failure? <==> Truthy(Get(features, "volume_spike", 0.0)) && Get(features, "rsi_14", 0.0) > 70.0
    ensures r.Failure? ==> r.error == UndefinedChange1d
    ensures r.Success? ==> WellFormed(exp, r.value, Multiplier(Validate(features)))
    ensures r.Success? ==> VolumeExhaustion !in r.value.correction.patterns
    ensures r.Success? && Rebound(Validate(features)) <= 0.3 ==> r.value.localScore == Fallback(tanh, Validate(features))
  {
    var v := Validate(features);
    match CorrectionWarningAsWritten(v)
    case Failure(e) => Failure(e)
    case Success(w) => Success(Evaluate(tanh, exp, v, w))
  }

  /**
   * `predict` with both defects corrected: it always succeeds, and a supplied
   * local score is used verbatim unless a strong rebound boosts it.
   */
  function Predict(tanh: real -> real, exp: real -> real, features: FeatureMap): (p: PredictionV4)
    requires IsTanh(tanh) && IsExp(exp)
    ensures WellFormed(exp, p, Multiplier(ValidateCorrected(features)))
    ensures SuppliedLocalKey in features && Rebound(ValidateCorrected(features)) <= 0.3 ==>
      p.localScore == features[SuppliedLocalKey]
    ensures VolumeExhaustion in p.correction.patterns <==>
      Truthy(Get(features, "volume_spike", 0.0)) && Get(features, "rsi_14", 0.0) > 70.0
      && Get(features, "price_change_1d", 0.0) > 3.0
  {
    ReadKeysListed();
    var v := ValidateCorrected(features);
    Evaluate(tanh, exp, v, CorrectionWarningOf(v))
  }

  /**
   * The probability is increasing in the final score: of two well-formed
   * predictions, the one with the larger final score is at least as likely
   * bullish, and strictly more so while five times both scores stays inside
   * the sigmoid's clip range of ±500.
   */
  lemma {:induction false} ProbabilityOrder(exp: real -> real, p: PredictionV4, m: real, q: PredictionV4, n: real)
    requires IsExp(exp)
    requires WellFormed(exp, p, m) && WellFormed(exp, q, n)
    requires p.finalScore <= q.finalScore
    ensures p.probability <= q.probability
    ensures -100.0 <= p.finalScore < q.finalScore <= 100.0 ==> p.probability < q.probability
  {
    SigmoidMonotone(exp, p.finalScore * 5.0, q.finalScore * 5.0);
  }

  /** Of two corrected predictions, the larger final score never has the smaller probability. */
  lemma {:induction false} ProbabilityIncreasing(tanh: real -> real, exp: real -> real, f: FeatureMap, g: FeatureMap)
    requires IsTanh(tanh) && IsExp(exp)
    requires Predict(tanh, exp, f).finalScore <= Predict(tanh, exp, g).finalScore
    ensures Predict(tanh, exp, f).probability <= Predict(tanh, exp, g).probability
    ensures -100.0 <= Predict(tanh, exp, f).finalScore < Predict(tanh, exp, g).finalScore <= 100.0 ==>
              Predict(tanh, exp, f).probability < Predict(tanh, exp, g).probability
  {
    ProbabilityOrder(exp, Predict(tanh, exp, f), Multiplier(ValidateCorrected(f)),
                     Predict(tanh, exp, g), Multiplier(ValidateCorrected(g)));
  }

  /** As written, supplying a local score changes nothing at all. */
  lemma {:induction false} SuppliedScoreIgnored(tanh: real -> real, exp: real -> real, features: FeatureMap, x: real)
    requires IsTanh(tanh) && IsExp(exp)
    ensures PredictAsWritten(tanh, exp, features[SuppliedLocalKey := x]) == PredictAsWritten(tanh, exp, features)
  {
    ValidateDropsSupplied(features, x);
  }

  /** Validation as written yields the same dictionary whatever the supplied local score. */
  lemma ValidateDropsSupplied(features: FeatureMap, x: real)
    ensures Validate(features[SuppliedLocalKey := x]) == Validate(features)
  {
    var supplied := features[SuppliedLocalKey := x];
    UnlistedKeys();
    assert MultiplierKey != SuppliedLocalKey;
    assert forall k :: k in FeatureKeys ==> Get(supplied, k, 0.0) == Get(features, k, 0.0);
  }

  /** Without a supplied score and short of the seventh pattern, both versions agree. */
  lemma {:induction false} CorrectedAgreesOtherwise(tanh: real -> real, exp: real -> real, features: FeatureMap)
    requires IsTanh(tanh) && IsExp(exp)
    requires SuppliedLocalKey !in features
    requires !(Truthy(Get(features, "volume_spike", 0.0)) && Get(features, "rsi_14", 0.0) > 70.0)
    ensures PredictAsWritten(tanh, exp, features) == Success(Predict(tanh, exp, features))
  {
    var v := Validate(features);
    assert ValidateCorrected(features) == v;
    assert VolumeExhaustionFiring(v) == [];
    assert FirstSixFirings(v) + VolumeExhaustionFiring(v) == FirstSixFirings(v);
  }

  /** Every reading the fallback and rebound rules take is 0.0 once validation has filled an empty dictionary. */
  lemma AllZeroReadings(v: FeatureMap)
    requires v == Validate(SuppliedOnly())
    ensures Get(v, "price_change_1d", 0.0) == 0.0 && Get(v, "price_change_3d", 0.0) == 0.0
    ensures Get(v, "price_change_7d", 0.0) == 0.0 && Get(v, "news_sentiment_score", 0.0) == 0.0
    ensures Get(v, "rsi_14", 50.0) == 0.0 && Get(v, "volume_sma_ratio", 1.0) == 0.0
    ensures Get(v, "close", 100.0) == 0.0 && Get(v, "high", 0.0) == 0.0 && Get(v, "low", 0.0) == 0.0
    ensures Get(v, "today_news_sentiment", 0.0) == 0.0 && Get(v, "macd_hist", 0.0) == 0.0
    ensures Rebound(v) == 0.0
  {
    ReadKeysListed();
    UnlistedKeys();
    assert forall k :: k in FeatureKeys ==> v[k] == 0.0;
  }

  /** The keys the fallback and rebound rules read are all filled by validation. */
  lemma ReadKeysListed()
    ensures "close" in FeatureKeys && "high" in FeatureKeys && "low" in FeatureKeys
    ensures "price_change_1d" in FeatureKeys && "price_change_3d" in FeatureKeys && "price_change_7d" in FeatureKeys
    ensures "macd_hist" in FeatureKeys && "rsi_14" in FeatureKeys && "volume_sma_ratio" in FeatureKeys
    ensures "news_sentiment_score" in FeatureKeys && "today_news_sentiment" in FeatureKeys
    ensures "volume_spike" in FeatureKeys && "bb_pct" in FeatureKeys
  {
    PriceKeysListed();
    IndicatorKeysListed();
  }

  /** The price keys are filled by validation. */
  lemma PriceKeysListed()
    ensures "close" in FeatureKeys && "high" in FeatureKeys && "low" in FeatureKeys
    ensures "price_change_1d" in FeatureKeys && "price_change_3d" in FeatureKeys && "price_change_7d" in FeatureKeys
  {
    var all := BaseFeatures + AsianFeatures + EuropeanFeatures;
    assert all[0] == "close" && all[1] == "high" && all[2] == "low";
    assert all[4] == "price_change_1d" && all[5] == "price_change_3d" && all[6] == "price_change_7d";
  }

  /** The indicator, volume and news keys are filled by validation. */
  lemma IndicatorKeysListed()
    ensures "macd_hist" in FeatureKeys && "rsi_14" in FeatureKeys && "volume_sma_ratio" in FeatureKeys
    ensures "news_sentiment_score" in FeatureKeys && "today_news_sentiment" in FeatureKeys
    ensures "volume_spike" in FeatureKeys && "bb_pct" in FeatureKeys
  {
    var all := BaseFeatures + AsianFeatures + EuropeanFeatures;
    assert all[11] == "macd_hist" && all[12] == "rsi_14" && all[20] == "bb_pct";
    assert all[23] == "volume_sma_ratio" && all[24] == "volume_spike";
    assert all[25] == "news_sentiment_score" && all[27] == "today_news_sentiment";
  }

  /** Neither the volatility multiplier nor the supplied local score is a listed feature. */
  lemma UnlistedKeys()
    ensures MultiplierKey !in FeatureKeys && SuppliedLocalKey !in FeatureKeys
  {
    MultiplierUnlisted();
    SuppliedUnlisted();
  }

  lemma MultiplierUnlisted()
    ensures MultiplierKey !in FeatureKeys
  {
  }

  lemma SuppliedUnlisted()
    ensures SuppliedLocalKey !in FeatureKeys
  {
  }

  /** Input with nothing but a supplied local score of 0.9. */
  function SuppliedOnly(): FeatureMap {
    map[SuppliedLocalKey := 0.9]
  }

  /**
   * As written, the supplied 0.9 is replaced by the fallback score of an
   * all-zero record, 0.015 (the RSI of 0 reads as oversold); corrected, it is
   * used verbatim.
   */
  lemma SuppliedScoreExample(tanh: real -> real, exp: real -> real)
    requires IsTanh(tanh) && IsExp(exp)
    ensures PredictAsWritten(tanh, exp, SuppliedOnly()).Success?
    ensures PredictAsWritten(tanh, exp, SuppliedOnly()).value.localScore == 0.015
    ensures Predict(tanh, exp, SuppliedOnly()).localScore == 0.9
  {
    var v := Validate(SuppliedOnly());
    AllZeroReadings(v);
    ZeroRecordFallback(tanh, v);
    CorrectedZeroRebound();
  }

  /** The fallback score of an all-zero record is 0.015: only the oversold RSI term remains. */
  lemma ZeroRecordFallback(tanh: real -> real, v: FeatureMap)
    requires IsTanh(tanh)
    requires Get(v, "price_change_1d", 0.0) == 0.0 && Get(v, "price_change_3d", 0.0) == 0.0
    requires Get(v, "close", 100.0) == 0.0 && Get(v, "high", 0.0) == 0.0 && Get(v, "low", 0.0) == 0.0
    requires Get(v, "volume_sma_ratio", 1.0) == 0.0 && Get(v, "rsi_14", 50.0) == 0.0
    requires Get(v, "macd_hist", 0.0) == 0.0 && Get(v, "news_sentiment_score", 0.0) == 0.0
    requires Get(v, "today_news_sentiment", 0.0) == 0.0 && Rebound(v) == 0.0
    ensures Fallback(tanh, v) == 0.015
  {
    ZeroPriceTerms(tanh, v);
    assert FallbackRsiTerm(0.0) == 0.3;
    assert FallbackOtherTerms(tanh, v) == 0.015;
    assert TodayNewsTerm(v) == 0.0;
  }

  /** With every price reading 0.0, the price terms of the fallback vanish. */
  lemma ZeroPriceTerms(tanh: real -> real, v: FeatureMap)
    requires IsTanh(tanh)
    requires Get(v, "price_change_1d", 0.0) == 0.0 && Get(v, "price_change_3d", 0.0) == 0.0
    requires Get(v, "close", 100.0) == 0.0 && Get(v, "high", 0.0) == 0.0 && Get(v, "low", 0.0) == 0.0
    requires Get(v, "volume_sma_ratio", 1.0) == 0.0
    ensures FallbackPriceTerms(tanh, v) == 0.0
  {
    assert tanh(0.0 / 3.0) == 0.0 && tanh(0.0 / 8.0) == 0.0;
  }

  /** Keeping the supplied score adds no rebound: every reading is still 0.0. */
  lemma CorrectedZeroRebound()
    ensures Rebound(ValidateCorrected(SuppliedOnly())) == 0.0
  {
    var v := Validate(SuppliedOnly());
    var w := ValidateCorrected(SuppliedOnly());
    AllZeroReadings(v);
    ReadKeysListed();
    assert Get(w, "price_change_1d", 0.0) == 0.0 && Get(w, "price_change_3d", 0.0) == 0.0;
    assert Get(w, "price_change_7d", 0.0) == 0.0 && Get(w, "news_sentiment_score", 0.0) == 0.0;
    assert Get(w, "rsi_14", 50.0) == 0.0 && Get(w, "volume_sma_ratio", 1.0) == 0.0;
    assert !ReboundPatternFires(w);
  }

  /** Input with a volume spike, RSI-14 of 80 and a 5% day. */
  function ExhaustedRally(): FeatureMap {
    map["volume_spike" := 1.0, "rsi_14" := 80.0, "price_change_1d" := 5.0]
  }

  /** As written, this input fails with the name error; corrected, it raises the volume-exhaustion pattern. */
  lemma ExhaustedRallyExample(tanh: real -> real, exp: real -> real)
    requires IsTanh(tanh) && IsExp(exp)
    ensures PredictAsWritten(tanh, exp, ExhaustedRally()) == Failure(UndefinedChange1d)
    ensures VolumeExhaustion in Predict(tanh, exp, ExhaustedRally()).correction.patterns
    ensures Predict(tanh, exp, ExhaustedRally()).correction.direction == Down
  {
    assert Get(ExhaustedRally(), "volume_spike", 0.0) == 1.0;
    assert Get(ExhaustedRally(), "rsi_14", 0.0) == 80.0;
    assert Get(ExhaustedRally(), "price_change_1d", 0.0) == 5.0;
  }
}

=== FILE: predict_v5.dfy ===
/**
 * The version 5 pipeline (`QuickModelV5`): a weighted composite mapped
 * linearly to a probability, the confidence adjuster, a target projector and
 * the signal rules.
 */
module PredictV5 {
  import opened Wrappers
  import opened Maths
  import opened Features
  import opened Signals
  import opened ScorersV5

  const TechnicalWeight := 0.30
  const SentimentWeight := 0.25
  const GlobalWeight := 0.20
  const VolumeWeight := 0.15
  const FundamentalsWeight := 0.10

  lemma WeightsSumToOne()
    ensures TechnicalWeight + SentimentWeight + GlobalWeight + VolumeWeight + FundamentalsWeight == 1.0
  {
  }

  const MinConfidence := 0.55
  const MaxConfidence := 0.95

  datatype Components = Components(technical: real, sentiment: real, global: real, volume: real, fundamentals: real) {
    predicate InRange() {
      && -1.0 <= technical <= 1.0 && -1.0 <= sentiment <= 1.0 && -1.0 <= global <= 1.0
      && -1.0 <= volume <= 1.0 && -1.0 <= fundamentals <= 1.0
    }
  }

  function ComponentScores(tanh: real -> real, f: MarketFeatures): (c: Components)
    requires IsTanh(tanh)
    ensures c.InRange()
  {
    Components(TechnicalScore(tanh, f), SentimentScore(tanh, f), GlobalScore(tanh, f),
               VolumeScore(tanh, f), FundamentalScore(tanh, f))
  }

  /** The weighted composite; with in-range components it lies in [-1, 1]. */
  function Composite(c: Components): (r: real)
    ensures c.InRange() ==> -1.0 <= r <= 1.0
  {
    c.technical * TechnicalWeight + c.sentiment * SentimentWeight + c.global * GlobalWeight
      + c.volume * VolumeWeight + c.fundamentals * FundamentalsWeight
  }

  /** The linear map from composite to bullish probability: -1 to 0, 0 to 1/2, 1 to 1. */
  function LinearProbability(composite: real): (p: real)
    ensures -1.0 <= composite <= 1.0 ==> 0.0 <= p <= 1.0
    ensures p > 0.5 <==> composite > 0.0
  {
    (composite + 1.0) / 2.0
  }

  /**
   * The confidence adjuster. When the record mentions both "technical" and
   * "sentiment" (`mentionsScores`, the source's substring test on the record's
   * text), strong agreement pushes the probability away from one half; high
   * volatility pulls extremes back; the result is clamped to [0.55, 0.95].
   * So it never returns a bearish probability, and at most one half maps to
   * the floor.
   */
  function AdjustConfidence(probability: real, mentionsScores: bool, technical: real, sentiment: real, volatility: real)
    : (r: real)
    ensures MinConfidence <= r <= MaxConfidence
    ensures probability <= 0.5 ==> r == MinConfidence
  {
    var boosted :=
      if mentionsScores && ((technical > 0.5 && sentiment > 0.5) || (technical < -0.5 && sentiment < -0.5)) then
        var boost := Min(Abs(technical * sentiment) * 0.15, 0.15);
        if probability > 0.5 then probability + boost else probability - boost
      else probability;
    var pulled :=
      if volatility > 2.0 then
        if boosted > 0.7 then 0.7 + (boosted - 0.7) * 0.7
        else if boosted < 0.3 then 0.3 - (0.3 - boosted) * 0.7
        else boosted
      else boosted;
    Clip(pulled, MinConfidence, MaxConfidence)
  }

  /** Raising the probability never lowers the adjusted confidence. */
  lemma AdjustConfidenceMonotone(p: real, q: real, mentionsScores: bool, technical: real, sentiment: real, volatility: real)
    requires p <= q
    ensures AdjustConfidence(p, mentionsScores, technical, sentiment, volatility)
      <= AdjustConfidence(q, mentionsScores, technical, sentiment, volatility)
  {
  }

  /** The no-neutral step; dead, since the adjuster never returns below 0.55. */
  function NoNeutral(p: real, composite: real, strongest: real): (r: real)
    ensures !(0.45 < r < 0.55)
    ensures !(0.45 < p < 0.55) ==> r == p
  {
    if 0.45 < p < 0.55 then
      if strongest > 0.0 then (if composite >= 0.0 then 0.56 else 0.44) else 0.56
    else p
  }

  datatype Projection = Projection(target: real, changePercent: real)

  /**
   * The target: a 0.5-5% base scaled by confidence and volatility, boosted by
   * 20% for a 5-day move beyond 2%, capped to [0.3, 6]% and signed by the
   * direction.
   */
  function TargetPrice(price: real, confidence: real, bullish: bool, f: MarketFeatures): (r: Projection)
    ensures 0.3 <= Abs(r.changePercent) <= 6.0
    ensures r.changePercent > 0.0 <==> bullish
    ensures price > 0.0 ==> (r.target > price <==> bullish)
  {
    var confidenceFactor := (confidence - 0.5) / 0.45;
    var base := 0.5 + (5.0 - 0.5) * confidenceFactor;
    var volatilityMultiplier := Min(f.volatility.GetOr(1.0) / 2.0, 1.5);
    var adjusted := base * volatilityMultiplier * (if Abs(f.priceChange5d) > 2.0 then 1.2 else 1.0);
    var move := Clip(adjusted, 0.3, 6.0);
    var change := if bullish then move else -move;
    var factor := 1.0 + change / 100.0;
    assert factor > 1.0 <==> bullish;
    PositiveScale(price, factor);
    Projection(price * factor, change)
  }

  lemma PositiveScale(price: real, k: real)
    ensures price > 0.0 ==> (price * k > price <==> k > 1.0)
  {
    if price > 0.0 {
      assert price * k - price == price * (k - 1.0);
      ScaleSign(k - 1.0, price);
    }
  }

  /** Why a version 5 signal was raised. */
  datatype SignalReasonV5 =
    | StrongTechnicals | PositiveMomentum | WeakTechnicals | NegativeMomentum
    | OverboughtCondition(rsi: real) | OversoldCondition(rsi: real) | VolumeSpike(ratio: real)

  type SignalV5 = Signal<SignalReasonV5>

  function DirectionSignals(bullish: bool, confidence: real, technical: real): (r: seq<SignalV5>)
    ensures KindsOf(r) == if confidence > 0.60 then [if bullish then Buy else Sell] else []
  {
    if bullish then
      if confidence > 0.75 && technical > 0.5 then [Signal(Buy, Strong, StrongTechnicals)]
      else if confidence > 0.60 then [Signal(Buy, Moderate, PositiveMomentum)]
      else []
    else
      if confidence > 0.75 && technical < -0.5 then [Signal(Sell, Strong, WeakTechnicals)]
      else if confidence > 0.60 then [Signal(Sell, Moderate, NegativeMomentum)]
      else []
  }

  function ConditionSignals(rsi: Option<real>, volumeRatio: real): (r: seq<SignalV5>)
    ensures KindsOf(r) == (if Truthy(rsi) && rsi.value > 75.0 then [Warning] else [])
      + (if Truthy(rsi) && rsi.value < 25.0 then [Opportunity] else [])
      + (if volumeRatio > 2.0 then [Alert] else [])
  {
    var warning := if Truthy(rsi) && rsi.value > 75.0 then [Signal(Warning, High, OverboughtCondition(rsi.value))] else [];
    var opportunity := if Truthy(rsi) && rsi.value < 25.0 then [Signal(Opportunity, High, OversoldCondition(rsi.value))] else [];
    var volume := if volumeRatio > 2.0 then [Signal(Alert, High, VolumeSpike(volumeRatio))] else [];
    KindsOfConcat(warning, opportunity);
    KindsOfConcat(warning + opportunity, volume);
    warning + opportunity + volume
  }

  /**
   * The signals, uncapped: a BUY only when bullish and a SELL only when
   * bearish, a WARNING exactly for a truthy RSI above 75, an OPPORTUNITY
   * exactly for a truthy RSI below 25 and an ALERT exactly for volume above
   * twice the average.
   */
  function GenerateSignals(f: MarketFeatures, bullish: bool, confidence: real, technical: real): (r: seq<SignalV5>)
    ensures Buy in KindsOf(r) ==> bullish
    ensures Sell in KindsOf(r) ==> !bullish
    ensures Warning in KindsOf(r) <==> Truthy(f.rsi) && f.rsi.value > 75.0
    ensures Opportunity in KindsOf(r) <==> Truthy(f.rsi) && f.rsi.value < 25.0
    ensures Alert in KindsOf(r) <==> f.volumeRatio > 2.0
    ensures |r| <= 3
  {
    var d := DirectionSignals(bullish, confidence, technical);
    var c := ConditionSignals(f.rsi, f.volumeRatio);
    KindsOfConcat(d, c);
    var kd, kc := KindsOf(d), KindsOf(c);
    assert Warning !in kd && Opportunity !in kd && Alert !in kd;
    assert Buy !in kc && Sell !in kc;
    assert |kd| <= 1 && |kc| <= 2;
    d + c
  }

  datatype Direction = Up | Down

  datatype PredictionV5 = PredictionV5(
    direction: Direction,
    bullishProbability: real,
    bearishProbability: real,
    confidence: real,
    projection: Projection,
    scores: Components,
    composite: real,
    signals: seq<SignalV5>)

  const InvalidPrice := "Invalid current price"

  /**
   * The prediction. A missing or non-positive price is the only error.
   * Otherwise the call is always up, with confidence in [0.55, 0.95], a
   * projected rise of 0.3-6%, and never a SELL signal.
   */
  function Predict(tanh: real -> real, f: MarketFeatures, mentionsScores: bool): (r: Result<PredictionV5>)
    requires IsTanh(tanh)
    ensures r.Failure? <==> f.currentPrice.GetOr(0.0) <= 0.0
    ensures r.Failure? ==> r.error == InvalidPrice
    ensures r.Success? ==> r.value.direction == Up
    ensures r.Success? ==> r.value.bearishProbability == 1.0 - r.value.bullishProbability
    ensures r.Success? ==>
      r.value.confidence == r.value.bullishProbability && MinConfidence <= r.value.confidence <= MaxConfidence
    ensures r.Success? ==> r.value.composite <= 0.0 ==> r.value.confidence == MinConfidence
    ensures r.Success? ==>
      0.3 <= r.value.projection.changePercent <= 6.0 && r.value.projection.target > f.currentPrice.value
    ensures r.Success? ==> Sell !in KindsOf(r.value.signals)
  {
    var price := f.currentPrice.GetOr(0.0);
    if price <= 0.0 then Failure(InvalidPrice)
    else
      var scores := ComponentScores(tanh, f);
      var composite := Composite(scores);
      var adjusted := AdjustConfidence(LinearProbability(composite), mentionsScores, scores.technical, scores.sentiment,
                                       f.volatility.GetOr(0.0));
      var strongest := Max(Max(Abs(scores.technical), Abs(scores.sentiment)), Abs(scores.global));
      var bullishProbability := NoNeutral(adjusted, composite, strongest);
      var bullish := bullishProbability > 0.5;
      var confidence := if bullish then bullishProbability else 1.0 - bullishProbability;
      Success(PredictionV5(
        if bullish then Up else Down,
        bullishProbability,
        1.0 - bullishProbability,
        confidence,
        TargetPrice(price, confidence, bullish, f),
        scores,
        composite,
        GenerateSignals(f, bullish, confidence, scores.technical)))
  }
}

=== FILE: predict_v6.dfy ===
/**
 * The version 6 prediction pipeline: validate the price, score the six
 * components, damp contradicted sentiment, attribute regions, calibrate,
 * override, project a target and emit signals and reasons.
 */
module PredictV6 {
  import opened Wrappers
  import opened Maths
  import opened Features
  import opened ScorersV6
  import opened RegionsV6
  import opened CalibrationV6
  import opened TargetV6
  import opened Signals
  import opened SignalsV6

  datatype Direction = Up | Down

  datatype PredictionV6 = PredictionV6(
    direction: Direction,
    bullishProbability: real,
    bearishProbability: real,
    confidence: real,
    projection: Projection,
    scores: Components,
    composite: real,
    asian: RegionImpact,
    european: RegionImpact,
    local: LocalAttribution,
    localImpactPercent: real,
    asianContribution: real,
    europeanContribution: real,
    localContribution: real,
    signals: seq<SignalV6>,
    topReasons: seq<TopReason>)

  const InvalidPrice := "Invalid current price"

  /** The six component scores, with sentiment damped against the day's move. */
  function ComponentScores(tanh: real -> real, f: MarketFeatures): (c: Components)
    requires IsTanh(tanh)
    ensures c.InRange()
    ensures c.sentiment == DampSentiment(f.priceChange1d, SentimentScore(tanh, f))
  {
    Components(
      TechnicalScore(tanh, f),
      DampSentiment(f.priceChange1d, SentimentScore(tanh, f)),
      GlobalScore(tanh, f),
      VolumeScore(tanh, f),
      FundamentalScore(tanh, f),
      IntradayScore(tanh, f))
  }

  /** A region's contribution: its score scaled by its impact percentage. */
  function Contribution(score: real, impactPercent: real, cap: real): (r: real)
    requires -1.0 <= score <= 1.0 && 0.0 <= impactPercent <= cap
    ensures -cap / 100.0 <= r <= cap / 100.0
  {
    var share := impactPercent / 100.0;
    assert -share <= score * share <= share by {
      MulNonNegative(1.0 - score, share);
      MulNonNegative(1.0 + score, share);
    }
    score * share
  }

  /** The properties every successful version 6 prediction has. */
  predicate WellFormed(p: PredictionV6, price: real) {
    && p.bearishProbability == 1.0 - p.bullishProbability
    && p.scores.InRange() && -1.0 <= p.composite <= 1.0
    && (p.direction == Down <==> p.composite < -0.1)
    && (p.direction == Down ==> p.bullishProbability == 0.44 && p.confidence == 0.56)
    && (p.direction == Up ==> p.confidence == p.bullishProbability && MinConfidence <= p.confidence <= MaxConfidence)
    && (p.projection.target > price <==> p.direction == Up)
    && 0.5 <= Abs(p.projection.changePercent) <= 10.0
    && (forall i :: 0 <= i < |p.signals| && IsConsensus(p.signals[i]) ==> p.signals[i].kind == Buy)
    && |p.signals| <= 5 && |p.topReasons| <= 3
    && Abs(p.asianContribution) <= 0.1 && Abs(p.europeanContribution) <= 0.15 && Abs(p.localContribution) <= 0.1
  }

  /** Direction and confidence from the final bullish probability. */
  function Call(bullishProbability: real): (r: (bool, real))
    ensures r.0 <==> bullishProbability > 0.5
    ensures r.1 == if r.0 then bullishProbability else 1.0 - bullishProbability
  {
    var bullish := bullishProbability > 0.5;
    (bullish, if bullish then bullishProbability else 1.0 - bullishProbability)
  }

  /** The market attribution part of the response. */
  datatype Attribution = Attribution(
    asian: RegionImpact, european: RegionImpact, local: LocalAttribution, localImpactPercent: real,
    asianContribution: real, europeanContribution: real, localContribution: real)

  function Attribute(tanh: real -> real, f: MarketFeatures): (a: Attribution)
    requires IsTanh(tanh)
    ensures Abs(a.asianContribution) <= 0.1 && Abs(a.europeanContribution) <= 0.15 && Abs(a.localContribution) <= 0.1
  {
    var asian := AsianImpact(tanh, f);
    var european := EuropeanImpact(tanh, f);
    var local := LocalUsFactors(tanh, f);
    var localImpact := LocalImpactPercent(local.score);
    Attribution(asian, european, local, localImpact,
      Contribution(asian.score, asian.impactPercent, 10.0),
      Contribution(european.score, european.impactPercent, 15.0),
      Contribution(local.score, localImpact, 10.0))
  }

  /** The successful prediction for a positive price. */
  function Assemble(tanh: real -> real, f: MarketFeatures, price: real): (p: PredictionV6)
    requires IsTanh(tanh)
    requires price > 0.0
    ensures WellFormed(p, price)
  {
    var scores := ComponentScores(tanh, f);
    var composite := Composite(scores);
    var bullishProbability := BullishProbability(tanh, scores, f.volatility.GetOr(1.0));
    var (bullish, confidence) := Call(bullishProbability);
    var a := Attribute(tanh, f);
    var projection := TargetPrice(price, confidence, bullish, f, scores.technical, scores.sentiment);
    var signals := GenerateSignals(f, bullish, confidence, scores.technical, scores.sentiment);
    PredictionV6(
      if bullish then Up else Down,
      bullishProbability,
      1.0 - bullishProbability,
      confidence,
      projection,
      scores,
      composite,
      a.asian,
      a.european,
      a.local,
      a.localImpactPercent,
      a.asianContribution,
      a.europeanContribution,
      a.localContribution,
      signals,
      TopReasons(f, scores.technical, scores.sentiment))
  }

  /**
   * The prediction for a feature record. A missing or non-positive price is
   * the only error. Otherwise a bearish call always carries bullish
   * probability 0.44 and happens exactly when the composite is below -0.1; a
   * bullish call has probability in [0.55, 0.98]; the target lies above the
   * price exactly for a bullish call; and no consensus SELL is ever emitted.
   */
  function Predict(tanh: real -> real, f: MarketFeatures): (r: Result<PredictionV6>)
    requires IsTanh(tanh)
    ensures r.Failure? <==> f.currentPrice.GetOr(0.0) <= 0.0
    ensures r.Failure? ==> r.error == InvalidPrice
    ensures r.Success? ==> WellFormed(r.value, f.currentPrice.value)
  {
    var price := f.currentPrice.GetOr(0.0);
    if price <= 0.0 then Failure(InvalidPrice)
    else Success(Assemble(tanh, f, price))
  }

  /** A record holding only a positive price scores zero everywhere and is called up at 0.55. */
  lemma PriceOnlyIsMildlyBullish(tanh: real -> real, price: real)
    requires IsTanh(tanh)
    requires price > 0.0
    ensures Predict(tanh, PriceOnly(price)).Success?
    ensures Predict(tanh, PriceOnly(price)).value.composite == 0.0
    ensures Predict(tanh, PriceOnly(price)).value.bullishProbability == 0.55
    ensures Predict(tanh, PriceOnly(price)).value.direction == Up
  {
    var f := PriceOnly(price);
    assert NoTechnicalEvidence(f) && NoSentimentEvidence(f) && NeutralFundamentals(f) && QuietSession(f);
    assert GlobalScore(tanh, f) == 0.0;
    assert VolumeScore(tanh, f) == 0.0;
    assert ComponentScores(tanh, f) == Components(0.0, 0.0, 0.0, 0.0, 0.0, 0.0);
  }

  /** Oversold RSI 20, rising MACD histogram 1.2, price above rising averages, up 1.5% on the day. */
  function OversoldRally(): MarketFeatures {
    PriceOnly(100.0).(rsi := Some(20.0), macdHistogram := Some(1.2), sma20 := Some(98.0), sma50 := Some(95.0),
                      priceChange1d := 1.5)
  }

  /** The technical evidence of the oversold-rally record, without its other fields. */
  predicate OversoldRallyTechnicals(f: MarketFeatures) {
    && f.currentPrice == Some(100.0) && f.rsi == Some(20.0) && f.macdHistogram == Some(1.2)
    && f.macdSignalDiff == 0.0 && f.sma20 == Some(98.0) && f.sma50 == Some(95.0) && f.sma200.None?
    && f.bollingerPosition.None? && f.priceChange1d == 1.5 && f.priceChange5d == 0.0
    && !f.bounceFromSupport && !f.nearSupport && !f.failedResistance && !f.nearResistance
  }

  lemma OversoldRallyTechnical(tanh: real -> real, f: MarketFeatures)
    requires IsTanh(tanh) && TanhBounds(tanh)
    requires OversoldRallyTechnicals(f)
    ensures 0.6 < TechnicalScore(tanh, f) < 0.7
  {
    var day := tanh(0.5);
    assert 0.5 - 0.5 * 0.5 * 0.5 / 3.0 <= day <= 0.5;
    OversoldRallyTally(tanh, f);
  }

  lemma OversoldRallyTally(tanh: real -> real, f: MarketFeatures)
    requires IsTanh(tanh)
    requires OversoldRallyTechnicals(f)
    ensures TechnicalScore(tanh, f) == Clip((2.45 + tanh(0.5) * 0.5) / 4.0, -1.0, 1.0)
  {
    assert MaAlignment(100.0, 98.0, 95.0) == 0.7;
    assert CrossSetup(98.0, 95.0, None) == 0.0;
    assert SupportResistance(f) == 0.0;
    assert DayMomentum(tanh, 1.5) == tanh(0.5) * 0.5;
    assert TechnicalTally(tanh, f) == Tally(0.9 + 0.85 + 0.7 + tanh(0.5) * 0.5, 4);
  }

  lemma OversoldRallyScores(tanh: real -> real)
    requires IsTanh(tanh) && TanhBounds(tanh)
    ensures var c := ComponentScores(tanh, OversoldRally());
      c == Components(TechnicalScore(tanh, OversoldRally()), 0.0, 0.0, tanh(0.75) * 0.3, 0.0, 0.0)
  {
    var f := OversoldRally();
    assert VolumeScore(tanh, f) == tanh(0.75) * 0.3;
    assert NoSentimentEvidence(f) && NeutralFundamentals(f) && QuietSession(f);
    assert GlobalScore(tanh, f) == 0.0;
  }

  /**
   * The oversold-rally record is called up with a technical score above 0.5
   * and at least one BUY signal.
   */
  lemma OversoldRallyIsBuy(tanh: real -> real)
    requires IsTanh(tanh) && TanhBounds(tanh)
    ensures Predict(tanh, OversoldRally()).Success?
    ensures Predict(tanh, OversoldRally()).value.direction == Up
    ensures Predict(tanh, OversoldRally()).value.scores.technical > 0.5
    ensures Buy in KindsOf(Predict(tanh, OversoldRally()).value.signals)
  {
    var f := OversoldRally();
    assert OversoldRallyTechnicals(f);
    OversoldRallyTechnical(tanh, f);
    OversoldRallyScores(tanh);
    var scores := ComponentScores(tanh, f);
    assert 0.0 < tanh(0.75);
    var composite := Composite(scores);
    assert composite >= 0.18;
    CalibrateAboveSixty(tanh, composite, 1.0, scores.technical, scores.sentiment);
    var p := BullishProbability(tanh, scores, 1.0);
    assert p > 0.60;
    var (bullish, confidence) := Call(p);
    assert bullish && confidence > 0.60;
    assert Predict(tanh, f).value.signals == GenerateSignals(f, bullish, confidence, scores.technical, scores.sentiment);
  }
}

=== FILE: regions_v6.dfy ===
/**
 * Region attribution of version 6: each region yields a score in [-1, 1] and
 * an impact percentage used only to attribute the projected move.
 */
module RegionsV6 {
  import opened Wrappers
  import opened Maths
  import opened Features

  datatype RegionImpact = RegionImpact(score: real, impactPercent: real)

  /**
   * Asian attribution: a categorical label yields a change-scaled score with a
   * label-specific impact band; otherwise a change beyond 0.5% is saturated,
   * and below that only the market strength counts. Impact is capped at 10%.
   */
  function AsianImpact(tanh: real -> real, f: MarketFeatures): (r: RegionImpact)
    requires IsTanh(tanh)
    ensures -1.0 <= r.score <= 1.0 && 0.0 <= r.impactPercent <= 10.0
    ensures f.asianMarketSentiment == Positive ==> 0.4 <= r.score && 2.5 <= r.impactPercent <= 5.0
    ensures f.asianMarketSentiment == Negative ==> r.score <= -0.4 && 1.5 <= r.impactPercent <= 4.0
  {
    var change := f.asianMarketChange;
    var strength := f.asianMarketStrength;
    var (score, impact) :=
      if f.asianMarketSentiment == Positive then
        (Min(0.4 + Abs(change) * 0.3, 1.0), Min(Abs(change) * 2.0 + 2.5, 5.0))
      else if f.asianMarketSentiment == Negative then
        (Max(-0.4 - Abs(change) * 0.3, -1.0), Min(Abs(change) * 2.0 + 1.5, 4.0))
      else if Abs(change) > 0.5 then
        (tanh(change) * 0.6, Min(Abs(change) * 1.5, 3.0))
      else
        (if strength > 0.0 then strength * 0.3 else 0.0, strength * 1.5);
    RegionImpact(Clip(score, -1.0, 1.0), Clip(impact, 0.0, 10.0))
  }

  /**
   * European attribution: the same shape with wider bands, impact capped at 15%.
   */
  function EuropeanImpact(tanh: real -> real, f: MarketFeatures): (r: RegionImpact)
    requires IsTanh(tanh)
    ensures -1.0 <= r.score <= 1.0 && 0.0 <= r.impactPercent <= 15.0
    ensures f.europeanMarketSentiment == Positive ==> 0.45 <= r.score && 3.5 <= r.impactPercent <= 8.0
    ensures f.europeanMarketSentiment == Negative ==> r.score <= -0.45 && 2.5 <= r.impactPercent <= 7.0
  {
    var change := f.europeanMarketChange;
    var strength := f.europeanMarketStrength;
    var (score, impact) :=
      if f.europeanMarketSentiment == Positive then
        (Min(0.45 + Abs(change) * 0.35, 1.0), Min(Abs(change) * 2.5 + 3.5, 8.0))
      else if f.europeanMarketSentiment == Negative then
        (Max(-0.45 - Abs(change) * 0.35, -1.0), Min(Abs(change) * 2.5 + 2.5, 7.0))
      else if Abs(change) > 0.5 then
        (tanh(change) * 0.6, Min(Abs(change) * 2.0, 5.0))
      else
        (if strength > 0.0 then strength * 0.35 else 0.0, strength * 2.0);
    RegionImpact(Clip(score, -1.0, 1.0), Clip(impact, 0.0, 15.0))
  }

  /** The per-factor breakdown of the local-US score. */
  datatype LocalFactors = LocalFactors(
    technical: real, sentiment: real, volume: real, intraday: real, fundamentals: real, usMarkets: real)
  {
    predicate InRange() {
      && -1.0 <= technical <= 1.0 && -1.0 <= sentiment <= 1.0 && -1.0 <= volume <= 1.0
      && -1.0 <= intraday <= 1.0 && -1.0 <= fundamentals <= 1.0 && -1.0 <= usMarkets <= 1.0
    }
  }

  datatype LocalAttribution = LocalAttribution(score: real, factors: LocalFactors)

  /**
   * The US-indices factor: a bearish label or influence below -0.2 takes the
   * bearish branch, a bullish label or influence above 0.2 the bullish one,
   * anything else is damped. Whatever the label, the factor has the sign of
   * the influence score.
   */
  function UsMarketsFactor(mood: Mood, influence: real): (r: real)
    ensures r > 0.0 <==> influence > 0.0
    ensures r < 0.0 <==> influence < 0.0
    ensures -0.9 <= influence <= 0.9 ==> -1.08 <= r <= 1.08
  {
    if mood == Negative || influence < -0.2 then Max(-0.9, influence * 1.2)
    else if mood == Positive || influence > 0.2 then Min(0.9, influence * 1.2)
    else influence * 0.8
  }

  /** The six local factors before they are clamped for display. */
  function RawLocalFactors(tanh: real -> real, f: MarketFeatures): LocalFactors
    requires IsTanh(tanh)
  {
    var rsi := f.rsi.GetOr(50.0);
    var rsiPart :=
      if rsi < 30.0 then 0.7 else if rsi > 70.0 then -0.7
      else if rsi < 40.0 then 0.3 else if rsi > 60.0 then -0.3
      else 0.0;
    var technical := rsiPart + (if f.macd != 0.0 then tanh(f.macd) * 0.4 else 0.0);
    var volume :=
      if f.volumeRatio > 1.5 then 0.6 else if f.volumeRatio > 1.2 then 0.3
      else if f.volumeRatio < 0.8 then -0.2 else 0.0;
    LocalFactors(
      technical,
      tanh(f.newsSentimentScore / 5.0) * 0.8,
      volume,
      tanh(f.intradayChangePercent / 3.0) * 0.5,
      (f.peRatioPercentile - 50.0) / 50.0 * 0.4 + tanh(f.earningsGrowth / 20.0) * 0.3,
      UsMarketsFactor(f.usMarketSentiment, f.usMarketInfluenceScore))
  }

  /**
   * Local-US attribution: 40% US indices plus 60% of the unweighted mean of
   * the other five factors, computed from the raw factors and then clamped;
   * the reported factors are clamped one by one.
   */
  function LocalUsFactors(tanh: real -> real, f: MarketFeatures): (r: LocalAttribution)
    requires IsTanh(tanh)
    ensures -1.0 <= r.score <= 1.0
    ensures r.factors.InRange()
  {
    var raw := RawLocalFactors(tanh, f);
    var others := Mean([raw.technical, raw.sentiment, raw.volume, raw.intraday, raw.fundamentals]);
    LocalAttribution(
      Clip(raw.usMarkets * 0.4 + others * 0.6, -1.0, 1.0),
      LocalFactors(
        Clip(raw.technical, -1.0, 1.0), Clip(raw.sentiment, -1.0, 1.0), Clip(raw.volume, -1.0, 1.0),
        Clip(raw.intraday, -1.0, 1.0), Clip(raw.fundamentals, -1.0, 1.0), Clip(raw.usMarkets, -1.0, 1.0)))
  }

  /**
   * Local impact percentage: tiered on the local score's magnitude, with a 1%
   * floor for an exactly neutral score, clamped to [0, 10].
   */
  function LocalImpactPercent(score: real): (r: real)
    ensures 0.0 <= r <= 10.0
    ensures r == 1.0 <==> score == 0.0
    ensures score != 0.0 ==> r >= 2.0
    ensures -1.0 <= score <= 1.0 ==> r <= 8.0
  {
    var impact :=
      if score > 0.5 then 6.0 + (score - 0.5) * 4.0
      else if score > 0.3 then 4.0 + (score - 0.3) * 10.0
      else if score > 0.0 then 2.0 + score * 10.0
      else if score < -0.5 then 6.0 + Abs(score - (-0.5)) * 4.0
      else if score < -0.3 then 4.0 + Abs(score - (-0.3)) * 10.0
      else if score < 0.0 then 2.0 + Abs(score) * 10.0
      else 1.0;
    Clip(impact, 0.0, 10.0)
  }

  /** The impact depends only on the magnitude of the local score. */
  lemma LocalImpactSymmetric(score: real)
    ensures LocalImpactPercent(-score) == LocalImpactPercent(score)
  {
  }

  /**
   * The weak tier (2 + 10|s|) reaches 5% at |s| = 0.3, above the 4.1% the
   * moderate tier gives at |s| = 0.31: impact is not monotone in |score|.
   */
  lemma LocalImpactTierOverlap()
    ensures LocalImpactPercent(0.3) == 5.0
    ensures LocalImpactPercent(0.31) < LocalImpactPercent(0.3)
  {
  }
}

=== FILE: rules_v2.dfy ===
/**
 * The rule-based parts of version 2 (`QuickModelV2`): rebound detection, the
 * fallback base score, the Asian-impact blend, the calibrated expected move,
 * the threshold-driven correction warning and the reason list. Every rule
 * reads the validated feature dictionary.
 */
module RulesV2 {
  import opened Maths
  import opened FeatureMaps

  // ---------------------------------------------------------------- rebound

  /**
   * Rebound strength: the same five patterns as version 4 with larger
   * weights; each adds a positive amount, so the clamped sum lies in [0, 1]
   * and is positive exactly when a pattern fires.
   */
  function Rebound(v: FeatureMap): (r: real)
    ensures 0.0 <= r <= 1.0
    ensures r > 0.0 <==> ReboundPatternFires(v)
  {
    var pc1 := Get(v, "price_change_1d", 0.0);
    var pc3 := Get(v, "price_change_3d", 0.0);
    var pc7 := Get(v, "price_change_7d", 0.0);
    var news := Get(v, "news_sentiment_score", 0.0);
    var rsi := Get(v, "rsi_14", 50.0);
    var ratio := Get(v, "volume_sma_ratio", 1.0);
    var afterNews :=
      if news > 0.3 && pc7 < 0.0 then
        0.5 + Min(Abs(pc7) / 15.0, 0.6) + (if pc1 > 0.0 || pc3 > 0.0 then 0.2 else 0.0)
      else 0.0;
    var vShape := if pc7 < -3.0 && pc3 > 1.0 && pc1 > 0.0 then Clip((pc1 + pc3) / 2.0 / 10.0, 0.0, 0.4) else 0.0;
    var oversold := if rsi < 40.0 && news > 0.2 && pc1 > 0.5 then 0.3 else 0.0;
    var bounce := if pc1 > 2.0 && news > 0.2 then 0.5 else 0.0;
    var volume := if rsi < 35.0 && ratio > 1.3 && pc1 > 0.0 then 0.35 else 0.0;
    Clip(afterNews + vShape + oversold + bounce + volume, -1.0, 1.0)
  }

  // ---------------------------------------------------------------- fallback

  /** News term: amplified and never negative when a rebound backs positive news. */
  function NewsTerm(news: real, rebound: real): (c: real)
    ensures -0.3 <= c <= 0.5
    ensures c > 0.0 <==> news > 0.0
    ensures c < 0.0 <==> news < 0.0
  {
    if Abs(news) > 0.0 then
      if rebound > 0.0 && news > 0.0 then Clip(news * 0.5, 0.0, 0.5)
      else Clip(news * 0.3, -0.3, 0.3)
    else 0.0
  }

  /** RSI term: an overbought penalty softened by good news or a rebound, an oversold bonus. */
  function RsiTerm(rsi: real, news: real, rebound: real): (c: real)
    ensures c == -0.25 || c == -0.1 || c == 0.0 || c == 0.3
    ensures c < 0.0 <==> rsi > 70.0
  {
    if rsi > 70.0 then (if news > 0.3 || rebound > 0.3 then -0.1 else -0.25)
    else if rsi < 30.0 then 0.3
    else 0.0
  }

  /** The fallback's terms other than the MACD histogram. */
  function FallbackOtherTerms(v: FeatureMap): real {
    var rebound := Rebound(v);
    var news := Get(v, "news_sentiment_score", 0.0);
    (if rebound != 0.0 then rebound * 0.6 else 0.0)
    + NewsTerm(news, rebound)
    + RsiTerm(Get(v, "rsi_14", 50.0), news, rebound)
    + Clip(Get(v, "price_change_1d", 0.0) / 50.0, -0.2, 0.2)
    + Clip(Get(v, "price_change_3d", 0.0) / 150.0, -0.15, 0.15)
  }

  /** The rule-based base score: rebound first, then news, RSI, MACD and momentum, clamped to [-1, 1]. */
  function Fallback(v: FeatureMap): (r: real)
    ensures -1.0 <= r <= 1.0
  {
    Clip(FallbackOtherTerms(v) + Clip(Get(v, "macd_hist", 0.0) / 10.0, -0.2, 0.2), -1.0, 1.0)
  }

  /** Only the MACD term reads `macd_hist`. */
  lemma MacdIsolated(v: FeatureMap, x: real)
    ensures FallbackOtherTerms(v["macd_hist" := x]) == FallbackOtherTerms(v)
  {
    var w := v["macd_hist" := x];
    assert Rebound(w) == Rebound(v);
    assert Get(w, "news_sentiment_score", 0.0) == Get(v, "news_sentiment_score", 0.0);
    assert Get(w, "rsi_14", 50.0) == Get(v, "rsi_14", 50.0);
    assert Get(w, "price_change_1d", 0.0) == Get(v, "price_change_1d", 0.0);
    assert Get(w, "price_change_3d", 0.0) == Get(v, "price_change_3d", 0.0);
  }

  /** A more bullish MACD histogram never lowers the base score. */
  lemma {:induction false} FallbackNonDecreasingInMacd(v: FeatureMap, a: real, b: real)
    requires a <= b
    ensures Fallback(v["macd_hist" := a]) <= Fallback(v["macd_hist" := b])
  {
    MacdIsolated(v, a);
    MacdIsolated(v, b);
    RatioMonotone(a, b, 10.0);
  }

  /**
   * With no price change, no news and the RSI-14 between 30 and 70, no
   * rebound fires and the base score is the MACD term alone.
   */
  lemma QuietFallback(v: FeatureMap, rsi: real)
    requires Holds(v, "price_change_1d", 0.0) && Holds(v, "price_change_3d", 0.0)
    requires Holds(v, "price_change_7d", 0.0) && Holds(v, "news_sentiment_score", 0.0)
    requires Holds(v, "rsi_14", rsi) && 30.0 <= rsi <= 70.0
    ensures Rebound(v) == 0.0
    ensures Fallback(v) == Clip(Get(v, "macd_hist", 0.0) / 10.0, -0.2, 0.2)
  {
    assert !ReboundPatternFires(v);
    assert FallbackOtherTerms(v) == 0.0;
  }

  /** A rebound above 0.3 adds 0.4 times its strength; the result stays in [-1, 1] and never falls. */
  function BoostedBase(base: real, rebound: real): (r: real)
    requires -1.0 <= base <= 1.0
    ensures -1.0 <= r <= 1.0
    ensures r >= base
    ensures rebound <= 0.3 ==> r == base
  {
    if rebound > 0.3 then Clip(base + rebound * 0.4, -1.0, 1.0) else base
  }

  // ---------------------------------------------------------------- Asian blend

  /** The Asian impact: the influence magnitude scaled by the cap, never above the cap. */
  function AsianImpact(influence: real, cap: real): (i: real)
    ensures 0.0 <= cap ==> 0.0 <= i <= cap
    ensures 0.0 <= cap && Abs(influence) >= 1.0 ==> i == cap
  {
    ScaledAtLeast(Abs(influence), 0.0, cap);
    ScaledAtLeast(Abs(influence), 1.0, cap);
    Min(Abs(influence) * cap, cap)
  }

  /**
   * The final score: a convex blend of the base score and the Asian influence
   * with weight `impact`, so it lies between the two.
   */
  function Blend(base: real, influence: real, impact: real): (r: real)
    ensures 0.0 <= impact <= 1.0 ==> Min(base, influence) <= r <= Max(base, influence)
    ensures impact == 0.0 ==> r == base
  {
    var signed := Sign(influence) * Abs(influence);
    assert signed == influence;
    BlendBetween(base, influence, impact);
    (1.0 - impact) * base + impact * signed
  }

  /** The blend moves the base score toward the influence by the fraction `impact` of their gap. */
  lemma BlendPull(base: real, influence: real, impact: real)
    ensures Blend(base, influence, impact) - base == impact * (influence - base)
  {
  }

  /** A full-strength influence under a cap of one half lands the blend halfway between base and influence. */
  lemma HalfwayBlend(base: real, influence: real)
    requires Abs(influence) >= 1.0
    ensures Blend(base, influence, AsianImpact(influence, 0.5)) == (base + influence) / 2.0
  {
    BlendPull(base, influence, 0.5);
  }

  /** Under a cap of one half, an influence within [-1, 1] has impact half its magnitude. */
  lemma HalfCapImpact(influence: real)
    requires Abs(influence) <= 1.0
    ensures AsianImpact(influence, 0.5) == Abs(influence) * 0.5
  {
    ScaledAtLeast(1.0, Abs(influence), 0.5);
  }

  /** A convex combination lies between its two ends. */
  lemma BlendBetween(a: real, b: real, t: real)
    ensures 0.0 <= t <= 1.0 ==> Min(a, b) <= (1.0 - t) * a + t * b <= Max(a, b)
  {
    if 0.0 <= t <= 1.0 {
      var blend := (1.0 - t) * a + t * b;
      var lo := Min(a, b);
      var hi := Max(a, b);
      MulNonNegative(1.0 - t, a - lo);
      MulNonNegative(t, b - lo);
      MulNonNegative(1.0 - t, hi - a);
      MulNonNegative(t, hi - b);
      assert blend - lo == (1.0 - t) * (a - lo) + t * (b - lo);
      assert hi - blend == (1.0 - t) * (hi - a) + t * (hi - b);
    }
  }

  // ---------------------------------------------------------------- expected move

  /** The calibration curve: signal magnitudes and the moves they map to. */
  const CalibrationScores: seq<real> := [0.1, 0.3, 0.5, 0.7, 1.0]
  const CalibrationMoves: seq<real> := [0.5, 1.2, 2.0, 3.0, 4.0]

  lemma CalibrationShape()
    ensures |CalibrationScores| == |CalibrationMoves| == 5
    ensures StrictlyIncreasing(CalibrationScores)
    ensures NonDecreasing(CalibrationMoves)
  {
  }

  /** The calibrated move for a signal magnitude, between 0.5% and 4%. */
  function CalibratedMove(m: real): (r: real)
    ensures 0.5 <= r <= 4.0
  {
    CalibrationShape();
    Interp(m, CalibrationScores, CalibrationMoves)
  }

  /** One plus a tenth of a positive ATR; 1 otherwise. */
  function VolatilityFactor(atr: real): (f: real)
    ensures f >= 1.0
  {
    if atr > 0.0 then 1.0 + atr / 10.0 else 1.0
  }

  /** A larger ATR never shrinks the factor. */
  lemma VolatilityFactorMonotone(a: real, b: real)
    requires a <= b
    ensures VolatilityFactor(a) <= VolatilityFactor(b)
  {
  }

  /** The unsigned move: the calibrated move scaled by the volatility factor, at least 0.5%. */
  function MoveMagnitude(m: real, atr: real): (r: real)
    ensures r >= 0.5
  {
    var c := CalibratedMove(m);
    var f := VolatilityFactor(atr);
    ProductMonotone(0.5, c, 1.0, f);
    c * f
  }

  /**
   * The expected percentage move: the calibrated move for the score's
   * magnitude, scaled by the volatility factor, signed like the score (zero
   * for a zero score), and at least 0.5% otherwise.
   */
  function ExpectedMove(finalScore: real, atr: real): (r: real)
    ensures r > 0.0 <==> finalScore > 0.0
    ensures r < 0.0 <==> finalScore < 0.0
    ensures finalScore != 0.0 ==> Abs(r) >= 0.5
  {
    var magnitude := MoveMagnitude(Abs(finalScore), atr);
    var sign := Sign(finalScore);
    assert magnitude * sign == if finalScore > 0.0 then magnitude else if finalScore < 0.0 then -magnitude else 0.0;
    magnitude * sign
  }

  lemma CalibratedMoveMonotone(a: real, b: real)
    requires a <= b
    ensures CalibratedMove(a) <= CalibratedMove(b)
  {
    CalibrationShape();
    InterpMonotone(a, b, CalibrationScores, CalibrationMoves);
  }

  /** The unsigned move is the product of the calibrated move and the volatility factor. */
  lemma MoveMagnitudeProduct(m: real, atr: real)
    ensures MoveMagnitude(m, atr) == CalibratedMove(m) * VolatilityFactor(atr)
  {
  }

  lemma FactorsMonotone(a: real, b: real, atrA: real, atrB: real)
    requires CalibratedMove(a) <= CalibratedMove(b)
    requires VolatilityFactor(atrA) <= VolatilityFactor(atrB)
    ensures CalibratedMove(a) * VolatilityFactor(atrA) <= CalibratedMove(b) * VolatilityFactor(atrB)
  {
    ProductMonotone(CalibratedMove(a), CalibratedMove(b), VolatilityFactor(atrA), VolatilityFactor(atrB));
  }

  lemma {:induction false} MoveMagnitudeMonotone(a: real, b: real, atrA: real, atrB: real)
    requires a <= b && atrA <= atrB
    ensures MoveMagnitude(a, atrA) <= MoveMagnitude(b, atrB)
  {
    CalibratedMoveMonotone(a, b);
    VolatilityFactorMonotone(atrA, atrB);
    MoveMagnitudeProduct(a, atrA);
    MoveMagnitudeProduct(b, atrB);
    FactorsMonotone(a, b, atrA, atrB);
  }

  /**
   * The move's magnitude never decreases as the score's magnitude or the ATR
   * grows; a zero score has no move at all.
   */
  lemma {:induction false} ExpectedMoveMonotone(a: real, b: real, atrA: real, atrB: real)
    requires Abs(a) <= Abs(b)
    requires atrA <= atrB
    ensures Abs(ExpectedMove(a, atrA)) <= Abs(ExpectedMove(b, atrB))
  {
    if a != 0.0 {
      MoveMagnitudeMonotone(Abs(a), Abs(b), atrA, atrB);
      assert Abs(ExpectedMove(a, atrA)) == MoveMagnitude(Abs(a), atrA);
      assert Abs(ExpectedMove(b, atrB)) == MoveMagnitude(Abs(b), atrB);
    }
  }

  // ---------------------------------------------------------------- correction warning

  /** The three thresholds, read from the environment with defaults 10, 80 and 2.0. */
  datatype Thresholds = Thresholds(pct7d: real, rsi: real, zScore: real)

  const DefaultThresholds := Thresholds(10.0, 80.0, 2.0)

  datatype SeverityV2 = High | Medium

  datatype CheckReason =
    | PriceSurge(change7d: real, rsi: real)
    | BollingerZ(z: real)
    | UnusualVolume(ratio: real)

  datatype Check = Check(reason: CheckReason, severity: SeverityV2, confidence: real)

  /** Either no warning, or the aggregated checks and the readings they came from. */
  datatype WarningV2 =
    | NoWarning
    | Warning(severity: SeverityV2, reasons: seq<CheckReason>, confidence: real, change7d: real, rsi: real, volumeRatio: real)

  /** How far the close sits above the band middle, in half band widths. */
  function ZScore(v: FeatureMap): real
    requires Get(v, "bb_width", 1.0) > 0.0
  {
    (Get(v, "close", 1.0) - Get(v, "bb_middle", 1.0)) / (Get(v, "bb_width", 1.0) / 2.0)
  }

  predicate SurgeFires(v: FeatureMap, t: Thresholds) {
    Get(v, "price_change_7d", 0.0) > t.pct7d && Get(v, "rsi_14", 50.0) > t.rsi
  }

  predicate BandFires(v: FeatureMap, t: Thresholds) {
    Get(v, "bb_pct", 0.0) > 1.0 && Get(v, "bb_width", 1.0) > 0.0 && ZScore(v) > t.zScore
  }

  predicate VolumeFires(v: FeatureMap, t: Thresholds) {
    Get(v, "volume_sma_ratio", 1.0) > 2.0 && Get(v, "price_change_7d", 0.0) > t.pct7d
  }

  /** A fired check that counts as HIGH: the surge with RSI above 85, or a z-score above 2.5. */
  predicate HighCheckFires(v: FeatureMap, t: Thresholds) {
    (SurgeFires(v, t) && Get(v, "rsi_14", 50.0) > 85.0) || (BandFires(v, t) && ZScore(v) > 2.5)
  }

  /**
   * The three checks in order (surge, band, volume), each present iff it
   * fires; confidences never exceed 0.9.
   */
  function Checks(v: FeatureMap, t: Thresholds): (r: seq<Check>)
    ensures |r| == (if SurgeFires(v, t) then 1 else 0) + (if BandFires(v, t) then 1 else 0)
                   + (if VolumeFires(v, t) then 1 else 0)
    ensures forall i :: 0 <= i < |r| ==> r[i].confidence <= 0.9
    ensures |r| == 0 <==> !SurgeFires(v, t) && !BandFires(v, t) && !VolumeFires(v, t)
    ensures SurgeFires(v, t) ==> r[0].reason.PriceSurge?
    ensures BandFires(v, t) ==> r[if SurgeFires(v, t) then 1 else 0].reason.BollingerZ?
    ensures VolumeFires(v, t) ==> r[|r| - 1].reason.UnusualVolume?
    ensures (exists i :: 0 <= i < |r| && r[i].severity == High) <==> HighCheckFires(v, t)
  {
    var pc7 := Get(v, "price_change_7d", 0.0);
    var rsi := Get(v, "rsi_14", 50.0);
    var ratio := Get(v, "volume_sma_ratio", 1.0);
    var surge :=
      if SurgeFires(v, t) then
        [Check(PriceSurge(pc7, rsi), if rsi > 85.0 then High else Medium, Min(0.9, 0.5 + (rsi - 70.0) / 50.0))]
      else [];
    var band :=
      if BandFires(v, t) then
        var z := ZScore(v);
        [Check(BollingerZ(z), if z > 2.5 then High else Medium, Min(0.85, z / 3.0))]
      else [];
    var volume := if VolumeFires(v, t) then [Check(UnusualVolume(ratio), Medium, 0.65)] else [];
    var r := surge + band + volume;
    assert forall i :: 0 <= i < |r| && r[i].severity == High ==> r[i] in surge || r[i] in band;
    assert SurgeFires(v, t) && rsi > 85.0 ==> r[0].severity == High;
    assert BandFires(v, t) && ZScore(v) > 2.5 ==> r[|surge|].severity == High;
    r
  }

  /** Python's `max` over a non-empty list. */
  function Largest(xs: seq<real>): (r: real)
    requires |xs| > 0
    ensures forall i :: 0 <= i < |xs| ==> xs[i] <= r
    ensures exists i :: 0 <= i < |xs| && xs[i] == r
  {
    if |xs| == 1 then xs[0]
    else
      var rest := Largest(xs[1..]);
      assert forall i :: 1 <= i < |xs| ==> xs[i] == xs[1..][i - 1];
      if xs[0] >= rest then xs[0] else rest
  }

  function ReasonsOf(checks: seq<Check>): (r: seq<CheckReason>)
    ensures |r| == |checks|
    ensures forall i :: 0 <= i < |r| ==> r[i] == checks[i].reason
  {
    seq(|checks|, i requires 0 <= i < |checks| => checks[i].reason)
  }

  function ConfidencesOf(checks: seq<Check>): (r: seq<real>)
    ensures |r| == |checks|
    ensures forall i :: 0 <= i < |r| ==> r[i] == checks[i].confidence
  {
    seq(|checks|, i requires 0 <= i < |checks| => checks[i].confidence)
  }

  /**
   * The correction warning: none iff no check fires; otherwise HIGH iff some
   * fired check is HIGH, the reasons in check order and the confidence the
   * largest of the fired checks', never above 0.9.
   */
  function CorrectionWarning(v: FeatureMap, t: Thresholds): (w: WarningV2)
    ensures w.NoWarning? <==> !SurgeFires(v, t) && !BandFires(v, t) && !VolumeFires(v, t)
    ensures w.Warning? ==> 1 <= |w.reasons| <= 3
    ensures w.Warning? ==> (w.severity == High <==> HighCheckFires(v, t))
    ensures w.Warning? ==> w.confidence <= 0.9
    ensures w.Warning? ==> forall i :: 0 <= i < |Checks(v, t)| ==> Checks(v, t)[i].confidence <= w.confidence
    ensures w.Warning? ==> exists i :: 0 <= i < |Checks(v, t)| && Checks(v, t)[i].confidence == w.confidence
    ensures w.Warning? ==> w.reasons == ReasonsOf(Checks(v, t))
    ensures w.Warning? && SurgeFires(v, t) ==> w.reasons[0].PriceSurge?
    ensures w.Warning? && VolumeFires(v, t) ==> w.reasons[|w.reasons| - 1].UnusualVolume?
  {
    var checks := Checks(v, t);
    if |checks| == 0 then NoWarning
    else
      var severity := if exists i :: 0 <= i < |checks| && checks[i].severity == High then High else Medium;
      var confidences := ConfidencesOf(checks);
      Warning(severity, ReasonsOf(checks), Largest(confidences),
              Get(v, "price_change_7d", 0.0), Get(v, "rsi_14", 50.0), Get(v, "volume_sma_ratio", 1.0))
  }

  // ---------------------------------------------------------------- reasons

  /** The reasons, with the readings their texts quote. */
  datatype ReasonV2 =
    | ReboundConfirmed(news: real, change7d: real)
    | ReboundSetup(news: real, change7d: real)
    | VShapedRecovery(change7d: real, change3d: real)
    | SignificantBounce(change1d: real)
    | NewsTone(strongly: bool, bullish: bool, news: real)
    | AsianInfluence(strong: bool, positive: bool, score: real)
    | RsiElevatedButSupported(rsi: real)
    | RsiOverbought(rsi: real)
    | RsiOversold(rsi: real)
    | RsiRecoveryZone(rsi: real)
    | SevenDayTrend(upward: bool, change7d: real)
    | MacdMomentum(bullish: bool)
    | VolumeConfirmsRebound(ratio: real)
    | VolumeElevated(ratio: real)
    | MarketGreed(index: real)
    | MarketFear(index: real)
    | TrendContinuation

  predicate IsReboundReason(r: ReasonV2) {
    r.ReboundConfirmed? || r.ReboundSetup? || r.VShapedRecovery? || r.SignificantBounce?
  }

  /** The three rebound stories the reasons tell; narrower than the five scoring patterns. */
  predicate IsRebounding(v: FeatureMap) {
    var pc1 := Get(v, "price_change_1d", 0.0);
    var pc3 := Get(v, "price_change_3d", 0.0);
    var pc7 := Get(v, "price_change_7d", 0.0);
    var news := Get(v, "news_sentiment_score", 0.0);
    || (news > 0.3 && pc7 < 0.0)
    || (pc7 < -3.0 && pc3 > 1.0 && pc1 > 0.0)
    || (pc1 > 2.0 && news > 0.2)
  }

  function ReboundReason(v: FeatureMap): (r: seq<ReasonV2>)
    ensures |r| <= 1
    ensures |r| == 1 <==> IsRebounding(v)
    ensures forall i :: 0 <= i < |r| ==> IsReboundReason(r[i])
  {
    var pc1 := Get(v, "price_change_1d", 0.0);
    var pc3 := Get(v, "price_change_3d", 0.0);
    var pc7 := Get(v, "price_change_7d", 0.0);
    var news := Get(v, "news_sentiment_score", 0.0);
    if news > 0.3 && pc7 < 0.0 then
      if pc1 > 0.0 || pc3 > 0.0 then [ReboundConfirmed(news, pc7)] else [ReboundSetup(news, pc7)]
    else if pc7 < -3.0 && pc3 > 1.0 && pc1 > 0.0 then [VShapedRecovery(pc7, pc3)]
    else if pc1 > 2.0 && news > 0.2 then [SignificantBounce(pc1)]
    else []
  }

  /** Every reason after the rebound story, in order; none of them is a rebound reason. */
  function ContextReasons(v: FeatureMap, asianScore: real, rebounding: bool): (r: seq<ReasonV2>)
    ensures forall i :: 0 <= i < |r| ==> !IsReboundReason(r[i])
  {
    var news := Get(v, "news_sentiment_score", 0.0);
    var rsi := Get(v, "rsi_14", 50.0);
    var pc7 := Get(v, "price_change_7d", 0.0);
    var macd := Get(v, "macd_hist", 0.0);
    var ratio := Get(v, "volume_sma_ratio", 1.0);
    var greed := Get(v, "fear_greed_index", 50.0);
    (if Abs(news) > 0.3 && !rebounding then [NewsTone(Abs(news) > 0.5, news > 0.0, news)] else [])
    + (if Abs(asianScore) > 0.3 then [AsianInfluence(Abs(asianScore) > 0.6, asianScore > 0.0, asianScore)] else [])
    + (if rsi > 70.0 then (if rebounding then [RsiElevatedButSupported(rsi)] else [RsiOverbought(rsi)])
       else if rsi < 30.0 then [RsiOversold(rsi)]
       else if rsi < 40.0 then [RsiRecoveryZone(rsi)]
       else [])
    + (if Abs(pc7) > 5.0 && !rebounding then [SevenDayTrend(pc7 > 0.0, pc7)] else [])
    + (if Abs(macd) > 0.5 then [MacdMomentum(macd > 0.0)] else [])
    + (if Truthy(Get(v, "volume_spike", 0.0)) || ratio > 1.5 then
         (if rebounding then [VolumeConfirmsRebound(ratio)] else [VolumeElevated(ratio)])
       else [])
    + (if greed > 75.0 then [MarketGreed(greed)] else if greed < 25.0 then [MarketFear(greed)] else [])
  }

  function AllReasons(v: FeatureMap, asianScore: real): seq<ReasonV2> {
    ReboundReason(v) + ContextReasons(v, asianScore, IsRebounding(v))
  }

  /**
   * The top reasons: one to six; a rebound story, when there is one, comes
   * first, and otherwise no reason tells one; with no rule firing, the single
   * trend-continuation reason.
   */
  function Reasons(v: FeatureMap, asianScore: real): (r: seq<ReasonV2>)
    ensures 1 <= |r| <= 6
    ensures IsRebounding(v) ==> IsReboundReason(r[0])
    ensures !IsRebounding(v) ==> forall i :: 0 <= i < |r| ==> !IsReboundReason(r[i])
    ensures AllReasons(v, asianScore) == [] ==> r == [TrendContinuation]
  {
    var all := AllReasons(v, asianScore);
    var rebound := ReboundReason(v);
    var context := ContextReasons(v, asianScore, IsRebounding(v));
    assert forall i :: |rebound| <= i < |all| ==> all[i] == context[i - |rebound|];
    if all == [] then [TrendContinuation] else Take(all, 6)
  }
}

=== FILE: rules_v4.dfy ===
/**
 * The rule-based parts of version 4 (`QuickModelV4`): the fallback local
 * score, rebound detection, the correction-warning accumulator, the expected
 * move and the reason list. Every rule reads the validated feature dictionary.
 */
module RulesV4 {
  import opened Wrappers
  import opened Maths
  import opened FeatureMaps

  // ---------------------------------------------------------------- rebound

  /**
   * Rebound strength: five patterns each add a positive amount, so the
   * clamped sum lies in [0, 1] and is positive exactly when a pattern fires.
   */
  function Rebound(v: FeatureMap): (r: real)
    ensures 0.0 <= r <= 1.0
    ensures r > 0.0 <==> ReboundPatternFires(v)
  {
    var pc1 := Get(v, "price_change_1d", 0.0);
    var pc3 := Get(v, "price_change_3d", 0.0);
    var pc7 := Get(v, "price_change_7d", 0.0);
    var news := Get(v, "news_sentiment_score", 0.0);
    var rsi := Get(v, "rsi_14", 50.0);
    var ratio := Get(v, "volume_sma_ratio", 1.0);
    var afterNews :=
      if news > 0.3 && pc7 < 0.0 then
        0.4 + Min(Abs(pc7) / 15.0, 0.4) + (if pc1 > 0.0 || pc3 > 0.0 then 0.2 else 0.0)
      else 0.0;
    var vShape := if pc7 < -3.0 && pc3 > 1.0 && pc1 > 0.0 then Clip((pc1 + pc3) / 2.0 / 8.0, 0.0, 0.5) else 0.0;
    var oversold := if rsi < 40.0 && news > 0.2 && pc1 > 0.5 then 0.3 else 0.0;
    var bounce := if pc1 > 2.0 && news > 0.2 then 0.5 else 0.0;
    var volume := if rsi < 35.0 && ratio > 1.3 && pc1 > 0.0 then 0.35 else 0.0;
    Clip(afterNews + vShape + oversold + bounce + volume, -1.0, 1.0)
  }

  // ---------------------------------------------------------------- fallback

  /** The RSI term of the fallback: linear penalties beyond 70 and 30, a slight bias between. */
  function FallbackRsiTerm(rsi: real): (c: real)
    ensures rsi < 30.0 ==> c > 0.0
    ensures rsi > 70.0 ==> c < 0.0
  {
    if rsi > 70.0 then -0.3 * ((rsi - 70.0) / 30.0)
    else if rsi < 30.0 then 0.3 * ((30.0 - rsi) / 30.0)
    else (50.0 - rsi) / 200.0
  }

  /** Price momentum, relative strength, intraday position and volume: the part a thin session damps. */
  function FallbackPriceTerms(tanh: real -> real, v: FeatureMap): real
    requires IsTanh(tanh)
  {
    var pc1 := Get(v, "price_change_1d", 0.0);
    var pc3 := Get(v, "price_change_3d", 0.0);
    var boost := Min(Abs(pc1) / 5.0, 0.2);
    var momentum :=
      tanh(pc1 / 3.0) * 0.20 + tanh(pc3 / 8.0) * 0.10
      + (if Abs(pc1) > 1.0 then (if pc1 > 0.0 then boost else -boost) else 0.0);
    var close := Get(v, "close", 100.0);
    var high := Get(v, "high", close);
    var low := Get(v, "low", close);
    var intraday := if high > low then ((close - low) / (high - low) - 0.5) * 0.6 * 0.10 else 0.0;
    var score := momentum + Clip(pc1 * 0.15, -0.15, 0.15) + intraday;
    var ratio := Get(v, "volume_sma_ratio", 1.0);
    var confirmation := Min((ratio - 1.0) / 2.0, 0.5);
    if ratio > 1.2 then score + (if pc1 > 0.0 then confirmation else -confirmation) * 0.10
    else if ratio < 0.8 then score * 0.9
    else score
  }

  /** Today's news: weight 0.20, and 0.05 more with at least five articles. */
  function TodayNewsTerm(v: FeatureMap): real {
    var sentiment := Get(v, "today_news_sentiment", 0.0);
    sentiment * 0.20 + (if Get(v, "today_news_count", 0.0) >= 5.0 then sentiment * 0.05 else 0.0)
  }

  /** The fallback's terms other than today's news, before the rebound bonus. */
  function FallbackOtherTerms(tanh: real -> real, v: FeatureMap): real
    requires IsTanh(tanh)
  {
    var technical :=
      FallbackRsiTerm(Get(v, "rsi_14", 50.0)) * 0.05 + Clip(Get(v, "macd_hist", 0.0) / 10.0, -0.05, 0.05);
    FallbackPriceTerms(tanh, v) + technical + Get(v, "news_sentiment_score", 0.0) * 0.05
  }

  /**
   * The rule-based local score used when no trained model is loaded: the
   * weighted terms, plus a fifth of a strong rebound, clamped to [-1, 1].
   */
  function Fallback(tanh: real -> real, v: FeatureMap): (r: real)
    requires IsTanh(tanh)
    ensures -1.0 <= r <= 1.0
  {
    var score := FallbackOtherTerms(tanh, v) + TodayNewsTerm(v);
    var rebound := Rebound(v);
    Clip(if rebound > 0.5 then score + rebound * 0.2 else score, -1.0, 1.0)
  }

  /** Only the today-news term reads `today_news_sentiment`. */
  lemma TodayNewsIsolated(tanh: real -> real, v: FeatureMap, x: real)
    requires IsTanh(tanh)
    ensures FallbackOtherTerms(tanh, v["today_news_sentiment" := x]) == FallbackOtherTerms(tanh, v)
    ensures Rebound(v["today_news_sentiment" := x]) == Rebound(v)
  {
    var w := v["today_news_sentiment" := x];
    PriceTermsIgnoreTodayNews(tanh, v, x);
    assert Get(w, "rsi_14", 50.0) == Get(v, "rsi_14", 50.0);
    assert Get(w, "macd_hist", 0.0) == Get(v, "macd_hist", 0.0);
    assert Get(w, "news_sentiment_score", 0.0) == Get(v, "news_sentiment_score", 0.0);
  }

  /** The price terms read neither of today's news keys. */
  lemma PriceTermsIgnoreTodayNews(tanh: real -> real, v: FeatureMap, x: real)
    requires IsTanh(tanh)
    ensures FallbackPriceTerms(tanh, v["today_news_sentiment" := x]) == FallbackPriceTerms(tanh, v)
  {
    var w := v["today_news_sentiment" := x];
    assert Get(w, "price_change_1d", 0.0) == Get(v, "price_change_1d", 0.0);
    assert Get(w, "price_change_3d", 0.0) == Get(v, "price_change_3d", 0.0);
  }

  /** More positive news today never lowers the fallback score. */
  lemma {:induction false} FallbackNonDecreasingInTodayNews(tanh: real -> real, v: FeatureMap, a: real, b: real)
    requires IsTanh(tanh)
    requires a <= b
    ensures Fallback(tanh, v["today_news_sentiment" := a]) <= Fallback(tanh, v["today_news_sentiment" := b])
  {
    TodayNewsIsolated(tanh, v, a);
    TodayNewsIsolated(tanh, v, b);
    assert TodayNewsTerm(v["today_news_sentiment" := a]) <= TodayNewsTerm(v["today_news_sentiment" := b]);
  }

  // ---------------------------------------------------------------- correction warning

  datatype CorrectionDirection = Neutral | Down | Up

  datatype Severity = High | Moderate | Low

  /** The correction patterns, with the readings their messages quote. */
  datatype CorrectionPattern =
    | OverboughtRsi(rsi: real)
    | OversoldRsi(rsi: real)
    | ParabolicRise(change7d: real)
    | ExtendedDecline(change7d: real)
    | UpperBandBreakout
    | LowerBandBreakdown
    | VolumeExhaustion

  /** A pattern that fired, the direction it votes for and the points it adds. */
  datatype Firing = Firing(pattern: CorrectionPattern, direction: CorrectionDirection, points: real)

  datatype CorrectionWarning = CorrectionWarning(
    warning: bool,
    score: real,
    direction: CorrectionDirection,
    patterns: seq<CorrectionPattern>,
    severity: Severity)

  /** The first six patterns, in rule order; all of them agree on the direction. */
  function FirstSixFirings(v: FeatureMap): (r: seq<Firing>)
    ensures forall i :: 0 <= i < |r| ==> r[i].points > 0.0
    ensures forall i :: 0 <= i < |r| ==> r[i].direction == Up ==> Get(v, "rsi_14", 50.0) < 40.0
    ensures forall i :: 0 <= i < |r| ==> r[i].direction == Down ==> Get(v, "rsi_14", 50.0) > 65.0
    ensures forall i :: 0 <= i < |r| ==> r[i].direction != Neutral
  {
    var rsi := Get(v, "rsi_14", 50.0);
    var pc7 := Get(v, "price_change_7d", 0.0);
    var pc3 := Get(v, "price_change_3d", 0.0);
    var band := Get(v, "bb_pct", 0.5);
    (if rsi > 75.0 then [Firing(OverboughtRsi(rsi), Down, Min((rsi - 70.0) * 10.0, 40.0))] else [])
    + (if rsi < 25.0 then [Firing(OversoldRsi(rsi), Up, Min((30.0 - rsi) * 10.0, 40.0))] else [])
    + (if pc7 > 10.0 && pc3 > 5.0 && rsi > 70.0 then [Firing(ParabolicRise(pc7), Down, 30.0)] else [])
    + (if pc7 < -10.0 && rsi < 35.0 then [Firing(ExtendedDecline(pc7), Up, 25.0)] else [])
    + (if band > 0.95 && rsi > 65.0 then [Firing(UpperBandBreakout, Down, 20.0)] else [])
    + (if band < 0.05 && rsi < 40.0 then [Firing(LowerBandBreakdown, Up, 20.0)] else [])
  }

  function TotalPoints(firings: seq<Firing>): real {
    if |firings| == 0 then 0.0 else TotalPoints(firings[..|firings| - 1]) + firings[|firings| - 1].points
  }

  lemma {:induction false} TotalPointsNonNegative(firings: seq<Firing>)
    requires forall i :: 0 <= i < |firings| ==> firings[i].points > 0.0
    ensures TotalPoints(firings) >= 0.0
    ensures |firings| > 0 ==> TotalPoints(firings) > 0.0
    decreases |firings|
  {
    if |firings| > 0 {
      TotalPointsNonNegative(firings[..|firings| - 1]);
    }
  }

  /** The points of two runs of firings add up. */
  lemma {:induction false} TotalPointsAppend(a: seq<Firing>, b: seq<Firing>)
    ensures TotalPoints(a + b) == TotalPoints(a) + TotalPoints(b)
    decreases |b|
  {
    if |b| == 0 {
      assert a + b == a;
    } else {
      assert (a + b)[..|a + b| - 1] == a + b[..|b| - 1];
      TotalPointsAppend(a, b[..|b| - 1]);
    }
  }

  /** At most one firing, worth at most `cap` points. */
  lemma OptionalFiringBound(r: seq<Firing>, cap: real)
    requires |r| <= 1 && forall i :: 0 <= i < |r| ==> r[i].points <= cap
    requires 0.0 <= cap
    ensures TotalPoints(r) <= cap
  {
    if |r| == 1 {
      assert r[..0] == [];
    }
  }

  /**
   * Below RSI-14 40 no DOWN pattern fires, so only the three UP patterns can:
   * at most 40 + 25 + 20 = 85 points.
   */
  lemma {:induction false} UpPointsBound(v: FeatureMap)
    requires Get(v, "rsi_14", 50.0) < 40.0
    ensures TotalPoints(FirstSixFirings(v) + VolumeExhaustionFiring(v)) <= 85.0
  {
    var rsi := Get(v, "rsi_14", 50.0);
    var pc7 := Get(v, "price_change_7d", 0.0);
    var band := Get(v, "bb_pct", 0.5);
    var oversold := if rsi < 25.0 then [Firing(OversoldRsi(rsi), Up, Min((30.0 - rsi) * 10.0, 40.0))] else [];
    var decline := if pc7 < -10.0 && rsi < 35.0 then [Firing(ExtendedDecline(pc7), Up, 25.0)] else [];
    var breakdown := if band < 0.05 && rsi < 40.0 then [Firing(LowerBandBreakdown, Up, 20.0)] else [];
    assert VolumeExhaustionFiring(v) == [];
    assert FirstSixFirings(v) + VolumeExhaustionFiring(v) == oversold + decline + breakdown;
    OptionalFiringBound(oversold, 40.0);
    OptionalFiringBound(decline, 25.0);
    OptionalFiringBound(breakdown, 20.0);
    TotalPointsAppend(oversold, decline);
    TotalPointsAppend(oversold + decline, breakdown);
  }

  function PatternsOf(firings: seq<Firing>): (r: seq<CorrectionPattern>)
    ensures |r| == |firings|
    ensures forall i :: 0 <= i < |r| ==> r[i] == firings[i].pattern
  {
    seq(|firings|, i requires 0 <= i < |firings| => firings[i].pattern)
  }

  function SeverityOf(score: real): Severity {
    if score > 60.0 then High else if score > 30.0 then Moderate else Low
  }

  /**
   * The warning built from the fired patterns: raised iff one fired, the
   * points summed and capped at 100, the direction of the last pattern fired.
   */
  function Summarise(firings: seq<Firing>): (w: CorrectionWarning)
    requires forall i :: 0 <= i < |firings| ==> firings[i].points > 0.0
    ensures 0.0 <= w.score <= 100.0
    ensures w.warning <==> |firings| > 0
    ensures w.warning <==> w.score > 0.0
    ensures !w.warning ==> w.direction == Neutral && w.patterns == [] && w.severity == Low
    ensures w.warning ==> w.direction == firings[|firings| - 1].direction
    ensures w.patterns == PatternsOf(firings)
    ensures w.severity == High <==> w.score > 60.0
    ensures w.severity == Moderate <==> 30.0 < w.score <= 60.0
  {
    TotalPointsNonNegative(firings);
    var score := Min(TotalPoints(firings), 100.0);
    CorrectionWarning(
      |firings| > 0,
      score,
      if |firings| == 0 then Neutral else firings[|firings| - 1].direction,
      PatternsOf(firings),
      SeverityOf(score))
  }

  /** Message of the name error the volume-exhaustion pattern raises. */
  const UndefinedChange1d := "name 'price_change_1d' is not defined"

  /** The volume-exhaustion pattern is reached only with a volume spike and RSI-14 above 70. */
  predicate ReachesVolumeExhaustion(v: FeatureMap) {
    Truthy(Get(v, "volume_spike", 0.0)) && Get(v, "rsi_14", 50.0) > 70.0
  }

  /**
   * The correction warning as written: evaluating the seventh pattern's
   * 1-day-change test names a variable the method never defines, so every
   * input that reaches that test fails.
   */
  function CorrectionWarningAsWritten(v: FeatureMap): (r: Result<CorrectionWarning>)
    ensures r.Failure? <==> ReachesVolumeExhaustion(v)
    ensures r.Failure? ==> r.error == UndefinedChange1d
    ensures r.Success? ==> VolumeExhaustion !in r.value.patterns
  {
    var firings := FirstSixFirings(v);
    if ReachesVolumeExhaustion(v) then Failure(UndefinedChange1d)
    else
      var w := Summarise(firings);
      assert forall i :: 0 <= i < |w.patterns| ==> w.patterns[i] == firings[i].pattern;
      Success(w)
  }

  /** The seventh pattern reading the 1-day change, as the other rules do. */
  function VolumeExhaustionFiring(v: FeatureMap): (r: seq<Firing>)
    ensures |r| <= 1
    ensures |r| == 1 <==> ReachesVolumeExhaustion(v) && Get(v, "price_change_1d", 0.0) > 3.0
    ensures forall i :: 0 <= i < |r| ==> r[i] == Firing(VolumeExhaustion, Down, 25.0)
  {
    if ReachesVolumeExhaustion(v) && Get(v, "price_change_1d", 0.0) > 3.0 then [Firing(VolumeExhaustion, Down, 25.0)]
    else []
  }

  /**
   * The correction warning with the seventh pattern reading the 1-day change.
   * The score lies in [0, 100]; a DOWN warning needs RSI-14 above 65 and an
   * UP warning RSI-14 below 40, where only the three UP patterns can fire, so
   * an UP warning reaches at most 85 points.
   */
  function CorrectionWarningOf(v: FeatureMap): (w: CorrectionWarning)
    ensures 0.0 <= w.score <= 100.0
    ensures !w.warning ==> w.direction == Neutral && w.patterns == [] && w.score == 0.0 && w.severity == Low
    ensures w.warning ==> w.direction != Neutral && |w.patterns| > 0
    ensures w.direction == Down ==> Get(v, "rsi_14", 50.0) > 65.0
    ensures w.direction == Up ==> Get(v, "rsi_14", 50.0) < 40.0
    ensures w.direction == Up ==> w.score <= 85.0
    ensures w.severity == High <==> w.score > 60.0
    ensures w.severity == Moderate <==> 30.0 < w.score <= 60.0
    ensures VolumeExhaustion in w.patterns <==> ReachesVolumeExhaustion(v) && Get(v, "price_change_1d", 0.0) > 3.0
  {
    var six := FirstSixFirings(v);
    var seventh := VolumeExhaustionFiring(v);
    var firings := six + seventh;
    var w := Summarise(firings);
    assert forall i :: 0 <= i < |six| ==> six[i].pattern != VolumeExhaustion;
    assert forall i :: 0 <= i < |w.patterns| ==> w.patterns[i] == firings[i].pattern;
    assert |seventh| == 1 ==> w.patterns[|six|] == VolumeExhaustion;
    assert Get(v, "rsi_14", 50.0) < 40.0 ==> w.score <= 85.0 by {
      if Get(v, "rsi_14", 50.0) < 40.0 {
        UpPointsBound(v);
      }
    }
    w
  }

  /** An extreme RSI always scores the capped 40 points: beyond 75 or below 25 the uncapped term exceeds 50. */
  lemma ExtremeRsiScoresForty(v: FeatureMap)
    requires Get(v, "rsi_14", 50.0) > 75.0 || Get(v, "rsi_14", 50.0) < 25.0
    ensures FirstSixFirings(v)[0].points == 40.0
  {
  }

  /** Without any of the inputs the rules read, the oversold patterns fire: a missing RSI-14 reads as 0. */
  lemma MissingRsiLooksOversold(v: FeatureMap)
    requires v == map["rsi_14" := 0.0, "bb_pct" := 0.0]
    ensures CorrectionWarningOf(v).warning
    ensures CorrectionWarningOf(v).direction == Up
    ensures CorrectionWarningOf(v).score == 60.0
    ensures CorrectionWarningOf(v).severity == Moderate
  {
    assert FirstSixFirings(v) == [Firing(OversoldRsi(0.0), Up, 40.0), Firing(LowerBandBreakdown, Up, 20.0)];
    assert VolumeExhaustionFiring(v) == [];
    var firings := FirstSixFirings(v) + VolumeExhaustionFiring(v);
    assert firings == [Firing(OversoldRsi(0.0), Up, 40.0), Firing(LowerBandBreakdown, Up, 20.0)];
    assert firings[..1] == [Firing(OversoldRsi(0.0), Up, 40.0)];
    assert firings[..1][..0] == [];
    assert TotalPoints(firings[..1]) == 40.0;
    assert TotalPoints(firings) == 60.0;
  }

  // ---------------------------------------------------------------- correction adjustment

  /**
   * Reconciling the ensemble score with a warning that opposes it: a DOWN
   * warning shrinks a bullish score by up to half; a strong UP warning (score
   * above 60) turns a bearish score into 0.7 times its magnitude; a weaker UP
   * warning shrinks a bearish score by up to 40%.
   */
  function AdjustForCorrection(s: real, w: CorrectionWarning): (r: real)
    requires 0.0 <= w.score <= 100.0
    ensures Abs(r) <= Abs(s)
    ensures w.warning && w.direction == Down && s > 0.0 ==> s / 2.0 <= r <= s
    ensures w.warning && w.direction == Up && w.score > 60.0 && s < 0.0 ==> r == 0.7 * Abs(s)
    ensures !(w.warning && w.direction == Up && w.score > 60.0 && s < 0.0) ==>
      (r > 0.0 <==> s > 0.0) && (r < 0.0 <==> s < 0.0)
    ensures !w.warning || w.direction == Neutral ==> r == s
  {
    if !w.warning then s
    else if w.direction == Down && s > 0.0 then
      var factor := 1.0 - w.score / 100.0 * 0.5;
      Shrink(s, factor, 0.5);
      s * factor
    else if w.direction == Up && s < 0.0 then
      if w.score > 60.0 then Abs(s) * 0.7
      else
        var factor := 1.0 - w.score / 100.0 * 0.4;
        Shrink(s, factor, 0.6);
        s * factor
    else s
  }

  // ---------------------------------------------------------------- expected move

  /** The move for a signal of magnitude `m`, interpolated inside its tier. */
  function BaseMove(m: real): (r: real)
    requires m >= 0.0
    ensures r >= 1.2
  {
    var (lo, hi) :=
      if m > 0.8 then (5.0, 12.0)
      else if m > 0.6 then (3.5, 8.0)
      else if m > 0.4 then (2.5, 5.0)
      else if m > 0.2 then (1.5, 3.5)
      else (1.2, 2.0);
    lo + (hi - lo) * m
  }

  /** A stronger signal never predicts a smaller move: each tier starts above where the previous one ends. */
  lemma BaseMoveMonotone(a: real, b: real)
    requires 0.0 <= a <= b
    ensures BaseMove(a) <= BaseMove(b)
  {
  }

  /** The base move scaled by the multiplier, raised to 2% for multipliers of 1.5 or more. */
  function Magnitude(base: real, multiplier: real): (r: real)
    requires base >= 1.2
    ensures multiplier > 0.0 ==> r >= 1.2 * multiplier && r > 0.0
    ensures multiplier >= 1.5 ==> r >= 2.0
  {
    var move := base * multiplier;
    ScaledAtLeast(base, 1.2, multiplier);
    if multiplier >= 1.5 && Abs(move) < 2.0 then 2.0 else move
  }

  lemma {:induction false} MagnitudeMonotone(a: real, b: real, multiplier: real)
    requires 1.2 <= a <= b
    requires multiplier > 0.0
    ensures Magnitude(a, multiplier) <= Magnitude(b, multiplier)
  {
    var ma := a * multiplier;
    var mb := b * multiplier;
    MulNonNegative(b - a, multiplier);
    MulNonNegative(a, multiplier);
    assert mb - ma == (b - a) * multiplier;
    assert 0.0 <= ma <= mb;
    assert Abs(ma) == ma && Abs(mb) == mb;
  }

  /**
   * The expected percentage move: the base move scaled by the sector's
   * volatility multiplier, at least 2% in magnitude for multipliers of 1.5 or
   * more, and signed by the score (zero counts as up). The method also takes
   * the ATR and Bollinger width, but reads neither.
   */
  function ExpectedMove(finalScore: real, multiplier: real): (r: real)
    ensures multiplier > 0.0 ==> (r >= 0.0 <==> finalScore >= 0.0) && r != 0.0
    ensures multiplier > 0.0 ==> Abs(r) >= 1.2 * multiplier
    ensures multiplier >= 1.5 ==> Abs(r) >= 2.0
  {
    var m := Magnitude(BaseMove(Abs(finalScore)), multiplier);
    if finalScore >= 0.0 then m else -m
  }

  /** For a fixed positive multiplier, a stronger score never predicts a smaller move. */
  lemma {:induction false} ExpectedMoveMonotone(a: real, b: real, multiplier: real)
    requires Abs(a) <= Abs(b)
    requires multiplier > 0.0
    ensures Abs(ExpectedMove(a, multiplier)) <= Abs(ExpectedMove(b, multiplier))
  {
    BaseMoveMonotone(Abs(a), Abs(b));
    MagnitudeMonotone(BaseMove(Abs(a)), BaseMove(Abs(b)), multiplier);
  }

  // ---------------------------------------------------------------- reasons

  /** The reasons, with the readings their texts quote. */
  datatype ReasonV4 =
    | EuropeanMomentum(bullish: bool, influence: real)
    | AsianDirection(bullish: bool, influence: real)
    | NewsTone(positive: bool, sentiment: real)
    | RsiOverbought(rsi: real)
    | RsiOversoldBounce(rsi: real)
    | DayMomentum(up: bool, change: real)
    | CorrectionAlert(direction: CorrectionDirection, severity: Severity)
    | EnsembleSignal(bullish: bool, score: real)

  /** Every reason rule in order, before the six-reason cut; the ensemble reason always comes last. */
  function AllReasons(v: FeatureMap, finalScore: real, european: real, asian: real, w: CorrectionWarning)
    : (r: seq<ReasonV4>)
    ensures 1 <= |r| <= 7
    ensures r[|r| - 1] == EnsembleSignal(finalScore > 0.0, finalScore)
  {
    var news := Get(v, "news_sentiment_score", 0.0);
    var rsi := Get(v, "rsi_14", 50.0);
    var pc1 := Get(v, "price_change_1d", 0.0);
    (if Abs(european) > 0.1 then [EuropeanMomentum(european > 0.0, european)] else [])
    + (if Abs(asian) > 0.1 then [AsianDirection(asian > 0.0, asian)] else [])
    + (if Abs(news) > 0.2 then [NewsTone(news > 0.0, news)] else [])
    + (if rsi > 70.0 then [RsiOverbought(rsi)] else if rsi < 30.0 then [RsiOversoldBounce(rsi)] else [])
    + (if Abs(pc1) > 1.0 then [DayMomentum(pc1 > 0.0, pc1)] else [])
    + (if w.warning then [CorrectionAlert(w.direction, w.severity)] else [])
    + [EnsembleSignal(finalScore > 0.0, finalScore)]
  }

  /**
   * The top reasons: one to six, led by the European reason when that
   * influence exceeds 0.1, and ending with the overall ensemble verdict unless
   * all seven rules fired, in which case the cut drops it.
   */
  function Reasons(v: FeatureMap, finalScore: real, european: real, asian: real, w: CorrectionWarning)
    : (r: seq<ReasonV4>)
    ensures 1 <= |r| <= 6
    ensures Abs(european) > 0.1 ==> r[0] == EuropeanMomentum(european > 0.0, european)
    ensures |AllReasons(v, finalScore, european, asian, w)| <= 6 ==>
      r[|r| - 1] == EnsembleSignal(finalScore > 0.0, finalScore)
    ensures |AllReasons(v, finalScore, european, asian, w)| == 7 ==>
      EnsembleSignal(finalScore > 0.0, finalScore) !in r
  {
    var all := AllReasons(v, finalScore, european, asian, w);
    assert Abs(european) > 0.1 ==> all[0] == EuropeanMomentum(european > 0.0, european);
    Take(all, 6)
  }
}

=== FILE: scorers_v5.dfy ===
/**
 * The five component scorers of version 5 (`QuickModelV5`). Each maps the
 * feature record to a score in [-1, 1]; positive is bullish.
 */
module ScorersV5 {
  import opened Wrappers
  import opened Maths
  import opened Features

  // ---------------------------------------------------------------- technical

  /** The RSI sub-signal: four tiers and a slight linear bias between 40 and 60. */
  function RsiSignal(rsi: real): (c: real)
    ensures -0.8 <= c <= 0.8
    ensures rsi < 30.0 ==> c == 0.8
    ensures rsi > 70.0 ==> c == -0.8
  {
    if rsi < 30.0 then 0.8
    else if rsi < 40.0 then 0.4
    else if rsi > 70.0 then -0.8
    else if rsi > 60.0 then -0.4
    else (50.0 - rsi) / 50.0 * 0.2
  }

  /** Raising the RSI never raises its contribution. */
  lemma RsiSignalNonIncreasing(a: real, b: real)
    requires a <= b
    ensures RsiSignal(b) <= RsiSignal(a)
  {
  }

  /** The MACD-histogram step; a histogram of exactly zero counts as bearish. */
  function MacdStep(hist: real): (c: real)
    ensures c > 0.0 <==> hist > 0.0
    ensures c == 0.7 || c == 0.4 || c == -0.4 || c == -0.7
  {
    if hist > 0.5 then 0.7
    else if hist > 0.0 then 0.4
    else if hist < -0.5 then -0.7
    else -0.4
  }

  /** Price against the 20- and 50-day averages. */
  function MaAlignment(price: real, sma20: real, sma50: real): real {
    if price > sma20 > sma50 then 0.6
    else if price > sma20 then 0.3
    else if price < sma20 < sma50 then -0.6
    else if price < sma20 then -0.3
    else 0.0
  }

  function BandSignal(position: real): real {
    if position < 0.2 then 0.5 else if position > 0.8 then -0.5 else 0.0
  }

  /** Support and resistance proximity: added, never counted. */
  function Proximity(f: MarketFeatures): real {
    (if f.nearSupport then 0.4 else 0.0) + (if f.nearResistance then -0.4 else 0.0)
  }

  function TechnicalTally(tanh: real -> real, f: MarketFeatures): Tally
    requires IsTanh(tanh)
  {
    AfterRsi(tanh, f, if f.rsi.Some? then NoEvidence.Count(RsiSignal(f.rsi.value)) else NoEvidence)
  }

  /** The technical sub-signals after the RSI, counted onto the RSI's tally `t1`. */
  function AfterRsi(tanh: real -> real, f: MarketFeatures, t1: Tally): Tally
    requires IsTanh(tanh)
  {
    var t2 := if f.macdHistogram.Some? then t1.Count(MacdStep(f.macdHistogram.value)) else t1;
    var t3 :=
      if f.sma20.Some? && f.sma50.Some? && f.currentPrice.Some? then
        t2.Count(MaAlignment(f.currentPrice.value, f.sma20.value, f.sma50.value))
      else t2;
    var t4 := if f.bollingerPosition.Some? then t3.Count(BandSignal(f.bollingerPosition.value)) else t3;
    var t5 := if Abs(f.priceChange5d) > 0.0 then t4.Count(tanh(f.priceChange5d / 5.0) * 0.3) else t4;
    t5.Nudge(Proximity(f))
  }

  /** No indicator is present and the 5-day change is zero: nothing is counted. */
  predicate NoTechnicalIndicators(f: MarketFeatures) {
    && f.rsi.None? && f.macdHistogram.None? && f.bollingerPosition.None?
    && (f.sma20.None? || f.sma50.None? || f.currentPrice.None?)
    && f.priceChange5d == 0.0
  }

  /**
   * Technical score: the sum divided by the number of evaluated sub-signals
   * (at least one), clamped. Without any indicator, the proximity flags pass
   * through undivided.
   */
  function TechnicalScore(tanh: real -> real, f: MarketFeatures): (r: real)
    requires IsTanh(tanh)
    ensures -1.0 <= r <= 1.0
    ensures NoTechnicalIndicators(f) ==> r == Proximity(f)
  {
    Clip(TechnicalTally(tanh, f).PerCount(), -1.0, 1.0)
  }

  /** With an RSI reading present, a higher reading never raises the technical score. */
  lemma TechnicalNonIncreasingInRsi(tanh: real -> real, f: MarketFeatures, higher: real)
    requires IsTanh(tanh)
    requires f.rsi.Some? && f.rsi.value <= higher
    ensures TechnicalScore(tanh, f.(rsi := Some(higher))) <= TechnicalScore(tanh, f)
  {
    var g := f.(rsi := Some(higher));
    RsiSignalNonIncreasing(f.rsi.value, higher);
    var d := RsiSignal(higher) - RsiSignal(f.rsi.value);
    var t1 := NoEvidence.Count(RsiSignal(f.rsi.value));
    assert NoEvidence.Count(RsiSignal(higher)) == t1.Shift(d);
    assert TechnicalTally(tanh, g) == AfterRsi(tanh, g, t1.Shift(d));
    assert TechnicalTally(tanh, f) == AfterRsi(tanh, f, t1);
    AfterRsiIgnoresRsi(tanh, f, higher, t1.Shift(d));
    AfterRsiShift(tanh, f, t1, d);
    AverageMonotone(TechnicalTally(tanh, g), TechnicalTally(tanh, f));
    ClipMonotone(TechnicalTally(tanh, g).PerCount(), TechnicalTally(tanh, f).PerCount(), -1.0, 1.0);
  }

  lemma AfterRsiIgnoresRsi(tanh: real -> real, f: MarketFeatures, other: real, t: Tally)
    requires IsTanh(tanh)
    ensures AfterRsi(tanh, f.(rsi := Some(other)), t) == AfterRsi(tanh, f, t)
  {
  }

  /** Whatever the RSI tally, the later sub-signals add the same amount and count. */
  lemma AfterRsiShift(tanh: real -> real, f: MarketFeatures, t1: Tally, d: real)
    requires IsTanh(tanh)
    ensures AfterRsi(tanh, f, t1.Shift(d)) == AfterRsi(tanh, f, t1).Shift(d)
  {
  }

  // ---------------------------------------------------------------- sentiment

  function SentimentTally(tanh: real -> real, f: MarketFeatures): Tally
    requires IsTanh(tanh)
  {
    AfterNews(tanh, f, if f.newsCount > 0.0 then NoEvidence.Count(NewsTerm(f.newsSentimentScore, f.newsCount)) else NoEvidence)
  }

  /** The news sub-signal: sentiment weighted by article count, saturating at 10 articles. */
  function NewsTerm(sentiment: real, count: real): real {
    sentiment * Min(count / 10.0, 1.0) * 0.8
  }

  /** The keyword flags, social sentiment and earnings surprise, counted onto the news tally `t1`. */
  function AfterNews(tanh: real -> real, f: MarketFeatures, t1: Tally): Tally
    requires IsTanh(tanh)
  {
    var t2 := if f.hasSurgeKeywords then t1.Count(0.7) else t1;
    var t3 := if f.hasBearishKeywords then t2.Count(-0.7) else t2;
    var t4 := if Abs(f.socialSentiment) > 0.0 then t3.Count(f.socialSentiment * 0.5) else t3;
    if Abs(f.earningsSurprisePercent) > 0.0 then t4.Count(tanh(f.earningsSurprisePercent / 20.0) * 0.6) else t4
  }

  /** Sentiment score: news, keyword flags, social and earnings sub-signals, averaged and clamped. */
  function SentimentScore(tanh: real -> real, f: MarketFeatures): (r: real)
    requires IsTanh(tanh)
    ensures -1.0 <= r <= 1.0
    ensures f.newsCount <= 0.0 && f.socialSentiment == 0.0 && f.earningsSurprisePercent == 0.0 ==>
      r == (if f.hasSurgeKeywords == f.hasBearishKeywords then 0.0 else if f.hasSurgeKeywords then 0.7 else -0.7)
  {
    Clip(SentimentTally(tanh, f).PerCount(), -1.0, 1.0)
  }

  /** With the article count fixed and positive, a higher news sentiment never lowers the sentiment score. */
  lemma SentimentNonDecreasingInNews(tanh: real -> real, f: MarketFeatures, higher: real)
    requires IsTanh(tanh)
    requires f.newsCount > 0.0 && f.newsSentimentScore <= higher
    ensures SentimentScore(tanh, f) <= SentimentScore(tanh, f.(newsSentimentScore := higher))
  {
    var g := f.(newsSentimentScore := higher);
    var t1 := NoEvidence.Count(NewsTerm(f.newsSentimentScore, f.newsCount));
    var d := NewsTerm(higher, f.newsCount) - NewsTerm(f.newsSentimentScore, f.newsCount);
    assert d >= 0.0 by {
      MulNonNegative(higher - f.newsSentimentScore, Min(f.newsCount / 10.0, 1.0) * 0.8);
    }
    assert NoEvidence.Count(NewsTerm(higher, f.newsCount)) == t1.Shift(d);
    assert SentimentTally(tanh, g) == AfterNews(tanh, g, t1.Shift(d));
    assert SentimentTally(tanh, f) == AfterNews(tanh, f, t1);
    AfterNewsIgnoresNewsSentiment(tanh, f, higher, t1.Shift(d));
    AfterNewsShift(tanh, f, t1, d);
    AverageMonotone(SentimentTally(tanh, f), SentimentTally(tanh, g));
    ClipMonotone(SentimentTally(tanh, f).PerCount(), SentimentTally(tanh, g).PerCount(), -1.0, 1.0);
  }

  lemma AfterNewsIgnoresNewsSentiment(tanh: real -> real, f: MarketFeatures, other: real, t: Tally)
    requires IsTanh(tanh)
    ensures AfterNews(tanh, f.(newsSentimentScore := other), t) == AfterNews(tanh, f, t)
  {
  }

  /** Whatever the news tally, the later sub-signals add the same amount and count. */
  lemma AfterNewsShift(tanh: real -> real, f: MarketFeatures, t1: Tally, d: real)
    requires IsTanh(tanh)
    ensures AfterNews(tanh, f, t1.Shift(d)) == AfterNews(tanh, f, t1).Shift(d)
  {
  }

  // ---------------------------------------------------------------- global markets

  /** A label's fixed term, or the saturated change when the label is neither. */
  function MarketTerm(tanh: real -> real, mood: Mood, change: real, labelWeight: real, changeWeight: real): (c: real)
    requires IsTanh(tanh)
    requires 0.0 < changeWeight <= labelWeight
    ensures -labelWeight <= c <= labelWeight
    ensures c > 0.0 <==> mood == Positive || (mood == OtherMood && change > 0.0)
  {
    if mood == Positive then labelWeight
    else if mood == Negative then -labelWeight
    else if Abs(change) > 0.0 then
      TanhSign(tanh, change);
      ScaleSign(tanh(change), changeWeight);
      assert mood == OtherMood;
      assert tanh(change) * changeWeight > 0.0 <==> tanh(change) > 0.0;
      tanh(change) * changeWeight
    else 0.0
  }

  /** The futures label term. */
  function FuturesTerm(mood: Mood): real {
    match mood
    case Positive => 0.15
    case Negative => -0.15
    case OtherMood => 0.0
  }

  /**
   * Global score: Asian (label 0.6), European (label 0.2) and futures (0.15)
   * terms summed; the sum never exceeds 0.95 in magnitude, so the clamp is inert.
   */
  function GlobalScore(tanh: real -> real, f: MarketFeatures): (r: real)
    requires IsTanh(tanh)
    ensures -0.95 <= r <= 0.95
    ensures AllPositive(f) ==> r == 0.95
  {
    var sum := MarketTerm(tanh, f.asianMarketSentiment, f.asianMarketChange, 0.6, 0.5)
      + MarketTerm(tanh, f.europeanMarketSentiment, f.europeanMarketChange, 0.2, 0.15)
      + FuturesTerm(f.futuresSentiment);
    Clip(sum, -1.0, 1.0)
  }

  predicate AllPositive(f: MarketFeatures) {
    f.asianMarketSentiment == Positive && f.europeanMarketSentiment == Positive && f.futuresSentiment == Positive
  }

  /** With the label fixed, a larger market change never lowers the market's term. */
  lemma MarketTermNonDecreasing(tanh: real -> real, mood: Mood, a: real, b: real, labelWeight: real, changeWeight: real)
    requires IsTanh(tanh)
    requires 0.0 < changeWeight <= labelWeight
    requires a <= b
    ensures MarketTerm(tanh, mood, a, labelWeight, changeWeight) <= MarketTerm(tanh, mood, b, labelWeight, changeWeight)
  {
    match mood
    case Positive =>
    case Negative =>
    case OtherMood =>
      assert MarketTerm(tanh, mood, a, labelWeight, changeWeight) == (if Abs(a) > 0.0 then tanh(a) * changeWeight else 0.0);
      assert MarketTerm(tanh, mood, b, labelWeight, changeWeight) == (if Abs(b) > 0.0 then tanh(b) * changeWeight else 0.0);
      GatedTanhMonotone(tanh, a, b, changeWeight, 0.0);
  }

  /** With every label fixed, larger Asian or European changes never lower the global score. */
  lemma GlobalNonDecreasingInChanges(tanh: real -> real, f: MarketFeatures, asian: real, european: real)
    requires IsTanh(tanh)
    requires f.asianMarketChange <= asian && f.europeanMarketChange <= european
    ensures GlobalScore(tanh, f) <= GlobalScore(tanh, f.(asianMarketChange := asian, europeanMarketChange := european))
  {
    MarketTermNonDecreasing(tanh, f.asianMarketSentiment, f.asianMarketChange, asian, 0.6, 0.5);
    MarketTermNonDecreasing(tanh, f.europeanMarketSentiment, f.europeanMarketChange, european, 0.2, 0.15);
  }

  // ---------------------------------------------------------------- volume

  /**
   * Volume score: above 1.5 times average volume, a tiered term signed by the
   * day's change; otherwise the saturated change, weighted 0.5 above 1.2 times
   * average and 0.2 below. It always has the sign of the day's price change.
   */
  function VolumeScore(tanh: real -> real, f: MarketFeatures): (r: real)
    requires IsTanh(tanh)
    ensures -0.8 <= r <= 0.8
    ensures r > 0.0 <==> f.priceChange1d > 0.0
    ensures r < 0.0 <==> f.priceChange1d < 0.0
  {
    var change := f.priceChange1d;
    TanhSign(tanh, change);
    var score :=
      if f.volumeRatio > 1.5 then
        if change > 1.0 then 0.8
        else if change > 0.0 then 0.4
        else if change < -1.0 then -0.8
        else if change < 0.0 then -0.4
        else 0.0
      else if f.volumeRatio > 1.2 then tanh(change) * 0.5
      else tanh(change) * 0.2;
    Clip(score, -1.0, 1.0)
  }

  // ---------------------------------------------------------------- fundamentals

  function FundamentalTally(tanh: real -> real, f: MarketFeatures): Tally
    requires IsTanh(tanh)
  {
    AnalystInsider(f, GrowthTally(tanh, f))
  }

  /** Revenue growth, then earnings growth, each counted only when non-zero. */
  function GrowthTally(tanh: real -> real, f: MarketFeatures): Tally
    requires IsTanh(tanh)
  {
    var t1 := if Abs(f.revenueGrowth) > 0.0 then NoEvidence.Count(tanh(f.revenueGrowth / 20.0) * 0.6) else NoEvidence;
    if Abs(f.earningsGrowth) > 0.0 then t1.Count(tanh(f.earningsGrowth / 25.0) * 0.7) else t1
  }

  /** The analyst action and insider activity, counted onto the growth tally `t2`. */
  function AnalystInsider(f: MarketFeatures, t2: Tally): Tally {
    var t3 :=
      match f.analystAction
      case Upgrade => t2.Count(0.5)
      case Downgrade => t2.Count(-0.5)
      case OtherAction => t2;
    match f.insiderActivity
    case Buying => t3.Count(0.4)
    case Selling => t3.Count(-0.4)
    case OtherActivity => t3
  }

  /** Every fundamental sub-signal lies in [-0.7, 0.7], and so does their average. */
  lemma FundamentalTallyBounded(tanh: real -> real, f: MarketFeatures)
    requires IsTanh(tanh)
    ensures var t := FundamentalTally(tanh, f); -0.7 * t.count as real <= t.sum <= 0.7 * t.count as real
    ensures NoFundamentals(f) ==> FundamentalTally(tanh, f).count == 0
  {
  }

  /** No growth figures and no analyst or insider action. */
  predicate NoFundamentals(f: MarketFeatures) {
    f.revenueGrowth == 0.0 && f.earningsGrowth == 0.0 && f.analystAction == OtherAction && f.insiderActivity == OtherActivity
  }

  /** The clamped average of contributions each within 0.7 in magnitude. */
  function ClampedAverage(t: Tally): (r: real)
    requires -0.7 * t.count as real <= t.sum <= 0.7 * t.count as real
    ensures -0.7 <= r <= 0.7
    ensures t.count == 0 ==> r == 0.0
  {
    AverageWithin(t, 0.7);
    Clip(t.Average(), -1.0, 1.0)
  }

  /** Fundamental score: the average of the evaluated sub-signals, within [-0.7, 0.7]. */
  function FundamentalScore(tanh: real -> real, f: MarketFeatures): (r: real)
    requires IsTanh(tanh)
    ensures -0.7 <= r <= 0.7
    ensures NoFundamentals(f) ==> r == 0.0
  {
    FundamentalTallyBounded(tanh, f);
    ClampedAverage(FundamentalTally(tanh, f))
  }

  /**
   * With neither growth figure moving across zero, higher revenue and earnings
   * growth never lower the fundamental score. Moving a figure away from zero
   * is not monotone: see `FundamentalGateCanLower`.
   */
  lemma FundamentalNonDecreasingInGrowth(tanh: real -> real, f: MarketFeatures, revenue: real, earnings: real)
    requires IsTanh(tanh)
    requires f.revenueGrowth <= revenue && f.earningsGrowth <= earnings
    requires (f.revenueGrowth == 0.0) == (revenue == 0.0) && (f.earningsGrowth == 0.0) == (earnings == 0.0)
    ensures FundamentalScore(tanh, f) <= FundamentalScore(tanh, f.(revenueGrowth := revenue, earningsGrowth := earnings))
  {
    var g := f.(revenueGrowth := revenue, earningsGrowth := earnings);
    var a := GrowthTally(tanh, f);
    var b := GrowthTally(tanh, g);
    GrowthTallyMonotone(tanh, f, revenue, earnings);
    AnalystInsiderShift(f, a, b.sum - a.sum);
    assert a.Shift(b.sum - a.sum) == b;
    assert FundamentalTally(tanh, g) == AnalystInsider(f, b);
    AverageMonotone(FundamentalTally(tanh, f), FundamentalTally(tanh, g));
    ClipMonotone(FundamentalTally(tanh, f).Average(), FundamentalTally(tanh, g).Average(), -1.0, 1.0);
  }

  /** With neither figure moving across zero, higher growth adds the same count and no less sum. */
  lemma GrowthTallyMonotone(tanh: real -> real, f: MarketFeatures, revenue: real, earnings: real)
    requires IsTanh(tanh)
    requires f.revenueGrowth <= revenue && f.earningsGrowth <= earnings
    requires (f.revenueGrowth == 0.0) == (revenue == 0.0) && (f.earningsGrowth == 0.0) == (earnings == 0.0)
    ensures GrowthTally(tanh, f).count == GrowthTally(tanh, f.(revenueGrowth := revenue, earningsGrowth := earnings)).count
    ensures GrowthTally(tanh, f).sum <= GrowthTally(tanh, f.(revenueGrowth := revenue, earningsGrowth := earnings)).sum
  {
    TanhScaledMonotone(tanh, f.revenueGrowth / 20.0, revenue / 20.0, 0.6);
    TanhScaledMonotone(tanh, f.earningsGrowth / 25.0, earnings / 25.0, 0.7);
  }

  /** Whatever the growth tally, the analyst and insider sub-signals add the same amount and count. */
  lemma AnalystInsiderShift(f: MarketFeatures, t: Tally, d: real)
    ensures AnalystInsider(f, t.Shift(d)) == AnalystInsider(f, t).Shift(d)
  {
  }

  /**
   * A small positive revenue growth is counted as a new sub-signal and dilutes
   * an analyst upgrade: an upgrade alone scores 0.5, the same upgrade with 1%
   * revenue growth less than that.
   */
  lemma FundamentalGateCanLower(tanh: real -> real, f: MarketFeatures)
    requires IsTanh(tanh) && TanhBounds(tanh)
    requires f.revenueGrowth == 0.0 && f.earningsGrowth == 0.0
    requires f.analystAction == Upgrade && f.insiderActivity == OtherActivity
    ensures FundamentalScore(tanh, f.(revenueGrowth := 1.0)) < FundamentalScore(tanh, f)
  {
    var g := f.(revenueGrowth := 1.0);
    var y := tanh(1.0 / 20.0);
    assert y <= 0.05 by {
      assert 1.0 / 20.0 == 0.05;
      assert tanh(0.05) <= 0.05;
    }
    assert FundamentalTally(tanh, f) == Tally(0.5, 1);
    assert FundamentalTally(tanh, g) == Tally(y * 0.6 + 0.5, 2);
  }
}

=== FILE: scorers_v6.dfy ===
/**
 * The six component scorers of version 6 (`QuickModelV6`). Each maps the
 * feature record to a score in [-1, 1]; positive is bullish.
 */
module ScorersV6 {
  import opened Wrappers
  import opened Maths
  import opened Features

  // ---------------------------------------------------------------- technical

  /** The RSI sub-signal: oversold is bullish, overbought bearish. */
  function RsiSignal(rsi: real): (c: real)
    ensures -0.9 <= c <= 0.9
    ensures rsi < 30.0 ==> c >= 0.8
    ensures rsi > 70.0 ==> c <= -0.8
  {
    if rsi < 25.0 then 0.9
    else if rsi < 30.0 then 0.8
    else if rsi < 40.0 then 0.4
    else if rsi > 75.0 then -0.9
    else if rsi > 70.0 then -0.8
    else if rsi > 60.0 then -0.4
    else (50.0 - rsi) / 100.0 * 0.3
  }

  /** Raising the RSI never raises its contribution. */
  lemma RsiSignalNonIncreasing(a: real, b: real)
    requires a <= b
    ensures RsiSignal(b) <= RsiSignal(a)
  {
  }

  /** The MACD-histogram step, before the divergence term. */
  function MacdStep(hist: real): (c: real)
    ensures -0.85 <= c <= 0.85
    ensures hist > 0.0 <==> c > 0.0
  {
    if hist > 1.0 then 0.85
    else if hist > 0.3 then 0.5
    else if hist > 0.0 then 0.25
    else if hist < -1.0 then -0.85
    else if hist < -0.3 then -0.5
    else -0.25
  }

  /** Raising the histogram never lowers its step contribution. */
  lemma MacdStepNonDecreasing(a: real, b: real)
    requires a <= b
    ensures MacdStep(a) <= MacdStep(b)
  {
  }

  /** The contrarian divergence term: histogram and signal delta disagree. */
  function MacdDivergence(signalDiff: real, hist: real): (c: real)
    ensures c != 0.0 ==> (c > 0.0 <==> hist < 0.0)
  {
    if signalDiff > 0.5 && hist < 0.0 then 0.3
    else if signalDiff < -0.5 && hist > 0.0 then -0.3
    else 0.0
  }

  /** Price against the 20- and 50-day averages. */
  function MaAlignment(price: real, sma20: real, sma50: real): real {
    if price > sma20 > sma50 then 0.7
    else if price > sma20 then 0.4
    else if price < sma20 < sma50 then -0.7
    else if price < sma20 then -0.4
    else 0.0
  }

  /** Golden-cross / death-cross setup, evaluated only when the 200-day average is known. */
  function CrossSetup(sma20: real, sma50: real, sma200: Option<real>): real {
    match sma200
    case None => 0.0
    case Some(s200) =>
      if sma50 > s200 && sma20 > sma50 then 0.5
      else if sma50 < s200 && sma20 < sma50 then -0.5
      else 0.0
  }

  /** Bollinger-band position plus the squeeze bonus for narrow bands. */
  function BandSignal(position: real, width: real): real {
    (if position < 0.15 then 0.6
     else if position < 0.3 then 0.35
     else if position > 0.85 then -0.6
     else if position > 0.7 then -0.35
     else 0.0)
    + (if width < 0.1 then 0.2 else 0.0)
  }

  /** The 1-day momentum term, with the extra penalty for drops beyond 2%. */
  function DayMomentum(tanh: real -> real, change: real): (c: real)
    requires IsTanh(tanh)
    ensures change > 0.0 ==> c > 0.0
    ensures change < 0.0 ==> c < 0.0
  {
    TanhSign(tanh, change / 3.0);
    tanh(change / 3.0) * 0.5 - (if change < -2.0 then 0.3 else 0.0)
  }

  /** Support bounce / failed resistance; added to the score but never counted. */
  function SupportResistance(f: MarketFeatures): real {
    (if f.bounceFromSupport then 0.5 else if f.nearSupport then 0.3 else 0.0)
    + (if f.failedResistance then -0.5 else if f.nearResistance then -0.3 else 0.0)
  }

  function TechnicalTally(tanh: real -> real, f: MarketFeatures): Tally
    requires IsTanh(tanh)
  {
    AfterRsi(tanh, f, if f.rsi.Some? then NoEvidence.Count(RsiSignal(f.rsi.value)) else NoEvidence)
  }

  /** The technical sub-signals after the RSI, counted onto the RSI's tally `t1`. */
  function AfterRsi(tanh: real -> real, f: MarketFeatures, t1: Tally): Tally
    requires IsTanh(tanh)
  {
    var t2 :=
      if f.macdHistogram.Some? then
        t1.Count(MacdStep(f.macdHistogram.value))
          .Nudge(MacdDivergence(f.macdSignalDiff, f.macdHistogram.value))
      else t1;
    var t3 :=
      if f.sma20.Some? && f.sma50.Some? && f.currentPrice.Some? then
        t2.Count(MaAlignment(f.currentPrice.value, f.sma20.value, f.sma50.value)
                 + CrossSetup(f.sma20.value, f.sma50.value, f.sma200))
      else t2;
    var t4 :=
      if f.bollingerPosition.Some? then t3.Count(BandSignal(f.bollingerPosition.value, f.bollingerWidth))
      else t3;
    var t5 := if Abs(f.priceChange1d) > 0.0 then t4.Count(DayMomentum(tanh, f.priceChange1d)) else t4;
    var t6 := if Abs(f.priceChange5d) > 0.0 then t5.Count(tanh(f.priceChange5d / 8.0) * 0.4) else t5;
    t6.Nudge(SupportResistance(f))
  }

  /** No technical indicator present and no price move: nothing is counted. */
  predicate NoTechnicalEvidence(f: MarketFeatures) {
    && f.rsi.None? && f.macdHistogram.None? && f.bollingerPosition.None?
    && (f.sma20.None? || f.sma50.None? || f.currentPrice.None?)
    && f.priceChange1d == 0.0 && f.priceChange5d == 0.0
  }

  /**
   * Technical score: the average of the evaluated sub-signals, clamped.
   * Support/resistance flags are added but not counted, so without any
   * evaluated sub-signal they have no effect at all.
   */
  function TechnicalScore(tanh: real -> real, f: MarketFeatures): (r: real)
    requires IsTanh(tanh)
    ensures -1.0 <= r <= 1.0
    ensures NoTechnicalEvidence(f) ==> r == 0.0
  {
    Clip(TechnicalTally(tanh, f).Average(), -1.0, 1.0)
  }

  /** With an RSI reading present, a higher reading never raises the technical score. */
  lemma TechnicalNonIncreasingInRsi(tanh: real -> real, f: MarketFeatures, higher: real)
    requires IsTanh(tanh)
    requires f.rsi.Some? && f.rsi.value <= higher
    ensures TechnicalScore(tanh, f.(rsi := Some(higher))) <= TechnicalScore(tanh, f)
  {
    var g := f.(rsi := Some(higher));
    RsiSignalNonIncreasing(f.rsi.value, higher);
    TechnicalTallyRsiShift(tanh, f, higher);
    AverageMonotone(TechnicalTally(tanh, g), TechnicalTally(tanh, f));
    ClipMonotone(TechnicalTally(tanh, g).Average(), TechnicalTally(tanh, f).Average(), -1.0, 1.0);
  }

  /** Changing a present RSI reading shifts the tally's sum by the change in its sub-signal. */
  lemma TechnicalTallyRsiShift(tanh: real -> real, f: MarketFeatures, other: real)
    requires IsTanh(tanh)
    requires f.rsi.Some?
    ensures var t := TechnicalTally(tanh, f);
      TechnicalTally(tanh, f.(rsi := Some(other))) == Tally(t.sum + RsiSignal(other) - RsiSignal(f.rsi.value), t.count)
  {
    var g := f.(rsi := Some(other));
    var d := RsiSignal(other) - RsiSignal(f.rsi.value);
    var t1 := NoEvidence.Count(RsiSignal(f.rsi.value));
    assert NoEvidence.Count(RsiSignal(other)) == t1.Shift(d);
    assert TechnicalTally(tanh, g) == AfterRsi(tanh, g, t1.Shift(d));
    assert TechnicalTally(tanh, f) == AfterRsi(tanh, f, t1);
    AfterRsiIgnoresRsi(tanh, f, other, t1.Shift(d));
    AfterRsiShift(tanh, f, t1, d);
  }

  lemma AfterRsiIgnoresRsi(tanh: real -> real, f: MarketFeatures, other: real, t: Tally)
    requires IsTanh(tanh)
    ensures AfterRsi(tanh, f.(rsi := Some(other)), t) == AfterRsi(tanh, f, t)
  {
  }

  /** Whatever the RSI tally, the later sub-signals add the same amount and count. */
  lemma AfterRsiShift(tanh: real -> real, f: MarketFeatures, t1: Tally, d: real)
    requires IsTanh(tanh)
    ensures AfterRsi(tanh, f, t1.Shift(d)) == AfterRsi(tanh, f, t1).Shift(d)
  {
  }

  // ---------------------------------------------------------------- sentiment

  function SentimentTally(tanh: real -> real, f: MarketFeatures): Tally
    requires IsTanh(tanh)
  {
    AfterNews(tanh, f, if f.newsCount > 0.0 then NoEvidence.Count(NewsTerm(f.newsSentimentScore, f.newsCount)) else NoEvidence)
  }

  /** The news sub-signal: sentiment weighted by article count, saturating at 15 articles. */
  function NewsTerm(sentiment: real, count: real): real {
    sentiment * Min(count / 15.0, 1.0) * 0.5
  }

  /** The sentiment sub-signals after the news, counted onto the news tally `t1`. */
  function AfterNews(tanh: real -> real, f: MarketFeatures, t1: Tally): Tally
    requires IsTanh(tanh)
  {
    SectorAnalysts(f, FlagsSocial(f, KeywordsEarnings(tanh, f, t1)))
  }

  /** The keyword-balance and high-impact sub-signals, then earnings surprise and guidance. */
  function KeywordsEarnings(tanh: real -> real, f: MarketFeatures, t1: Tally): Tally
    requires IsTanh(tanh)
  {
    var t2 :=
      if f.bullishKeywordCount > 0.0 || f.bearishKeywordCount > 0.0 then
        var keyword := t1.Count(tanh((f.bullishKeywordScoreTotal - f.bearishKeywordScoreTotal) / 10.0) * 0.7);
        if f.hasHighImpactKeywords then
          keyword.Count(0.3 * (if f.bullishKeywordScoreTotal >= f.bearishKeywordScoreTotal then 1.0 else -1.0))
        else keyword
      else t1;
    if Abs(f.earningsSurprisePercent) > 0.0 then
      var surprise := t2.Count(tanh(f.earningsSurprisePercent / 15.0) * 0.8);
      if Abs(f.guidanceChangePercent) > 0.0 then surprise.Count(tanh(f.guidanceChangePercent / 10.0) * 0.6)
      else surprise
    else t2
  }

  /** The surge and bearish keyword flags, then social sentiment weighted by social volume. */
  function FlagsSocial(f: MarketFeatures, t3: Tally): Tally {
    var t4 := if f.hasSurgeKeywords then t3.Count(Min(f.surgeKeywordCount / 5.0, 1.0) * 0.85) else t3;
    var t5 := if f.hasBearishKeywords then t4.Count(-(Min(f.bearishKeywordCount / 5.0, 1.0) * 0.85)) else t4;
    if Abs(f.socialSentiment) > 0.0 then t5.Count(f.socialSentiment * Min(f.socialVolume / 1000.0, 1.0) * 0.6)
    else t5
  }

  /** Sector sentiment, then analyst upgrades and downgrades. */
  function SectorAnalysts(f: MarketFeatures, t6: Tally): Tally {
    var t7 := if Abs(f.sectorSentiment) > 0.0 then t6.Count(f.sectorSentiment * 0.3) else t6;
    var t8 := if f.analystUpgrades > 0.0 then t7.Count(Min(f.analystUpgrades / 3.0, 1.0) * 0.5) else t7;
    if f.analystDowngrades > 0.0 then t8.Count(-(Min(f.analystDowngrades / 3.0, 1.0) * 0.5)) else t8
  }

  /** No news, keyword, earnings, social, sector or analyst evidence at all. */
  predicate NoSentimentEvidence(f: MarketFeatures) {
    && f.newsCount <= 0.0 && f.bullishKeywordCount <= 0.0 && f.bearishKeywordCount <= 0.0
    && f.earningsSurprisePercent == 0.0 && !f.hasSurgeKeywords && !f.hasBearishKeywords
    && f.socialSentiment == 0.0 && f.sectorSentiment == 0.0
    && f.analystUpgrades <= 0.0 && f.analystDowngrades <= 0.0
  }

  /** Sentiment score: the average of the evaluated sentiment sub-signals, clamped. */
  function SentimentScore(tanh: real -> real, f: MarketFeatures): (r: real)
    requires IsTanh(tanh)
    ensures -1.0 <= r <= 1.0
    ensures NoSentimentEvidence(f) ==> r == 0.0
  {
    Clip(SentimentTally(tanh, f).Average(), -1.0, 1.0)
  }

  /** With the article count fixed and positive, a higher news sentiment never lowers the sentiment score. */
  lemma SentimentNonDecreasingInNews(tanh: real -> real, f: MarketFeatures, higher: real)
    requires IsTanh(tanh)
    requires f.newsCount > 0.0 && f.newsSentimentScore <= higher
    ensures SentimentScore(tanh, f) <= SentimentScore(tanh, f.(newsSentimentScore := higher))
  {
    var g := f.(newsSentimentScore := higher);
    var t1 := NoEvidence.Count(NewsTerm(f.newsSentimentScore, f.newsCount));
    var d := NewsTerm(higher, f.newsCount) - NewsTerm(f.newsSentimentScore, f.newsCount);
    assert d >= 0.0 by {
      MulNonNegative(higher - f.newsSentimentScore, Min(f.newsCount / 15.0, 1.0) * 0.5);
    }
    assert NoEvidence.Count(NewsTerm(higher, f.newsCount)) == t1.Shift(d);
    assert SentimentTally(tanh, g) == AfterNews(tanh, g, t1.Shift(d));
    assert SentimentTally(tanh, f) == AfterNews(tanh, f, t1);
    AfterNewsIgnoresNewsSentiment(tanh, f, higher, t1.Shift(d));
    AfterNewsShift(tanh, f, t1, d);
    AverageMonotone(SentimentTally(tanh, f), SentimentTally(tanh, g));
    ClipMonotone(SentimentTally(tanh, f).Average(), SentimentTally(tanh, g).Average(), -1.0, 1.0);
  }

  lemma AfterNewsIgnoresNewsSentiment(tanh: real -> real, f: MarketFeatures, other: real, t: Tally)
    requires IsTanh(tanh)
    ensures AfterNews(tanh, f.(newsSentimentScore := other), t) == AfterNews(tanh, f, t)
  {
    var g := f.(newsSentimentScore := other);
    KeywordsEarningsFrame(tanh, f, g, t);
    FlagsSocialFrame(f, other, KeywordsEarnings(tanh, f, t));
    SectorAnalystsFrame(f, other, FlagsSocial(f, KeywordsEarnings(tanh, f, t)));
  }

  lemma KeywordsEarningsFrame(tanh: real -> real, f: MarketFeatures, g: MarketFeatures, t: Tally)
    requires IsTanh(tanh)
    requires g.bullishKeywordCount == f.bullishKeywordCount && g.bearishKeywordCount == f.bearishKeywordCount
    requires g.bullishKeywordScoreTotal == f.bullishKeywordScoreTotal
    requires g.bearishKeywordScoreTotal == f.bearishKeywordScoreTotal
    requires g.hasHighImpactKeywords == f.hasHighImpactKeywords
    requires g.earningsSurprisePercent == f.earningsSurprisePercent
    requires g.guidanceChangePercent == f.guidanceChangePercent
    ensures KeywordsEarnings(tanh, g, t) == KeywordsEarnings(tanh, f, t)
  {
  }

  lemma FlagsSocialFrame(f: MarketFeatures, other: real, t: Tally)
    ensures FlagsSocial(f.(newsSentimentScore := other), t) == FlagsSocial(f, t)
  {
  }

  lemma SectorAnalystsFrame(f: MarketFeatures, other: real, t: Tally)
    ensures SectorAnalysts(f.(newsSentimentScore := other), t) == SectorAnalysts(f, t)
  {
  }

  /** Whatever the news tally, the later sub-signals add the same amount and count. */
  lemma AfterNewsShift(tanh: real -> real, f: MarketFeatures, t1: Tally, d: real)
    requires IsTanh(tanh)
    ensures AfterNews(tanh, f, t1.Shift(d)) == AfterNews(tanh, f, t1).Shift(d)
  {
    KeywordsEarningsShift(tanh, f, t1, d);
    FlagsSocialShift(f, KeywordsEarnings(tanh, f, t1), d);
    SectorAnalystsShift(f, FlagsSocial(f, KeywordsEarnings(tanh, f, t1)), d);
  }

  lemma KeywordsEarningsShift(tanh: real -> real, f: MarketFeatures, t: Tally, d: real)
    requires IsTanh(tanh)
    ensures KeywordsEarnings(tanh, f, t.Shift(d)) == KeywordsEarnings(tanh, f, t).Shift(d)
  {
  }

  lemma FlagsSocialShift(f: MarketFeatures, t: Tally, d: real)
    ensures FlagsSocial(f, t.Shift(d)) == FlagsSocial(f, t).Shift(d)
  {
  }

  lemma SectorAnalystsShift(f: MarketFeatures, t: Tally, d: real)
    ensures SectorAnalysts(f, t.Shift(d)) == SectorAnalysts(f, t).Shift(d)
  {
  }

  // ---------------------------------------------------------------- global markets

  /** A market's term: its label when categorical, else its saturated change beyond 0.5%. */
  function MoodTerm(tanh: real -> real, mood: Mood, change: real, labelWeight: real, changeWeight: real): (c: real)
    requires IsTanh(tanh)
    requires 0.0 <= changeWeight <= labelWeight
    ensures -labelWeight <= c <= labelWeight
    ensures mood == Positive ==> c == labelWeight
    ensures mood == Negative ==> c == -labelWeight
  {
    if mood == Positive then labelWeight
    else if mood == Negative then -labelWeight
    else if Abs(change) > 0.5 then tanh(change) * changeWeight
    else 0.0
  }

  /** The Asian, European and futures labels all equal `mood`. */
  predicate AllMarkets(f: MarketFeatures, mood: Mood) {
    f.asianMarketSentiment == mood && f.europeanMarketSentiment == mood && f.futuresSentiment == mood
  }

  /**
   * Global-market score: Asian term (label 0.65) plus strength bonus, European
   * and futures terms (label 0.2 each), summed and clamped.
   */
  function GlobalScore(tanh: real -> real, f: MarketFeatures): (r: real)
    requires IsTanh(tanh)
    ensures -1.0 <= r <= 1.0
    ensures AllMarkets(f, Positive) && f.asianMarketStrength >= 0.0 ==> r == 1.0
    ensures AllMarkets(f, Negative) && f.asianMarketStrength <= 0.25 ==> r == -1.0
  {
    var asian := MoodTerm(tanh, f.asianMarketSentiment, f.asianMarketChange, 0.65, 0.6)
                 + (if f.asianMarketStrength > 0.0 then f.asianMarketStrength * 0.2 else 0.0);
    var european := MoodTerm(tanh, f.europeanMarketSentiment, f.europeanMarketChange, 0.2, 0.15);
    var futures := MoodTerm(tanh, f.futuresSentiment, f.futuresChange, 0.2, 0.15);
    Clip(asian + european + futures, -1.0, 1.0)
  }

  /** With the label fixed, a larger market change never lowers the market's term. */
  lemma MoodTermNonDecreasing(tanh: real -> real, mood: Mood, a: real, b: real, labelWeight: real, changeWeight: real)
    requires IsTanh(tanh)
    requires 0.0 <= changeWeight <= labelWeight
    requires a <= b
    ensures MoodTerm(tanh, mood, a, labelWeight, changeWeight) <= MoodTerm(tanh, mood, b, labelWeight, changeWeight)
  {
    match mood
    case Positive =>
    case Negative =>
    case OtherMood =>
      assert MoodTerm(tanh, mood, a, labelWeight, changeWeight) == (if Abs(a) > 0.5 then tanh(a) * changeWeight else 0.0);
      assert MoodTerm(tanh, mood, b, labelWeight, changeWeight) == (if Abs(b) > 0.5 then tanh(b) * changeWeight else 0.0);
      GatedTanhMonotone(tanh, a, b, changeWeight, 0.5);
  }

  /**
   * With every label and the Asian strength fixed, larger Asian, European or
   * futures changes never lower the global score.
   */
  lemma GlobalNonDecreasingInChanges(tanh: real -> real, f: MarketFeatures, asian: real, european: real, futures: real)
    requires IsTanh(tanh)
    requires f.asianMarketChange <= asian && f.europeanMarketChange <= european && f.futuresChange <= futures
    ensures GlobalScore(tanh, f)
      <= GlobalScore(tanh, f.(asianMarketChange := asian, europeanMarketChange := european, futuresChange := futures))
  {
    MoodTermNonDecreasing(tanh, f.asianMarketSentiment, f.asianMarketChange, asian, 0.65, 0.6);
    MoodTermNonDecreasing(tanh, f.europeanMarketSentiment, f.europeanMarketChange, european, 0.2, 0.15);
    MoodTermNonDecreasing(tanh, f.futuresSentiment, f.futuresChange, futures, 0.2, 0.15);
  }

  // ---------------------------------------------------------------- volume

  /** The volume-ratio tier, signed by the day's price change. */
  function VolumeTier(tanh: real -> real, ratio: real, change: real): (c: real)
    requires IsTanh(tanh)
    ensures -0.8 <= c <= 0.8
  {
    if ratio > 2.0 then (if change > 1.0 then 0.8 else if change < -1.0 then -0.8 else 0.4)
    else if ratio > 1.5 then (if change > 1.0 then 0.6 else if change < -1.0 then -0.6 else 0.3)
    else if ratio > 1.0 then tanh(change / 2.0) * 0.4
    else if ratio > 0.8 then tanh(change / 2.0) * 0.3
    else tanh(change / 3.0) * 0.2
  }

  /** The selloff floor: a drop beyond 2% caps the score at -0.5, beyond 1.5% at -0.3. */
  function SelloffFloor(score: real, change: real): (c: real)
    ensures c <= score
    ensures change < -2.0 ==> c <= -0.5
    ensures -2.0 <= change < -1.5 ==> c <= -0.3
    ensures change >= -1.5 ==> c == score
  {
    if change < -2.0 then Min(score, -0.5)
    else if change < -1.5 then Min(score, -0.3)
    else score
  }

  function TrendNudge(trend: Trend): real {
    match trend
    case Rising => 0.1
    case Falling => -0.05
    case OtherTrend => 0.0
  }

  /** Volume score: direction-aware tier, selloff floor, then the trend nudge, clamped. */
  function VolumeScore(tanh: real -> real, f: MarketFeatures): (r: real)
    requires IsTanh(tanh)
    ensures -1.0 <= r <= 1.0
    ensures f.priceChange1d < -2.0 ==> r <= (if f.volumeTrend == Rising then -0.4 else -0.5)
    ensures -2.0 <= f.priceChange1d < -1.5 ==> r <= (if f.volumeTrend == Rising then -0.2 else -0.3)
  {
    var floored := SelloffFloor(VolumeTier(tanh, f.volumeRatio, f.priceChange1d), f.priceChange1d);
    Clip(floored + TrendNudge(f.volumeTrend), -1.0, 1.0)
  }

  // ---------------------------------------------------------------- fundamentals

  /** Everything but the PE term; the PE term is always counted on top. */
  function FundamentalTally(tanh: real -> real, f: MarketFeatures): Tally
    requires IsTanh(tanh)
  {
    var growth := GrowthTally(tanh, f.revenueGrowth, f.earningsGrowth, f.marginChangePercent);
    ActionTally(growth, f.analystAction, f.insiderActivity)
  }

  /** Revenue growth, earnings growth and margin change, each counted beyond 0.5%. */
  function GrowthTally(tanh: real -> real, revenue: real, earnings: real, margin: real): Tally
    requires IsTanh(tanh)
  {
    var t1 := if Abs(revenue) > 0.5 then NoEvidence.Count(tanh(revenue / 25.0) * 0.7) else NoEvidence;
    var t2 := if Abs(earnings) > 0.5 then t1.Count(tanh(earnings / 30.0) * 0.8) else t1;
    if Abs(margin) > 0.5 then t2.Count(tanh(margin / 20.0) * 0.5) else t2
  }

  /** The analyst action, then the insider activity. */
  function ActionTally(t: Tally, analyst: AnalystAction, insider: InsiderActivity): Tally {
    var t4 :=
      match analyst
      case Upgrade => t.Count(0.6)
      case Downgrade => t.Count(-0.6)
      case OtherAction => t;
    match insider
    case Buying => t4.Count(0.5)
    case Selling => t4.Count(-0.5)
    case OtherActivity => t4
  }

  /** The PE-percentile term, always evaluated: zero at the 50th percentile. */
  function PeSignal(percentile: real): real {
    (percentile - 50.0) / 50.0 * 0.5
  }

  /** Fundamental score: average including the always-counted PE term, clamped. */
  function FundamentalScore(tanh: real -> real, f: MarketFeatures): (r: real)
    requires IsTanh(tanh)
    ensures -1.0 <= r <= 1.0
    ensures NeutralFundamentals(f) ==> r == 0.0
  {
    WithPe(FundamentalTally(tanh, f), f.peRatioPercentile)
  }

  /** No growth beyond 0.5%, no analyst or insider action, PE at the 50th percentile. */
  predicate NeutralFundamentals(f: MarketFeatures) {
    && Abs(f.revenueGrowth) <= 0.5 && Abs(f.earningsGrowth) <= 0.5 && Abs(f.marginChangePercent) <= 0.5
    && f.analystAction == OtherAction && f.insiderActivity == OtherActivity
    && f.peRatioPercentile == 50.0
  }

  /** Counts the PE term into the tally and averages, clamped. */
  function WithPe(t: Tally, percentile: real): (r: real)
    ensures -1.0 <= r <= 1.0
  {
    var all := t.Count(PeSignal(percentile));
    Clip(all.sum / AtLeastOne(all.count), -1.0, 1.0)
  }

  /** Holding everything else fixed, a higher PE percentile never lowers the fundamental score. */
  lemma FundamentalNonDecreasingInPe(tanh: real -> real, f: MarketFeatures, higher: real)
    requires IsTanh(tanh)
    requires f.peRatioPercentile <= higher
    ensures FundamentalScore(tanh, f) <= FundamentalScore(tanh, f.(peRatioPercentile := higher))
  {
    var g := f.(peRatioPercentile := higher);
    assert FundamentalTally(tanh, g) == FundamentalTally(tanh, f);
    WithPeNonDecreasing(FundamentalTally(tanh, f), f.peRatioPercentile, higher);
  }

  lemma WithPeNonDecreasing(t: Tally, a: real, b: real)
    requires a <= b
    ensures WithPe(t, a) <= WithPe(t, b)
  {
    var n := AtLeastOne(t.count + 1);
    RatioMonotone(t.sum + PeSignal(a), t.sum + PeSignal(b), n);
  }

  // ---------------------------------------------------------------- intraday

  function IntradayTally(tanh: real -> real, f: MarketFeatures): Tally
    requires IsTanh(tanh)
  {
    var t2 := ChangeVolumeTally(tanh, f);
    if Abs(f.openCloseGapPercent) > 0.1 then t2.Count(GapTerm(tanh, f.openCloseGapPercent)) else t2
  }

  /** The intraday change (or mild volume activity), then the intraday volume ratio. */
  function ChangeVolumeTally(tanh: real -> real, f: MarketFeatures): Tally
    requires IsTanh(tanh)
  {
    var ratio := f.intradayVolumeRatio;
    var t1 :=
      if Abs(f.intradayChangePercent) > 0.1 then NoEvidence.Count(tanh(f.intradayChangePercent / 5.0) * 0.5)
      else NoEvidence.Count(if ratio > 1.0 then (ratio - 1.0) * 0.1 else 0.0);
    if ratio > 1.5 then t1.Count(tanh((ratio - 1.0) * 2.0) * 0.3)
    else if ratio > 1.1 then t1.Count((ratio - 1.0) * 0.2)
    else t1
  }

  /** The open/close gap sub-signal, counted only for a gap beyond 0.1%. */
  function GapTerm(tanh: real -> real, gap: real): real
    requires IsTanh(tanh)
  {
    tanh(gap / 3.0) * 0.4
  }

  /** No intraday move or gap beyond 0.1% and no above-average intraday volume. */
  predicate QuietSession(f: MarketFeatures) {
    Abs(f.intradayChangePercent) <= 0.1 && f.intradayVolumeRatio <= 1.0 && Abs(f.openCloseGapPercent) <= 0.1
  }

  /** Intraday score: change, volume activity and open/close gap averaged, clamped. */
  function IntradayScore(tanh: real -> real, f: MarketFeatures): (r: real)
    requires IsTanh(tanh)
    ensures -1.0 <= r <= 1.0
    ensures QuietSession(f) ==> r == 0.0
  {
    var t := IntradayTally(tanh, f);
    Clip(t.sum / AtLeastOne(t.count), -1.0, 1.0)
  }

  /**
   * Within either side of the 0.1% gate, a larger open/close gap never lowers
   * the intraday score. Crossing the gate is not monotone: see
   * `IntradayGapGateCanLower`.
   */
  lemma IntradayNonDecreasingInGap(tanh: real -> real, f: MarketFeatures, higher: real)
    requires IsTanh(tanh)
    requires f.openCloseGapPercent <= higher
    requires (Abs(f.openCloseGapPercent) > 0.1) == (Abs(higher) > 0.1)
    ensures IntradayScore(tanh, f) <= IntradayScore(tanh, f.(openCloseGapPercent := higher))
  {
    var g := f.(openCloseGapPercent := higher);
    assert ChangeVolumeTally(tanh, g) == ChangeVolumeTally(tanh, f);
    var t2 := ChangeVolumeTally(tanh, f);
    if Abs(higher) > 0.1 {
      TanhScaledMonotone(tanh, f.openCloseGapPercent / 3.0, higher / 3.0, 0.4);
      AverageMonotone(t2.Count(GapTerm(tanh, f.openCloseGapPercent)), t2.Count(GapTerm(tanh, higher)));
    }
    var a := IntradayTally(tanh, f);
    var b := IntradayTally(tanh, g);
    RatioMonotone(a.sum, b.sum, AtLeastOne(a.count));
    ClipMonotone(a.sum / AtLeastOne(a.count), b.sum / AtLeastOne(b.count), -1.0, 1.0);
  }

  /**
   * A small gap that just clears the gate is counted as a new sub-signal and
   * dilutes a strong intraday move: a 5% rise with no gap scores at least
   * 1/3, the same rise with a 0.3% gap less than that.
   */
  lemma IntradayGapGateCanLower(tanh: real -> real, f: MarketFeatures)
    requires IsTanh(tanh) && TanhBounds(tanh)
    requires f.intradayChangePercent == 5.0 && f.intradayVolumeRatio == 1.0 && f.openCloseGapPercent == 0.0
    ensures IntradayScore(tanh, f.(openCloseGapPercent := 0.3)) < IntradayScore(tanh, f)
  {
    var g := f.(openCloseGapPercent := 0.3);
    assert ChangeVolumeTally(tanh, g) == ChangeVolumeTally(tanh, f);
    var x := tanh(1.0);
    assert 2.0 / 3.0 <= x <= 1.0 by {
      assert 1.0 - 1.0 * 1.0 * 1.0 / 3.0 <= tanh(1.0) <= 1.0;
    }
    assert ChangeVolumeTally(tanh, f) == Tally(0.0 + x * 0.5, 1);
    var y := tanh(0.3 / 3.0);
    assert 0.0 <= y <= 0.1 by {
      assert 0.3 / 3.0 == 0.1;
      assert 0.1 - 0.1 * 0.1 * 0.1 / 3.0 <= tanh(0.1) <= 0.1;
    }
    assert IntradayScore(tanh, f) == x * 0.5;
    assert IntradayScore(tanh, g) == (x * 0.5 + y * 0.4) / 2.0;
  }
}

=== FILE: signals.dfy ===
/** The trading-signal vocabulary shared by versions 5 and 6. */
module Signals {

  datatype SignalKind = Buy | Sell | Warning | Opportunity | Alert
  datatype Strength = VeryStrong | Strong | Moderate | Critical | High

  /** A signal; `R` says why it was raised, with the readings kept instead of formatted text. */
  datatype Signal<R> = Signal(kind: SignalKind, strength: Strength, reason: R)

  /** The kinds of a list of signals, in order. */
  function KindsOf<R>(s: seq<Signal<R>>): (r: seq<SignalKind>)
    ensures |r| == |s| && forall i :: 0 <= i < |s| ==> r[i] == s[i].kind
  {
    seq(|s|, i requires 0 <= i < |s| => s[i].kind)
  }

  lemma KindsOfConcat<R>(a: seq<Signal<R>>, b: seq<Signal<R>>)
    ensures KindsOf(a + b) == KindsOf(a) + KindsOf(b)
  {
    assert forall i :: 0 <= i < |a + b| ==> KindsOf(a + b)[i] == (KindsOf(a) + KindsOf(b))[i];
  }
}

=== FILE: signals_v6.dfy ===
/** The trading-signal and top-reason rule tables of version 6. */
module SignalsV6 {
  import opened Wrappers
  import opened Maths
  import opened Features
  import opened Signals

  /** Why a signal was raised; the readings are kept instead of formatted text. */
  datatype SignalReason =
    | BullishAlignment | BullishHighConfidence | BullishMomentum
    | BearishAlignment | BearishHighConfidence | BearishMomentum
    | ExtremeOverbought(rsi: real) | Overbought(rsi: real)
    | ExtremeOversold(rsi: real) | Oversold(rsi: real)
    | ExceptionalVolume(ratio: real) | HighVolume(ratio: real)
    | PositiveNews | NegativeNews

  type SignalV6 = Signal<SignalReason>

  /** A signal from the consensus block, which depends on the predicted direction. */
  predicate IsConsensus(s: SignalV6) {
    s.reason in {BullishAlignment, BullishHighConfidence, BullishMomentum,
                 BearishAlignment, BearishHighConfidence, BearishMomentum}
  }

  /** The consensus block: at most one BUY when bullish, at most one SELL when bearish. */
  function ConsensusSignals(bullish: bool, confidence: real, technical: real, sentiment: real): (r: seq<SignalV6>)
    ensures forall i :: 0 <= i < |r| ==> IsConsensus(r[i]) && r[i].kind == (if bullish then Buy else Sell)
    ensures KindsOf(r) == if confidence > 0.60 then [if bullish then Buy else Sell] else []
  {
    if bullish then
      if confidence > 0.80 && technical > 0.6 && sentiment > 0.4 then [Signal(Buy, VeryStrong, BullishAlignment)]
      else if confidence > 0.70 then [Signal(Buy, Strong, BullishHighConfidence)]
      else if confidence > 0.60 then [Signal(Buy, Moderate, BullishMomentum)]
      else []
    else
      if confidence > 0.80 && technical < -0.6 && sentiment < -0.4 then [Signal(Sell, VeryStrong, BearishAlignment)]
      else if confidence > 0.70 then [Signal(Sell, Strong, BearishHighConfidence)]
      else if confidence > 0.60 then [Signal(Sell, Moderate, BearishMomentum)]
      else []
  }

  /** RSI alerts: an overbought WARNING, then an oversold OPPORTUNITY; a zero or missing RSI raises neither. */
  function RsiSignals(rsi: Option<real>): (r: seq<SignalV6>)
    ensures KindsOf(r) == (if Truthy(rsi) && rsi.value > 75.0 then [Warning] else [])
      + (if Truthy(rsi) && rsi.value < 25.0 then [Opportunity] else [])
    ensures forall i :: 0 <= i < |r| ==> !IsConsensus(r[i])
  {
    if !Truthy(rsi) then []
    else
      var v := rsi.value;
      var warning :=
        if v > 80.0 then [Signal(Warning, Critical, ExtremeOverbought(v))]
        else if v > 75.0 then [Signal(Warning, High, Overbought(v))]
        else [];
      var opportunity :=
        if v < 20.0 then [Signal(Opportunity, Critical, ExtremeOversold(v))]
        else if v < 25.0 then [Signal(Opportunity, High, Oversold(v))]
        else [];
      warning + opportunity
  }

  /** Volume alert above 1.8 times the average volume. */
  function VolumeSignals(ratio: real): (r: seq<SignalV6>)
    ensures KindsOf(r) == if ratio > 1.8 then [Alert] else []
    ensures forall i :: 0 <= i < |r| ==> !IsConsensus(r[i])
  {
    if ratio > 2.5 then [Signal(Alert, Critical, ExceptionalVolume(ratio))]
    else if ratio > 1.8 then [Signal(Alert, High, HighVolume(ratio))]
    else []
  }

  /** News block: a BUY for very positive sentiment, a SELL for very negative, each only with more than five articles. */
  function NewsSignals(sentiment: real, newsCount: real): (r: seq<SignalV6>)
    ensures KindsOf(r) ==
      if newsCount > 5.0 && sentiment > 0.7 then [Buy]
      else if newsCount > 5.0 && sentiment < -0.7 then [Sell]
      else []
    ensures forall i :: 0 <= i < |r| ==> !IsConsensus(r[i])
  {
    if sentiment > 0.7 && newsCount > 5.0 then [Signal(Buy, Strong, PositiveNews)]
    else if sentiment < -0.7 && newsCount > 5.0 then [Signal(Sell, Strong, NegativeNews)]
    else []
  }

  /** Appending non-consensus signals leaves every consensus signal at its position in the head. */
  lemma ConsensusOnlyInHead(head: seq<SignalV6>, tail: seq<SignalV6>)
    requires forall j :: 0 <= j < |tail| ==> !IsConsensus(tail[j])
    ensures forall i :: 0 <= i < |head + tail| && IsConsensus((head + tail)[i]) ==> i < |head| && (head + tail)[i] == head[i]
  {
  }

  /** The RSI, volume and news blocks, which follow the consensus block; none is a consensus signal. */
  function AlertSignals(f: MarketFeatures, sentiment: real): (r: seq<SignalV6>)
    ensures |r| <= 3
    ensures forall i :: 0 <= i < |r| ==> !IsConsensus(r[i])
    ensures KindsOf(r) == KindsOf(RsiSignals(f.rsi)) + KindsOf(VolumeSignals(f.volumeRatio))
      + KindsOf(NewsSignals(sentiment, f.newsCount))
  {
    var s := RsiSignals(f.rsi);
    var v := VolumeSignals(f.volumeRatio);
    var n := NewsSignals(sentiment, f.newsCount);
    KindsOfConcat(s, v);
    KindsOfConcat(s + v, n);
    s + v + n
  }

  /** All signals in rule order, before the five-signal cap; at most four rules can fire. */
  function AllSignals(f: MarketFeatures, bullish: bool, confidence: real, technical: real, sentiment: real): (r: seq<SignalV6>)
    ensures |r| <= 4
    ensures KindsOf(r) == KindsOf(ConsensusSignals(bullish, confidence, technical, sentiment)) + KindsOf(AlertSignals(f, sentiment))
    ensures forall i :: 0 <= i < |r| && IsConsensus(r[i]) ==> r[i].kind == (if bullish then Buy else Sell)
    ensures confidence <= 0.60 ==> forall i :: 0 <= i < |r| ==> !IsConsensus(r[i])
  {
    var c := ConsensusSignals(bullish, confidence, technical, sentiment);
    var tail := AlertSignals(f, sentiment);
    KindsOfConcat(c, tail);
    ConsensusOnlyInHead(c, tail);
    c + tail
  }

  /**
   * The emitted signals: at most five; a consensus BUY only when bullish and a
   * consensus SELL only when bearish; a WARNING exactly for a truthy RSI above
   * 75, an OPPORTUNITY exactly for a truthy RSI below 25 and an ALERT exactly
   * for volume above 1.8 times average.
   */
  function GenerateSignals(f: MarketFeatures, bullish: bool, confidence: real, technical: real, sentiment: real)
    : (r: seq<SignalV6>)
    ensures |r| <= 5
    ensures forall i :: 0 <= i < |r| && IsConsensus(r[i]) && r[i].kind == Buy ==> bullish
    ensures forall i :: 0 <= i < |r| && IsConsensus(r[i]) && r[i].kind == Sell ==> !bullish
    ensures confidence <= 0.60 ==> forall i :: 0 <= i < |r| ==> !IsConsensus(r[i])
    ensures bullish && confidence > 0.60 ==> Buy in KindsOf(r)
    ensures Warning in KindsOf(r) <==> Truthy(f.rsi) && f.rsi.value > 75.0
    ensures Opportunity in KindsOf(r) <==> Truthy(f.rsi) && f.rsi.value < 25.0
    ensures Alert in KindsOf(r) <==> f.volumeRatio > 1.8
  {
    var all := AllSignals(f, bullish, confidence, technical, sentiment);
    var head := KindsOf(ConsensusSignals(bullish, confidence, technical, sentiment));
    assert Warning !in head && Opportunity !in head && Alert !in head;
    var rsi := KindsOf(RsiSignals(f.rsi));
    var volume := KindsOf(VolumeSignals(f.volumeRatio));
    var news := KindsOf(NewsSignals(sentiment, f.newsCount));
    assert Alert !in rsi && Warning !in volume && Opportunity !in volume;
    assert Warning !in news && Opportunity !in news && Alert !in news;
    assert KindsOf(all) == head + (rsi + volume + news);
    assert Take(all, 5) == all;
    Take(all, 5)
  }

  /** The five-signal cap never drops a signal: at most four rules can fire. */
  lemma SignalCapNeverBites(f: MarketFeatures, bullish: bool, confidence: real, technical: real, sentiment: real)
    ensures GenerateSignals(f, bullish, confidence, technical, sentiment)
      == AllSignals(f, bullish, confidence, technical, sentiment)
  {
  }

  datatype TopReason =
    | StrongBullishTechnicals | ModerateBullishTechnicals
    | StrongBearishTechnicals | ModerateBearishTechnicals
    | PositiveNewsAndBuying | SlightBullishShift
    | NegativeNewsAndSelling | SlightBearishShift
    | AsianStrength | AsianWeakness
    | EuropeanStrength | EuropeanWeakness
    | VolumeSupport | OversoldConditions | OverboughtConditions

  function TechnicalReason(technical: real): (r: seq<TopReason>)
    ensures |r| == 1 <==> Abs(technical) > 0.4
    ensures |r| <= 1
  {
    if technical > 0.7 then [StrongBullishTechnicals]
    else if technical > 0.4 then [ModerateBullishTechnicals]
    else if technical < -0.7 then [StrongBearishTechnicals]
    else if technical < -0.4 then [ModerateBearishTechnicals]
    else []
  }

  function SentimentReason(sentiment: real, newsCount: real): (r: seq<TopReason>)
    ensures |r| == 1 <==> Abs(sentiment) > 0.3
    ensures |r| <= 1
  {
    if sentiment > 0.6 && newsCount > 3.0 then [PositiveNewsAndBuying]
    else if sentiment > 0.3 then [SlightBullishShift]
    else if sentiment < -0.6 && newsCount > 3.0 then [NegativeNewsAndSelling]
    else if sentiment < -0.3 then [SlightBearishShift]
    else []
  }

  /**
   * The market-context reasons, in rule order: the Asian label, the European
   * label, volume above 1.5 times its average, then a truthy RSI below 30 or above 70.
   */
  function MarketReasons(f: MarketFeatures): (r: seq<TopReason>)
    ensures |r| <= 4
    ensures AsianStrength in r <==> f.asianMarketSentiment == Positive
    ensures AsianWeakness in r <==> f.asianMarketSentiment == Negative
    ensures EuropeanStrength in r <==> f.europeanMarketSentiment == Positive
    ensures EuropeanWeakness in r <==> f.europeanMarketSentiment == Negative
    ensures VolumeSupport in r <==> f.volumeRatio > 1.5
    ensures OversoldConditions in r <==> Truthy(f.rsi) && f.rsi.value < 30.0
    ensures OverboughtConditions in r <==> Truthy(f.rsi) && f.rsi.value > 70.0
    ensures forall x :: x in r ==> IsMarketReason(x)
  {
    MoodReasons(f) + TapeReasons(f)
  }

  /** The regional labels: the Asian reason, then the European one. */
  function MoodReasons(f: MarketFeatures): (r: seq<TopReason>)
    ensures |r| <= 2
    ensures AsianStrength in r <==> f.asianMarketSentiment == Positive
    ensures AsianWeakness in r <==> f.asianMarketSentiment == Negative
    ensures EuropeanStrength in r <==> f.europeanMarketSentiment == Positive
    ensures EuropeanWeakness in r <==> f.europeanMarketSentiment == Negative
    ensures VolumeSupport !in r && OversoldConditions !in r && OverboughtConditions !in r
    ensures forall x :: x in r ==> IsMarketReason(x)
  {
    AsianReason(f.asianMarketSentiment) + EuropeanReason(f.europeanMarketSentiment)
  }

  /** The trading reasons: volume support, then an RSI extreme. */
  function TapeReasons(f: MarketFeatures): (r: seq<TopReason>)
    ensures |r| <= 2
    ensures VolumeSupport in r <==> f.volumeRatio > 1.5
    ensures OversoldConditions in r <==> Truthy(f.rsi) && f.rsi.value < 30.0
    ensures OverboughtConditions in r <==> Truthy(f.rsi) && f.rsi.value > 70.0
    ensures AsianStrength !in r && AsianWeakness !in r
    ensures EuropeanStrength !in r && EuropeanWeakness !in r
    ensures forall x :: x in r ==> IsMarketReason(x)
  {
    VolumeReason(f.volumeRatio) + RsiReason(f.rsi)
  }

  function AsianReason(mood: Mood): (r: seq<TopReason>)
    ensures |r| <= 1
    ensures forall x :: x in r ==> x == AsianStrength || x == AsianWeakness
    ensures AsianStrength in r <==> mood == Positive
    ensures AsianWeakness in r <==> mood == Negative
  {
    match mood
    case Positive => [AsianStrength]
    case Negative => [AsianWeakness]
    case OtherMood => []
  }

  function EuropeanReason(mood: Mood): (r: seq<TopReason>)
    ensures |r| <= 1
    ensures forall x :: x in r ==> x == EuropeanStrength || x == EuropeanWeakness
    ensures EuropeanStrength in r <==> mood == Positive
    ensures EuropeanWeakness in r <==> mood == Negative
  {
    match mood
    case Positive => [EuropeanStrength]
    case Negative => [EuropeanWeakness]
    case OtherMood => []
  }

  function VolumeReason(ratio: real): (r: seq<TopReason>)
    ensures |r| <= 1
    ensures forall x :: x in r ==> x == VolumeSupport
    ensures VolumeSupport in r <==> ratio > 1.5
  {
    if ratio > 1.5 then [VolumeSupport] else []
  }

  function RsiReason(rsi: Option<real>): (r: seq<TopReason>)
    ensures |r| <= 1
    ensures forall x :: x in r ==> x == OversoldConditions || x == OverboughtConditions
    ensures OversoldConditions in r <==> Truthy(rsi) && rsi.value < 30.0
    ensures OverboughtConditions in r <==> Truthy(rsi) && rsi.value > 70.0
  {
    if Truthy(rsi) && rsi.value < 30.0 then [OversoldConditions]
    else if Truthy(rsi) && rsi.value > 70.0 then [OverboughtConditions]
    else []
  }

  /** The reasons that describe market context rather than a score. */
  predicate IsMarketReason(x: TopReason) {
    match x
    case AsianStrength | AsianWeakness | EuropeanStrength | EuropeanWeakness => true
    case VolumeSupport | OversoldConditions | OverboughtConditions => true
    case _ => false
  }

  /**
   * The top reasons: the first three of the technical, sentiment and market
   * reasons, in that order; the predicted direction plays no part.
   */
  function TopReasons(f: MarketFeatures, technical: real, sentiment: real): (r: seq<TopReason>)
    ensures |r| <= 3
    ensures var n := |TechnicalReason(technical)| + |SentimentReason(sentiment, f.newsCount)| + |MarketReasons(f)|;
      |r| == if n < 3 then n else 3
    ensures forall i :: 0 <= i < |r| ==>
      r[i] in TechnicalReason(technical) + SentimentReason(sentiment, f.newsCount) + MarketReasons(f)
    ensures Abs(technical) > 0.4 ==> |r| >= 1 && r[0] == TechnicalReason(technical)[0]
    ensures Abs(technical) > 0.4 && Abs(sentiment) > 0.3 ==> |r| >= 2 && r[1] == SentimentReason(sentiment, f.newsCount)[0]
    ensures Abs(technical) <= 0.4 && Abs(sentiment) > 0.3 ==> |r| >= 1 && r[0] == SentimentReason(sentiment, f.newsCount)[0]
    ensures Abs(technical) <= 0.4 && Abs(sentiment) <= 0.3 ==> r == MarketReasons(f)[..|r|]
    ensures forall i :: 0 <= i < |r| && IsMarketReason(r[i]) ==> r[i] in MarketReasons(f)
  {
    var t := TechnicalReason(technical);
    var s := SentimentReason(sentiment, f.newsCount);
    FirstThree(t, s, MarketReasons(f));
    Take(t + s + MarketReasons(f), 3)
  }

  /**
   * The first three of an optional score reason `t`, an optional score reason
   * `s` and the market reasons `m`: how many there are, where each comes from,
   * and which leads.
   */
  lemma FirstThree(t: seq<TopReason>, s: seq<TopReason>, m: seq<TopReason>)
    requires |t| <= 1 && |s| <= 1
    requires forall x :: x in t + s ==> !IsMarketReason(x)
    ensures var n := |t| + |s| + |m|; |Take(t + s + m, 3)| == if n < 3 then n else 3
    ensures forall i :: 0 <= i < |Take(t + s + m, 3)| ==> Take(t + s + m, 3)[i] in t + s + m
    ensures |t| == 1 ==> Take(t + s + m, 3)[0] == t[0]
    ensures |t| == 1 && |s| == 1 ==> Take(t + s + m, 3)[1] == s[0]
    ensures |t| == 0 && |s| == 1 ==> Take(t + s + m, 3)[0] == s[0]
    ensures |t| == 0 && |s| == 0 ==> Take(t + s + m, 3) == m[..|Take(t + s + m, 3)|]
    ensures forall i :: 0 <= i < |Take(t + s + m, 3)| && IsMarketReason(Take(t + s + m, 3)[i]) ==>
      Take(t + s + m, 3)[i] in m
  {
    var all := t + s + m;
    var r := Take(all, 3);
    forall i | 0 <= i < |r|
      ensures r[i] in all
      ensures IsMarketReason(r[i]) ==> r[i] in m
    {
      assert r[i] == all[i];
      if i >= |t| + |s| {
        assert all[i] == m[i - |t| - |s|];
      } else {
        assert all[i] in t + s;
      }
    }
    if |t| == 0 && |s| == 0 {
      assert all == m;
    }
  }
}

=== FILE: target_v6.dfy ===
/** The tiered target-price projector of version 6. */
module TargetV6 {
  import opened Wrappers
  import opened Maths
  import opened Features

  datatype Projection = Projection(target: real, changePercent: real)

  /** Multiplier for recent 1-day momentum. */
  function DayBoost(change1d: real): (m: real)
    ensures 1.0 <= m <= 1.25
  {
    if Abs(change1d) > 1.5 then 1.25
    else if Abs(change1d) > 1.0 then 1.15
    else if Abs(change1d) > 0.5 then 1.05
    else 1.0
  }

  /** Multiplier for 5-day momentum. */
  function WeekBoost(change5d: real): (m: real)
    ensures 1.0 <= m <= 1.2
  {
    if Abs(change5d) > 4.0 then 1.20
    else if Abs(change5d) > 2.5 then 1.12
    else 1.0
  }

  /**
   * The unsigned move before the cap: a 1-8% base scaled by confidence,
   * then by volatility, technical and sentiment influence, market influence
   * and momentum; a same-direction 1-day move of more than 1% sets a floor of
   * 80% of that move.
   */
  function RawMove(confidence: real, bullish: bool, f: MarketFeatures, technical: real, sentiment: real): (m: real)
    ensures bullish && f.priceChange1d > 1.0 ==> m >= f.priceChange1d * 0.8
    ensures !bullish && f.priceChange1d < -1.0 ==> m >= Abs(f.priceChange1d) * 0.8
  {
    var confidenceFactor := (confidence - 0.55) / 0.43;
    var base := 1.0 + (8.0 - 1.0) * confidenceFactor;
    var marketInfluence := Max(0.0, f.globalMarketChange * 0.2 + (f.volumeRatio - 1.0) * 0.1);
    var volatilityMultiplier := Min(f.volatility.GetOr(1.0) / 1.8, 1.6);
    var combined := technical * 0.5 + sentiment * 0.6;
    var scaled := base * volatilityMultiplier * (1.0 + combined * 0.7) * (1.0 + marketInfluence);
    var boosted := scaled * DayBoost(f.priceChange1d) * WeekBoost(f.priceChange5d);
    if bullish && f.priceChange1d > 1.0 then Max(boosted, f.priceChange1d * 0.8)
    else if !bullish && f.priceChange1d < -1.0 then Max(boosted, Abs(f.priceChange1d) * 0.8)
    else boosted
  }

  /**
   * The projected target: the move is capped to [0.5, 10]% and signed by the
   * direction, so for a positive price the target lies above the price
   * exactly when the call is bullish.
   */
  function TargetPrice(price: real, confidence: real, bullish: bool, f: MarketFeatures, technical: real, sentiment: real)
    : (r: Projection)
    ensures 0.5 <= Abs(r.changePercent) <= 10.0
    ensures r.changePercent > 0.0 <==> bullish
    ensures price > 0.0 ==> (r.target > price <==> bullish)
    ensures price > 0.0 ==> price * 0.9 <= r.target <= price * 1.1
  {
    var move := Clip(RawMove(confidence, bullish, f, technical, sentiment), 0.5, 10.0);
    var change := if bullish then move else -move;
    var factor := 1.0 + change / 100.0;
    assert 0.9 <= factor <= 1.1 && (factor > 1.0 <==> bullish);
    ScaleBounds(price, factor);
    Projection(price * factor, change)
  }

  lemma ScaleBounds(price: real, k: real)
    requires 0.9 <= k <= 1.1
    ensures price > 0.0 ==> price * 0.9 <= price * k <= price * 1.1
    ensures price > 0.0 ==> (price * k > price <==> k > 1.0)
  {
    if price > 0.0 {
      assert price * k - price * 0.9 == price * (k - 0.9);
      assert price * 1.1 - price * k == price * (1.1 - k);
      assert price * k - price == price * (k - 1.0);
      MulNonNegative(price, k - 0.9);
      MulNonNegative(price, 1.1 - k);
      if k > 1.0 { assert price * (k - 1.0) > 0.0; }
      if k <= 1.0 { MulNonNegative(price, 1.0 - k); }
    }
  }

  /** A same-direction 1-day move between 1% and 12.5% is never under-shot by more than 20%. */
  lemma FollowsStrongMomentum(price: real, confidence: real, bullish: bool, f: MarketFeatures, technical: real, sentiment: real)
    requires bullish && 1.0 < f.priceChange1d <= 12.5
    ensures TargetPrice(price, confidence, bullish, f, technical, sentiment).changePercent >= f.priceChange1d * 0.8
  {
  }
}

=== FILE: wrappers.dfy ===
/** Failure-carrying values shared by every model version. */
module Wrappers {

  /** A feature read with a bare `.get(key)`: `None` when the key is absent. */
  datatype Option<+T> = None | Some(value: T) {

    /** The value, or `default` when absent (Python's `.get(key, default)`). */
    function GetOr(default: T): T {
      match this
      case Some(v) => v
      case None => default
    }
  }

  /** The outcome of an entry point: a value, or the message of an error response. */
  datatype Result<+T> = Success(value: T) | Failure(error: string) {

    /** The `success` flag of the response dictionary. */
    predicate IsSuccess() {
      Success?
    }
  }
}
